=== FILE: README.md ===
# bigbruhh core, modelled in Dafny

bigbruhh is an iOS accountability app. A new user answers a 45-step
psychological questionnaire. A processing screen then pushes the answers
to the backend, and a "confrontation" leads to the paywall. After that the
user gets nightly calls. The home screen grades them on promises kept and
broken. An evidence tab lists their call history. A full-screen "brutal
reality" review can be triggered by a stored flag.

This project models the deterministic logic under those screens:

- the step catalog and its lookups;
- the onboarding state and its persistence;
- the time-window picker's clock arithmetic;
- which ambient track plays;
- the user record's derived values;
- root-screen navigation;
- the processing stages and their error messages;
- the API client's outcome classification and endpoint paths;
- the grade tables and the countdown;
- the evidence totals and cards;
- the brutal-reality review and its trigger flag;
- the call state the system call interface publishes;
- the in-call screen's timer label and message box.

Everything is a datatype plus pure functions. The network, storage, audio,
clock and call-interface results enter as parameters.

One module per Swift file, plus three shared modules:

- `Wrappers` holds `Option`.
- `Strings` holds the parts of Swift's library the formatting code relies on:
  - `/` and `%` truncating toward zero (`TDiv`, `TRem`);
  - `Int(Double)` (`TruncToInt`);
  - `String(format: "%d" / "%02d")`;
  - `Int(String)`;
  - `split(separator:)`, which drops empty pieces.
- Dates and time intervals are `real` seconds.

| module | Swift file |
|---|---|
| `Steps` | Models/Onboarding/StepDefinitions.swift |
| `Onboarding` | Models/Onboarding/OnboardingState.swift |
| `OnboardingStore` | Core/Storage/OnboardingDataManager.swift |
| `TimePicker` | Features/Onboarding/Steps/TimePickerStep.swift |
| `OnboardingSound` | Features/Onboarding/Audio/OnboardingSoundManager.swift |
| `Users` | Models/User.swift |
| `Navigation` | Core/Views/RootView.swift, Core/Views/EntryView.swift |
| `AlmostThere` | Features/Onboarding/Views/AlmostThereSimpleView.swift, AlmostThereView.swift |
| `Processing` | Features/Onboarding/Views/ProcessingView.swift |
| `Api` | Core/Networking/APIService.swift |
| `Face` | Features/Home/Views/FaceView.swift |
| `Evidence` | Features/Home/Views/EvidenceView.swift |
| `BrutalMirror` | Features/BrutalReality/Views/BrutalRealityMirrorView.swift |
| `BrutalManager` | Core/Services/BrutalRealityManager.swift |
| `CallKit` | Features/Call/Services/CallKitManager.swift |
| `CallView` | Features/Call/Views/CallScreen.swift |

## Behaviour worth noting

- The root view re-decides the screen on every change of
  `isAuthenticated`, whatever screen is showing, including the home and
  call screens. `Navigation.AuthChangeOverwrites` states this.
- `AppScreen` has seven cases, none of them a login screen, so the
  welcome view's `showLogin` call has no target on the navigator.
- The entry view shows `AlmostThereView`; the root view shows
  `AlmostThereSimpleView`. Both reach the same screen for every
  authentication state (`Navigation.EntryAgreesWithRoot`).
- The brutal-reality screen computes its own reading time from the score.
  It never reads the review's `readingTimeSeconds`. The built-in review
  carries 10 there but is held for 8 seconds (`BrutalManager.MockOnScreen`).
- The progress message's emoji are written in the view as the fire and skull
  emoji's UTF-8 bytes read back as Windows-1252. The app therefore shows the
  four characters "ðŸ”¥" (U+00F0 U+0178 U+201D U+00A5) and "ðŸ’€"
  (U+00F0 U+0178 U+2019 U+20AC), and the model returns exactly those.

## Model

| member | source | states |
|---|---|---|
| Steps.CatalogIds | bigbruhh/Models/Onboarding/StepDefinitions.swift:13-702 | The catalog has 45 steps, and step i (0-based) has id i + 1. |
| Steps.StepWithId | bigbruhh/Models/Onboarding/StepDefinitions.swift:707-709 | The lookup finds nothing exactly when no entry has the id. Otherwise it returns an entry with that id, and no earlier entry has it. |
| Steps.StepWithIdInCatalog | bigbruhh/Models/Onboarding/StepDefinitions.swift:707-709 | In the catalog, ids 1..45 find entry id - 1. Every other id finds nothing. |
| Steps.StepsInPhase | bigbruhh/Models/Onboarding/StepDefinitions.swift:711-713 | Every returned entry has the phase and comes from the table. Every table entry of that phase is returned. |
| Steps.StepsInPhaseAppend | bigbruhh/Models/Onboarding/StepDefinitions.swift:711-713 | Filtering keeps order and multiplicity: the filter of two joined tables is the two filters joined. |
| Steps.StepsInPhaseIsContiguous | bigbruhh/Models/Onboarding/StepDefinitions.swift:711-713 | Filtering the catalog by a phase gives exactly that phase's contiguous id range, in table order. |
| Steps.TotalSteps | bigbruhh/Models/Onboarding/StepDefinitions.swift:715-717 | The catalog counts 45 steps. |
| Steps.CatalogPhases | bigbruhh/Models/Onboarding/StepDefinitions.swift:13-702 | Every step lies inside its phase's id range: 1-5, 6-11, 12-16, 17-21, 22-26, 27-31, 32-36, 37-41, 42-45. |
| Steps.CatalogFields | bigbruhh/Models/Onboarding/StepDefinitions.swift:13-702 | Every step has the storage shape of its type. Step 11 is the only dual-slider step. |
| Steps.CatalogInputs | bigbruhh/Models/Onboarding/StepDefinitions.swift:13-702 | Only choice steps carry options, each a non-empty list. Voice steps demand 6 to 10 seconds. |
| Steps.WarningInitiationColumnsFilled | bigbruhh/Models/Onboarding/StepDefinitions.swift:14-84 | Steps 1-5 fill voice_commitment, identity_name and biggest_lie, in that order. |
| Steps.ExcuseDiscoveryColumnsFilled | bigbruhh/Models/Onboarding/StepDefinitions.swift:85-185 | Steps 6-11 fill their six columns in order; step 11 fills two. |
| Steps.ExcuseConfrontationColumnsFilled | bigbruhh/Models/Onboarding/StepDefinitions.swift:186-269 | Steps 12-16 fill their four columns in order. |
| Steps.PatternAwarenessColumnsFilled | bigbruhh/Models/Onboarding/StepDefinitions.swift:270-347 | Steps 17-21 fill their three columns in order. |
| Steps.PatternAnalysisColumnsFilled | bigbruhh/Models/Onboarding/StepDefinitions.swift:348-425 | Steps 22-26 fill their four columns in order. |
| Steps.IdentityRebuildColumnsFilled | bigbruhh/Models/Onboarding/StepDefinitions.swift:426-496 | Steps 27-31 fill their four columns in order. |
| Steps.CommitmentSystemColumnsFilled | bigbruhh/Models/Onboarding/StepDefinitions.swift:497-574 | Steps 32-36 fill their three columns in order. |
| Steps.ExternalAnchorsColumnsFilled | bigbruhh/Models/Onboarding/StepDefinitions.swift:575-645 | Steps 37-41 fill their four columns in order. |
| Steps.FinalOathColumnsFilled | bigbruhh/Models/Onboarding/StepDefinitions.swift:646-702 | Steps 42-45 fill their three columns in order. |
| Steps.CatalogColumns | bigbruhh/Models/Onboarding/StepDefinitions.swift:13-702 | The whole catalog fills exactly the 34 listed columns, in step order. |
| Steps.ColumnsDistinct | bigbruhh/Models/Onboarding/StepDefinitions.swift:13-702 | The 34 columns are pairwise distinct. |
| Steps.CatalogFieldsDistinct | bigbruhh/Models/Onboarding/StepDefinitions.swift:13-702 | No storage column is written by two steps. |
| Onboarding.Fresh | bigbruhh/Models/Onboarding/OnboardingState.swift:37-53 | A new state starts on step 1 with no responses, no names and no completion, at the given time. |
| Onboarding.SaveResponse | bigbruhh/Models/Onboarding/OnboardingState.swift:81-83 | The response is stored under its step id. Every other step's entry is unchanged, and so is every other field. |
| Onboarding.GetResponse | bigbruhh/Models/Onboarding/OnboardingState.swift:85-87 | A response is found exactly when one is stored for the step, and it is the stored one. |
| Onboarding.SaveThenGet | bigbruhh/Models/Onboarding/OnboardingState.swift:81-87 | Reading a step just saved gives the saved response. |
| Onboarding.SaveKeepsOthers | bigbruhh/Models/Onboarding/OnboardingState.swift:81-87 | Saving one step leaves every other step's lookup unchanged. |
| Onboarding.SaveIdempotent | bigbruhh/Models/Onboarding/OnboardingState.swift:81-83 | Saving the same response twice is the same as saving it once. |
| Onboarding.NextStep | bigbruhh/Models/Onboarding/OnboardingState.swift:89-91 | The step goes up by exactly one, with no upper bound, and nothing else changes. |
| Onboarding.PreviousStep | bigbruhh/Models/Onboarding/OnboardingState.swift:93-96 | Above step 1 the step goes down by exactly one. At step 1 or below nothing changes at all. Nothing but the step ever changes. |
| Onboarding.NextThenPrevious | bigbruhh/Models/Onboarding/OnboardingState.swift:89-96 | Going back after going forward restores the state. |
| Onboarding.PreviousAtFirstStep | bigbruhh/Models/Onboarding/OnboardingState.swift:93-96 | Going back from step 1 does nothing. |
| Onboarding.Complete | bigbruhh/Models/Onboarding/OnboardingState.swift:98-101 | The state becomes completed at the given time. Step, responses, names and start time are kept. |
| Onboarding.Reset | bigbruhh/Models/Onboarding/OnboardingState.swift:103-111 | Back to step 1, with no responses, not completed, restarted at the given time. |
| Onboarding.ResetIsFresh | bigbruhh/Models/Onboarding/OnboardingState.swift:103-111 | A reset state equals a new one and has not started. |
| Onboarding.ProgressPercentage | bigbruhh/Models/Onboarding/OnboardingState.swift:115-118 | Progress is non-negative for every step from 0 on. A negative step, as a decoded record may carry, shows negative progress. |
| Onboarding.ProgressStrictlyIncreasing | bigbruhh/Models/Onboarding/OnboardingState.swift:115-118 | A later step always shows more progress. |
| Onboarding.ProgressAtLastStep | bigbruhh/Models/Onboarding/OnboardingState.swift:115-118 | Step 45 shows exactly 100 percent. |
| Onboarding.TotalResponses | bigbruhh/Models/Onboarding/OnboardingState.swift:120-122 | The count is zero exactly when nothing is stored. |
| Onboarding.HasStartedCharacterised | bigbruhh/Models/Onboarding/OnboardingState.swift:124-126 | A state has not started exactly when it is at step 1 or before with no responses. A step forward or a saved response starts it. |
| Onboarding.HasStarted | bigbruhh/Models/Onboarding/OnboardingState.swift:124-126 | Any saved response means the user has started. Without responses, the user has started exactly when past step 1. |
| OnboardingStore.Decode | bigbruhh/Core/Storage/OnboardingDataManager.swift:45-51 | A stored record decodes exactly when it is a well-formed encoding. |
| OnboardingStore.LoadCompletedData | bigbruhh/Core/Storage/OnboardingDataManager.swift:45-51 | A decodable record replaces the published data. Anything else leaves it as it was. Storage is untouched. |
| OnboardingStore.Open | bigbruhh/Core/Storage/OnboardingDataManager.swift:28-30 | On start-up the data is published exactly when a decodable record is stored. |
| OnboardingStore.SaveCompletedData | bigbruhh/Core/Storage/OnboardingDataManager.swift:35-42 | The state is published and stored so that it decodes back. Every other stored key is unchanged. |
| OnboardingStore.SaveThenLoad | bigbruhh/Core/Storage/OnboardingDataManager.swift:35-51 | A saved state is what a later start-up loads. |
| OnboardingStore.SaveThenRead | bigbruhh/Core/Storage/OnboardingDataManager.swift:35-83 | After a save, and after a later start-up, the getters return the saved record's user name, brother name, responses and per-step responses. |
| OnboardingStore.LoadWithoutRecordIsNoOp | bigbruhh/Core/Storage/OnboardingDataManager.swift:45-51 | Without a decodable record, loading changes nothing. |
| OnboardingStore.LoadIdempotent | bigbruhh/Core/Storage/OnboardingDataManager.swift:45-51 | Loading twice is the same as loading once. |
| OnboardingStore.ClearInProgressState | bigbruhh/Core/Storage/OnboardingDataManager.swift:54-57 | Only the in-progress key is removed. The published data stays. |
| OnboardingStore.ClearInProgressKeepsViews | bigbruhh/Core/Storage/OnboardingDataManager.swift:54-57 | Clearing in-progress state changes none of the derived views, nor what a start-up would load. |
| OnboardingStore.ClearAllData | bigbruhh/Core/Storage/OnboardingDataManager.swift:60-65 | Both keys are removed, other keys are kept, and nothing is published. |
| OnboardingStore.ClearAllEmptiesViews | bigbruhh/Core/Storage/OnboardingDataManager.swift:60-98 | After clearing, every derived view is empty and a start-up loads nothing. |
| OnboardingStore.HasCompletedOnboarding | bigbruhh/Core/Storage/OnboardingDataManager.swift:96-98 | Without published data onboarding counts as not completed. Otherwise the published record's completion flag decides. |
| OnboardingStore.UserName | bigbruhh/Core/Storage/OnboardingDataManager.swift:69-71 | The published record's user name. There is no name without published data. |
| OnboardingStore.BrotherName | bigbruhh/Core/Storage/OnboardingDataManager.swift:73-75 | The published record's brother name. The name is empty without published data. |
| OnboardingStore.AllResponses | bigbruhh/Core/Storage/OnboardingDataManager.swift:77-79 | The published record's responses. There are no responses without published data. |
| OnboardingStore.StoredResponse | bigbruhh/Core/Storage/OnboardingDataManager.swift:81-83 | A found response is one of all responses. |
| OnboardingStore.StoredResponseIsLookup | bigbruhh/Core/Storage/OnboardingDataManager.swift:77-83 | The per-step getter is the lookup in all responses, in both directions. |
| OnboardingStore.ResponsesOfKind | bigbruhh/Core/Storage/OnboardingDataManager.swift:85-93 | The filter keeps exactly the stored responses of the kind. |
| OnboardingStore.VoiceAndTextDisjoint | bigbruhh/Core/Storage/OnboardingDataManager.swift:85-93 | Voice and text responses never overlap, and both come from all responses. |
| TimePicker.ClockText | bigbruhh/Features/Onboarding/Steps/TimePickerStep.swift:33 | "%02d:%02d" of an hour and a minute reads back as those two numbers. |
| TimePicker.SlotStart | bigbruhh/Features/Onboarding/Steps/TimePickerStep.swift:28-30 | The twelve slots start between 18:00 and 23:30. |
| TimePicker.TimeOptions | bigbruhh/Features/Onboarding/Steps/TimePickerStep.swift:27-35 | There are twelve options, and option i is the clock text of slot i. |
| TimePicker.SlotClock | bigbruhh/Features/Onboarding/Steps/TimePickerStep.swift:27-35 | Option i reads back as hour 18 + i / 2 and minute 0 or 30. |
| TimePicker.SelectedTime | bigbruhh/Features/Onboarding/Steps/TimePickerStep.swift:37-39 | The shown slot is the cursor's, with an index past the end clamped to the last slot. |
| TimePicker.SelectedSlotClock | bigbruhh/Features/Onboarding/Steps/TimePickerStep.swift:37-39 | The selected slot reads back as the clamped slot's hour and minute. |
| TimePicker.DragSnap | bigbruhh/Features/Onboarding/Steps/TimePickerStep.swift:91-93 | A drag moves the cursor by the change when that stays on the wheel. Otherwise it clamps to the first or last slot. |
| TimePicker.Reset | bigbruhh/Features/Onboarding/Steps/TimePickerStep.swift:165-169 | A reset puts the cursor on the default slot and zeroes both opacities. |
| TimePicker.DefaultSlotIsEightPm | bigbruhh/Features/Onboarding/Steps/TimePickerStep.swift:19 | The default slot, at start and after a reset, is 20:00. |
| TimePicker.EndTime | bigbruhh/Features/Onboarding/Steps/TimePickerStep.swift:180-191 | A start that does not read back as two numbers is returned unchanged. Otherwise the result reads back as two numbers. |
| TimePicker.EndTimeAddsHalfHour | bigbruhh/Features/Onboarding/Steps/TimePickerStep.swift:180-191 | For a minute of the day, the end is 30 minutes later, modulo 24 hours. |
| TimePicker.LastSlotEndsAtMidnight | bigbruhh/Features/Onboarding/Steps/TimePickerStep.swift:180-191 | The 23:30 slot ends at 00:00. |
| TimePicker.SlotEndMinute | bigbruhh/Features/Onboarding/Steps/TimePickerStep.swift:180-191 | Every slot ends 30 minutes after it starts, except the last, which ends at midnight. |
| TimePicker.DisplayHour | bigbruhh/Features/Onboarding/Steps/TimePickerStep.swift:203 | On a 12-hour dial the hour is 1..12 and agrees with the 24-hour hour modulo 12. |
| TimePicker.Period | bigbruhh/Features/Onboarding/Steps/TimePickerStep.swift:204 | "PM" exactly from hour 12 on; "AM" exactly before. |
| TimePicker.FormatTimeForDisplay | bigbruhh/Features/Onboarding/Steps/TimePickerStep.swift:193-212 | A start that does not read back as two numbers is shown raw. |
| TimePicker.LabelFallsBackOnlyOnBadStart | bigbruhh/Features/Onboarding/Steps/TimePickerStep.swift:193-212 | The raw text is shown only when the start itself does not read back. A readable start gets a window label with an en dash. |
| TimePicker.SlotLabel | bigbruhh/Features/Onboarding/Steps/TimePickerStep.swift:193-212 | Slot i, for every slot but the last, is labelled from 6 + i / 2 o'clock to the next slot's start on the 12-hour dial, with "PM". |
| TimePicker.LastSlotLabel | bigbruhh/Features/Onboarding/Steps/TimePickerStep.swift:193-212 | The 23:30 slot is labelled "11:30–12:00 AM". |
| TimePicker.SlotEndPeriod | bigbruhh/Features/Onboarding/Steps/TimePickerStep.swift:204-211 | Each slot's label carries its end's period: PM for every slot but the last, whose window ends at 00:00 and shows AM. |
| TimePicker.HandleContinue | bigbruhh/Features/Onboarding/Steps/TimePickerStep.swift:228-237 | The submitted answer is a time window for the step: the selected slot as start, with the step's id and column. |
| TimePicker.SubmittedWindowIsHalfHour | bigbruhh/Features/Onboarding/Steps/TimePickerStep.swift:228-237 | The submitted window's end is 30 minutes after its start, modulo 24 hours. |
| OnboardingSound.ContextualAudio | bigbruhh/Features/Onboarding/Audio/OnboardingSoundManager.swift:75-92 | A selected track is always one of the two known ambient tracks. |
| OnboardingSound.ContextualAudioTable | bigbruhh/Features/Onboarding/Audio/OnboardingSoundManager.swift:75-92 | The selection table: sub-bass for voice steps recorded over 30 s, ticking for voice steps in the pattern phases and for every step in the last three phases, nothing otherwise. |
| OnboardingSound.StopAmbient | bigbruhh/Features/Onboarding/Audio/OnboardingSoundManager.swift:135-140 | After stopping, nothing plays and no track is recorded. |
| OnboardingSound.PlayAmbient | bigbruhh/Features/Onboarding/Audio/OnboardingSoundManager.swift:113-133 | A known track ends up playing and recorded. An unknown one leaves everything stopped. |
| OnboardingSound.UpdateAmbientForStep | bigbruhh/Features/Onboarding/Audio/OnboardingSoundManager.swift:95-111 | Without a selection the music stops. When the selected track is already recorded, nothing changes. |
| OnboardingSound.ConsistencyPreserved | bigbruhh/Features/Onboarding/Audio/OnboardingSoundManager.swift:21-22 | "Playing exactly when a track is recorded" holds initially and after every operation. |
| OnboardingSound.UpdateFollowsSelection | bigbruhh/Features/Onboarding/Audio/OnboardingSoundManager.swift:95-111 | From a consistent state, an update leaves exactly the selected track playing, or nothing. |
| OnboardingSound.UpdateIdempotent | bigbruhh/Features/Onboarding/Audio/OnboardingSoundManager.swift:95-111 | Updating for the same step twice is the same as once. |
| Users.DisplayName | bigbruhh/Models/User.swift:34-36 | The name if present. Otherwise the email's text before its first '@': a prefix of the email without '@', followed by '@' unless it is the whole email. Otherwise "User". |
| Users.DisplayNameOfEmail | bigbruhh/Models/User.swift:34-36 | Without a name, an email local@domain shows as local. |
| Users.DisplayNameOfPlainEmail | bigbruhh/Models/User.swift:34-36 | An email without '@' shows whole. |
| Users.ParseGrade | bigbruhh/Models/User.swift:44-48 | A parsed grade's spelling is the input. |
| Users.GradeRoundTrip | bigbruhh/Models/User.swift:44-48 | Every grade parses back from its spelling. Exactly "A", "B", "C" and "F" parse. |
| Users.GradeOf | bigbruhh/Models/User.swift:38-40 | A grade other than F is the stored spelling. |
| Users.GradeOfUser | bigbruhh/Models/User.swift:38-40 | The grade is the stored one when it parses, and F when it is missing or unknown. |
| Users.GradeLabelsDistinct | bigbruhh/Models/User.swift:59-75 | Different grades have different messages and different emoji. |
| Users.TimeUntilNextCall | bigbruhh/Models/User.swift:91-94 | There is no value exactly when no call is scheduled. Otherwise now plus the value is the call time. |
| Users.CallDueIffNoTimeLeft | bigbruhh/Models/User.swift:86-94 | A call is due exactly when one is scheduled and the time left is not positive. |
| Users.IsCallDue | bigbruhh/Models/User.swift:86-89 | With no call scheduled a call is never due. Otherwise it is due exactly when the scheduled time is not after now. |
| Navigation.DetermineInitialScreen | bigbruhh/Core/Views/RootView.swift:103-121 | Loading shows the loading screen. Signed out shows welcome. Signed in goes to onboarding, then almost-there, then home as the user's flags are set. |
| Navigation.MissingUserGoesToOnboarding | bigbruhh/Core/Views/RootView.swift:112-119 | A signed-in session without a user record goes to onboarding. |
| Navigation.EntryAgreesWithRoot | bigbruhh/Core/Views/EntryView.swift:15-28 | The entry view's branches choose the same screen as the root view, for every state. |
| Navigation.Apply | bigbruhh/Core/Views/RootView.swift:25-40 | Each navigator method and each screen's own assignment sets its fixed target screen. |
| Navigation.ApplyForgetsScreen | bigbruhh/Core/Views/RootView.swift:22-40 | The screen after an event does not depend on the screen before it. |
| Navigation.AuthChangeOverwrites | bigbruhh/Core/Views/RootView.swift:80-85 | An authentication change re-runs the decision and overwrites whatever screen was showing, just as on first appearance. |
| Navigation.CallOnlyViaShowCall | bigbruhh/Core/Views/RootView.swift:37-40 | Without a showCall event the call screen is never reached. |
| Navigation.LastEventWins | bigbruhh/Core/Views/RootView.swift:22-40 | After a sequence of events the screen is the one the last event chose. |
| AlmostThere.Next | bigbruhh/Features/Onboarding/Views/AlmostThereSimpleView.swift:97-104 | Before the last page NEXT turns the page. On the last page it opens the choice screen and stays put. |
| AlmostThere.NextPreservesValid | bigbruhh/Features/Onboarding/Views/AlmostThereSimpleView.swift:67 | The page cursor stays inside both prompt lists, so the prompt lookup never goes out of range. |
| AlmostThere.PressesFromStart | bigbruhh/Features/Onboarding/Views/AlmostThereSimpleView.swift:97-104 | After n presses the cursor is min(start + n, 3), and the choice screen is open exactly when the presses reach past the last page. |
| AlmostThere.ChoiceScreenStaysOpen | bigbruhh/Features/Onboarding/Views/AlmostThereSimpleView.swift:97-104 | Once open, the choice screen stays open. |
| AlmostThere.StaysOnLastPage | bigbruhh/Features/Onboarding/Views/AlmostThereSimpleView.swift:97-104 | Once the choice screen is open, NEXT changes nothing. |
| AlmostThere.ButtonColorMatchesAccent | bigbruhh/Features/Onboarding/Views/AlmostThereView.swift:58-67 | The simple view's button and the full view's accent share a colour on every page. It is green except on pages 1 and 2. |
| AlmostThere.HandleNextStep | bigbruhh/Features/Onboarding/Views/AlmostThereView.swift:235-245 | The full view pages exactly as the simple one and leaves both navigation flags alone. |
| AlmostThere.MarkAlmostThereCompleted | bigbruhh/Features/Onboarding/Views/AlmostThereView.swift:259-264 | Marking done only raises the go-home flag. |
| AlmostThere.HandleLeave | bigbruhh/Features/Onboarding/Views/AlmostThereView.swift:247-251 | LEAVE raises the go-home flag and leaves the pages and the paywall flag as they were. |
| AlmostThere.HandleCommit | bigbruhh/Features/Onboarding/Views/AlmostThereView.swift:253-257 | COMMIT only raises the paywall flag. |
| AlmostThere.ChoicesTouchOnlyTheirFlag | bigbruhh/Features/Onboarding/Views/AlmostThereView.swift:247-257 | LEAVE and COMMIT each set only their own flag, and they commute. |
| Processing.InitialState | bigbruhh/Features/Onboarding/Views/ProcessingView.swift:24-34 | The screen opens with CREATING, SYNCING, ENABLING, READY pending, no progress, no error, not complete. |
| Processing.PushFailure | bigbruhh/Features/Onboarding/Views/ProcessingView.swift:242-251 | There is no failure exactly when the push answered with success. A thrown error is passed on. An unsuccessful answer becomes a network error carrying its message, or "Unknown error". |
| Processing.UpdateStepStatus | bigbruhh/Features/Onboarding/Views/ProcessingView.swift:308-314 | An index in range sets that stage's status only. An index past the end changes nothing. |
| Processing.SuccessRun | bigbruhh/Features/Onboarding/Views/ProcessingView.swift:225-285 | A run without failure completes all four stages, ends at progress 1.0 and is complete. It schedules the completion callback only if one was not scheduled before. The error text is left as it was. |
| Processing.FailedRun | bigbruhh/Features/Onboarding/Views/ProcessingView.swift:225-303 | A run that fails at stage k: earlier stages are completed, stage k stays in progress, later stages are untouched. Progress is stage k's value and the failure's message is shown. |
| Processing.FailedStage | bigbruhh/Features/Onboarding/Views/ProcessingView.swift:225-271 | A failing run stops at one of the four stages. |
| Processing.Failure | bigbruhh/Features/Onboarding/Views/ProcessingView.swift:225-303 | A run fails exactly when a failing stage exists. |
| Processing.UnsuccessfulPush | bigbruhh/Features/Onboarding/Views/ProcessingView.swift:244-246 | An unsuccessful answer stops at SYNCING with progress 0.5 and shows "Network error: " with the server's message, or "Unknown error". |
| Processing.Reset | bigbruhh/Features/Onboarding/Views/ProcessingView.swift:324-335 | A reset clears the error and completion, puts all four stages back to pending and zeroes progress. |
| Processing.FreshRun | bigbruhh/Features/Onboarding/Views/ProcessingView.swift:225-340 | From a reset screen a run ends either with an error and no callback, or complete with exactly one callback. |
| Processing.SessionRedirectsAtMostOnce | bigbruhh/Features/Onboarding/Views/ProcessingView.swift:278-284 | Over any series of retries the completion callback fires at most once. It fires exactly when the last run completed, never while an error shows. |
| Processing.RestartForgetsPast | bigbruhh/Features/Onboarding/Views/ProcessingView.swift:324-340 | A retry's result does not depend on what the failed run left behind. |
| Processing.NetworkMessagesDistinct | bigbruhh/Features/Onboarding/Views/ProcessingView.swift:296-297 | A network failure shows its description after the "Network error: " prefix, so different descriptions give different messages. |
| Api.Headers | bigbruhh/Core/Networking/APIService.swift:80-85 | Every request sends a JSON content type. The bearer header is present exactly with a session and carries its token. No other header is set. |
| Api.Classify | bigbruhh/Core/Networking/APIService.swift:93-126 | Success exactly when the transport gave an HTTP answer whose status is below 400 and whose body decodes. The value is then the decoded envelope. A thrown transport error becomes a network error carrying its description. A response that is not HTTP becomes the server error "Invalid response". |
| Api.Request | bigbruhh/Core/Networking/APIService.swift:67-127 | A request is sent exactly when the base URL plus the endpoint parses. It goes there with the verb's name and the body, and its outcome is the classified answer. It carries exactly the headers Api.Headers gives for the session, so always `Content-Type: application/json`. When the URL does not parse, the outcome is an invalid URL. |
| Api.UnauthorizedBeforeServerError | bigbruhh/Core/Networking/APIService.swift:99-105 | A 401 is unauthorized whatever the body, never a server error. |
| Api.ServerErrorCarriesStatus | bigbruhh/Core/Networking/APIService.swift:103-105 | Any other status from 400 up is a server error whose text reads back as that status. |
| Api.SuccessIsTheEnvelope | bigbruhh/Core/Networking/APIService.swift:107-120 | A successful answer is the decoded envelope itself. |
| Api.UnusedErrors | bigbruhh/Core/Networking/APIService.swift:19-36 | The client never reports a decoding failure, missing data or a missing subscription. |
| Api.BearerIffSession | bigbruhh/Core/Networking/APIService.swift:83-85 | The sent request carries the bearer header exactly when a session exists. |
| Api.MethodNamesDistinct | bigbruhh/Core/Networking/APIService.swift:315-321 | The five methods have five distinct names. |
| Api.DescriptionCarriesDetail | bigbruhh/Core/Networking/APIService.swift:19-36 | Server and network errors show the text they carry after their fixed prefix. |
| Api.JoinPath | bigbruhh/Core/Networking/APIService.swift:150-311 | A path is its segments, each preceded by a slash. |
| Api.RouteOfSegments | bigbruhh/Core/Networking/APIService.swift:150-311 | Every endpoint's method and segments route back to that endpoint. |
| Api.RouteRoundTrip | bigbruhh/Core/Networking/APIService.swift:150-311 | With non-empty, slash-free identifiers, an endpoint's method and its path split at the slashes route back to it. So no two endpoints share a method and path. |
| Api.IdentityPaths | bigbruhh/Core/Networking/APIService.swift:150-311 | The identity endpoints' paths are as written in the client. |
| Face.SuccessRate | bigbruhh/Features/Home/Views/FaceView.swift:27-31 | No promises rates 0. With broken within made the rate is 0..100. More broken than made gives at most 0. |
| Face.SuccessRateEndpoints | bigbruhh/Features/Home/Views/FaceView.swift:27-31 | Nothing broken rates 100, everything broken rates 0, and breaking more never raises the rate. |
| Face.ProgressMessage | bigbruhh/Features/Home/Views/FaceView.swift:33-39 | A rate of 80 or more, and only such a rate, is "Actually locked in " followed by the four characters "ðŸ”¥" the view's literal holds. From 0 to 79 the message is the one for the fifth of the scale the rate falls in. A negative rate is "Absolutely cooked " followed by the four characters "ðŸ’€". |
| Face.PromiseGrade | bigbruhh/Features/Home/Views/FaceView.swift:41-49 | A+ exactly from 90 and F exactly below 40. From 40 to 89 the grade is read off the tens digit: D, C, B, B+, A. |
| Face.ExcuseGrade | bigbruhh/Features/Home/Views/FaceView.swift:51-58 | Graded the other way round: A+ exactly up to 20 and F exactly above 80. In between, each further 20 points drops a grade: A, B, C. |
| Face.StreakGrade | bigbruhh/Features/Home/Views/FaceView.swift:60-66 | A+ exactly from 14 days and F exactly without a streak. In between, B+ from 7 days, C from 3 and D below. |
| Face.OverallGrade | bigbruhh/Features/Home/Views/FaceView.swift:68-75 | A+ exactly from 90 and F exactly below 50. From 50 to 89 the grade is read off the tens digit: D, C, B, A. |
| Face.GradeColor | bigbruhh/Features/Home/Views/FaceView.swift:77-83 | The colour is always one of the five letter colours. A grade containing A is green whatever else it contains, and one containing B but no A is gold. |
| Face.PromiseGradeMonotone | bigbruhh/Features/Home/Views/FaceView.swift:41-49 | A higher rate never gets a worse promise grade. |
| Face.ExcuseGradeAntitone | bigbruhh/Features/Home/Views/FaceView.swift:51-58 | A higher rate never gets a better excuse grade. |
| Face.StreakGradeMonotone | bigbruhh/Features/Home/Views/FaceView.swift:60-66 | A longer streak never gets a worse grade. |
| Face.OverallGradeMonotone | bigbruhh/Features/Home/Views/FaceView.swift:68-75 | A higher rate never gets a worse overall grade. |
| Face.TableGradesColoredByLetter | bigbruhh/Features/Home/Views/FaceView.swift:41-83 | Every grade the tables hand out is coloured by its letter, so "A+" and "B+" share A's and B's colours. |
| Face.OtherGradesAreRed | bigbruhh/Features/Home/Views/FaceView.swift:77-83 | A grade containing none of A, B, C, D is red. |
| Face.ClockDecomposes | bigbruhh/Features/Home/Views/FaceView.swift:298-308 | Hours, minutes and seconds recompose the whole seconds left, with minutes and seconds below 60. |
| Face.UnderOneHourIffNoHours | bigbruhh/Features/Home/Views/FaceView.swift:298-312 | Under an hour exactly when time remains and the hours read zero. |
| Face.UpdateTimer | bigbruhh/Features/Home/Views/FaceView.swift:314-327 | While time remains, a tick takes one second off. At or below zero it changes nothing and does not flash. |
| Face.WholeSecondsClock | bigbruhh/Features/Home/Views/FaceView.swift:298-308 | A whole number of seconds displays as itself. |
| Face.FlashOnWholeHours | bigbruhh/Features/Home/Views/FaceView.swift:314-327 | A tick flashes exactly when it lands on a whole hour, including the tick to zero. |
| Face.TicksFromWholeSeconds | bigbruhh/Features/Home/Views/FaceView.swift:314-327 | From a whole number of seconds, n ticks count down to zero and stop there. |
| Face.FractionalStartGoesNegative | bigbruhh/Features/Home/Views/FaceView.swift:314-317 | Half a second left ticks to minus half a second. |
| Evidence.Total | bigbruhh/Features/Home/Views/EvidenceView.swift:287-297 | Totals of non-negative counts are non-negative. |
| Evidence.TotalFromFront | bigbruhh/Features/Home/Views/EvidenceView.swift:287-297 | A total is the first call's count plus the rest's total. |
| Evidence.SuccessRate | bigbruhh/Features/Home/Views/EvidenceView.swift:299-302 | No promises rates 0. Otherwise, with kept within analysed, the rate is 0..100. |
| Evidence.EvidenceAssessment | bigbruhh/Features/Home/Views/EvidenceView.swift:276-285 | An empty history is "PATHETIC". Otherwise a rate of 80 or more is "RELIABLE EVIDENCE", a rate from 0 to 79 gets the verdict of its fifth of the scale, and a negative rate is "HOPELESS CASE". |
| Evidence.EmptyJudgedFirst | bigbruhh/Features/Home/Views/EvidenceView.swift:276-285 | An empty history is "PATHETIC" although its rate alone would give "HOPELESS CASE". |
| Evidence.RateAssessment | bigbruhh/Features/Home/Views/EvidenceView.swift:278-284 | A rate of 80 or more, and only such a rate, is "RELIABLE EVIDENCE". From 0 to 79 the verdict is the one for the fifth of the scale the rate falls in, hopeless to mixed. A negative rate is "HOPELESS CASE". |
| Evidence.DominantPattern | bigbruhh/Features/Home/Views/EvidenceView.swift:269-274 | Without calls the pattern reads "NO EVIDENCE". With calls it is one of the named patterns or "ANALYZING PATTERNS". Evidence.DominantIsFirstNamed and Evidence.NoPatternNamed say which. |
| Evidence.Patterns | bigbruhh/Features/Home/Views/EvidenceView.swift:269-274 | There are never more named patterns than calls. |
| Evidence.DominantIsFirstNamed | bigbruhh/Features/Home/Views/EvidenceView.swift:269-274 | The dominant pattern is the first call's whose review names one. |
| Evidence.NoPatternNamed | bigbruhh/Features/Home/Views/EvidenceView.swift:269-274 | When no review names a pattern, the dominant pattern reads "ANALYZING PATTERNS". |
| Evidence.PatternsIdentifiedCounts | bigbruhh/Features/Home/Views/EvidenceView.swift:304-306 | The count of calls with a pattern equals the number of patterns listed, and never exceeds the calls. |
| Evidence.Recent | bigbruhh/Features/Home/Views/EvidenceView.swift:209 | The recent list is the first three calls, or all of them when there are fewer. |
| Evidence.EvidenceCard | bigbruhh/Features/Home/Views/EvidenceView.swift:217-255 | A card fails exactly when a promise was broken, and reads FAIL or PASS to match. |
| Evidence.CardText | bigbruhh/Features/Home/Views/EvidenceView.swift:217-255 | The card's text is the review paragraph, else the quoted worst excuse, else "Evidence analyzed". |
| BrutalMirror.Lower | bigbruhh/Features/BrutalReality/Views/BrutalRealityMirrorView.swift:215 | Lower-casing keeps the length and maps each character. |
| BrutalMirror.EffectsTable | bigbruhh/Features/BrutalReality/Views/BrutalRealityMirrorView.swift:215-250 | The effects table in whole scores, per emotion and for any other emotion. |
| BrutalMirror.EffectsIgnoreCase | bigbruhh/Features/BrutalReality/Views/BrutalRealityMirrorView.swift:215 | Emotions that lower-case alike have the same effects. |
| BrutalMirror.UpperCaseShame | bigbruhh/Features/BrutalReality/Views/BrutalRealityMirrorView.swift:215 | "SHAME" selects the shame row. |
| BrutalMirror.ReadingTime | bigbruhh/Features/BrutalReality/Views/BrutalRealityMirrorView.swift:39 | The review stays up at least 8 seconds. |
| BrutalMirror.ReadingTimeIsTenthOfScore | bigbruhh/Features/BrutalReality/Views/BrutalRealityMirrorView.swift:39 | The reading time is a tenth of the score but at least 8, so exactly 8 below a score of 90. |
| BrutalMirror.VibrationLength | bigbruhh/Features/BrutalReality/Views/BrutalRealityMirrorView.swift:166-181 | No pulses without vibration. Otherwise five above a score of 80 and three at or below it. |
| BrutalMirror.StartReadingTimer | bigbruhh/Features/BrutalReality/Views/BrutalRealityMirrorView.swift:183-196 | The countdown starts from the reading time. |
| BrutalMirror.Tick | bigbruhh/Features/BrutalReality/Views/BrutalRealityMirrorView.swift:183-196 | A stopped countdown never changes. A running one drops by a second and keeps running exactly while time is left. |
| BrutalMirror.CountdownUnlocksDismissal | bigbruhh/Features/BrutalReality/Views/BrutalRealityMirrorView.swift:183-205 | Dismissal unlocks exactly on the tick that reaches zero, and the timer and reading stop there. |
| BrutalMirror.StoppedStaysPut | bigbruhh/Features/BrutalReality/Views/BrutalRealityMirrorView.swift:183-196 | Ticks after the countdown stopped change nothing. |
| BrutalMirror.DismissAfterReadingTime | bigbruhh/Features/BrutalReality/Views/BrutalRealityMirrorView.swift:183-205 | From the screen's appearance the review can be dismissed after exactly its reading time, and not before. |
| BrutalMirror.HandleDismiss | bigbruhh/Features/BrutalReality/Views/BrutalRealityMirrorView.swift:198-205 | A dismiss request goes through exactly when dismissal is unlocked. BrutalMirror.DismissAfterReadingTime shows that this is exactly after the reading time. |
| BrutalManager.MockReview | bigbruhh/Core/Services/BrutalRealityManager.swift:117-129 | The built-in review has score 85, emotion "shame" and a 10-second reading time. It is dated now. |
| BrutalManager.ReviewFrom | bigbruhh/Core/Services/BrutalRealityManager.swift:84-104 | The backend's review when it answered with success and data. The built-in review otherwise. |
| BrutalManager.DismissBrutalReality | bigbruhh/Core/Services/BrutalRealityManager.swift:25-28 | Dismissal hides the review and forgets it. Storage is untouched. |
| BrutalManager.TriggerManually | bigbruhh/Core/Services/BrutalRealityManager.swift:36-65 | The manual trigger always shows a review: the backend's, or the built-in one. |
| BrutalManager.NoFlagNoChange | bigbruhh/Core/Services/BrutalRealityManager.swift:72-75 | Without a stored flag the check changes nothing. |
| BrutalManager.CheckFlagsOutcome | bigbruhh/Core/Services/BrutalRealityManager.swift:69-115 | The review shows exactly when a stored flag asks for it and the backend answered. The flag is removed exactly when it was malformed or asked. No other stored value changes. |
| BrutalManager.CheckFlags | bigbruhh/Core/Services/BrutalRealityManager.swift:69-115 | The check removes the flag or keeps storage as it was. It changes what is shown only by showing the review built from the answer, and then the flag is gone. |
| BrutalManager.FallbackToMock | bigbruhh/Core/Services/BrutalRealityManager.swift:95-104 | A failed answer, or one without data, shows the built-in review and consumes the flag. |
| BrutalManager.CheckTwiceAfterTrigger | bigbruhh/Core/Services/BrutalRealityManager.swift:69-115 | Once the flag is consumed, checking again changes nothing. |
| BrutalManager.MockOnScreen | bigbruhh/Core/Services/BrutalRealityManager.swift:117-129 | The built-in review pulses and vibrates five times without glitching. It is held 8 seconds, not its own 10. |
| CallKit.InitialState | bigbruhh/Features/Call/Services/CallKitManager.swift:11-14 | No active call, unmuted, not held, nothing observed. A reset of the initial state is the initial state. |
| CallKit.ProviderConfigurationOf | bigbruhh/Features/Call/Services/CallKitManager.swift:21-26 | The provider is named after the app, carries its video and per-group limits, and accepts phone-number handles. |
| CallKit.ReportIncomingCall | bigbruhh/Features/Call/Services/CallKitManager.swift:36-41 | The reported call becomes active exactly when the system accepts the report. Otherwise nothing changes. |
| CallKit.ReportOutgoingCall | bigbruhh/Features/Call/Services/CallKitManager.swift:43-47 | An outgoing call becomes active at once. Nothing else changes. |
| CallKit.RequestTransaction | bigbruhh/Features/Call/Services/CallKitManager.swift:76-81 | A request is queued and no published field changes. |
| CallKit.RequestsWaitForTheSystem | bigbruhh/Features/Call/Services/CallKitManager.swift:49-62 | End, mute and hold requests change no published field. Once the system performs them, mute and hold take the requested value and the active call ends. |
| CallKit.EndCall | bigbruhh/Features/Call/Services/CallKitManager.swift:49-52 | Ending a call queues one transaction holding one end action for that call. No published field changes until the system performs it. |
| CallKit.SetMuted | bigbruhh/Features/Call/Services/CallKitManager.swift:54-57 | Muting queues one transaction holding one mute action with the requested value. No published field changes until the system performs it. |
| CallKit.SetOnHold | bigbruhh/Features/Call/Services/CallKitManager.swift:59-62 | Holding queues one transaction holding one hold action with the requested value. No published field changes until the system performs it. |
| CallKit.ConfigureDefaultUpdate | bigbruhh/Features/Call/Services/CallKitManager.swift:64-74 | The caller name and the generic handle are the display name. Holding is supported; grouping, ungrouping and DTMF are not. |
| CallKit.DefaultUpdateShape | bigbruhh/Features/Call/Services/CallKitManager.swift:64-74 | Without video the update is fully determined by the name. |
| CallKit.ProviderDidReset | bigbruhh/Features/Call/Services/CallKitManager.swift:85-90 | A reset restores all four published fields to their initial values. |
| CallKit.ResetForgetsHistory | bigbruhh/Features/Call/Services/CallKitManager.swift:85-90 | After a reset the published state does not depend on anything before it. |
| CallKit.AnswerActivates | bigbruhh/Features/Call/Services/CallKitManager.swift:92-95 | Answering makes the answered call active and changes nothing else. |
| CallKit.EndClearsOnlyItsOwnCall | bigbruhh/Features/Call/Services/CallKitManager.swift:97-100 | Ending clears the active call exactly when it is the ended call. Nothing else changes. |
| CallKit.FlagsTouchOnlyTheirField | bigbruhh/Features/Call/Services/CallKitManager.swift:102-110 | Mute and hold set their own flag to the action's value and change nothing else. |
| CallKit.CallChanged | bigbruhh/Features/Call/Services/CallKitManager.swift:113-116 | The observed call is recorded and nothing else changes. |
| CallKit.Perform | bigbruhh/Features/Call/Services/CallKitManager.swift:92-110 | A performed action never touches the observed call or the request log. The active call changes only by an answer, or by ending the call that is active. Mute changes only by a mute action, hold only by a hold action. |
| CallKit.IncomingThenEnd | bigbruhh/Features/Call/Services/CallKitManager.swift:36-41 | An accepted incoming call is cleared by ending it. After a rejected report, ending that call clears the active call only if it was already that call. |
| CallKit.LatestObservationWins | bigbruhh/Features/Call/Services/CallKitManager.swift:113-116 | The latest observed call is the one recorded. No performed action overwrites it, and observing changes no other published field. |
| CallView.MoodColorsDistinct | bigbruhh/Features/Call/Views/CallScreen.swift:30-41 | Calm is #000000, angry #DC143C, disappointed #8B00FF, nuclear #FF8C00. Different moods have different colours. |
| CallView.InitialLabelIsZero | bigbruhh/Features/Call/Views/CallScreen.swift:12-16 | The label starts as the label for zero seconds. The call is not started, unmuted, and the box is hidden and empty. |
| CallView.StartCall | bigbruhh/Features/Call/Views/CallScreen.swift:387-389 | Starting marks the call started and records the start time. Nothing else changes. |
| CallView.TimerFired | bigbruhh/Features/Call/Views/CallScreen.swift:392-399 | Without a start time a tick does nothing. A tick only ever rewrites the label. |
| CallView.ElapsedReadsBack | bigbruhh/Features/Call/Views/CallScreen.swift:395-398 | The label reads back as whole minutes and remaining seconds, which recompose the count. Minutes never wrap into hours. |
| CallView.ElapsedInjective | bigbruhh/Features/Call/Views/CallScreen.swift:395-398 | Different elapsed counts give different labels. |
| CallView.TickShowsWholeSeconds | bigbruhh/Features/Call/Views/CallScreen.swift:392-398 | A tick between k and k + 1 seconds after the start shows k seconds. |
| CallView.ToggleMute | bigbruhh/Features/Call/Views/CallScreen.swift:439-441 | Muting flips the flag and nothing else. |
| CallView.MuteTwice | bigbruhh/Features/Call/Views/CallScreen.swift:439-441 | Toggling mute twice changes nothing. |
| CallView.ToggleTextInput | bigbruhh/Features/Call/Views/CallScreen.swift:443-450 | The box's visibility flips. The message is cleared exactly when the box becomes hidden. Nothing else changes. |
| CallView.TextInputTwice | bigbruhh/Features/Call/Views/CallScreen.swift:443-450 | Toggling the box twice, from either side, only loses the unsent message. |
| CallView.SendMessage | bigbruhh/Features/Call/Views/CallScreen.swift:452-457 | An empty message sends nothing. Otherwise the live text becomes "You: " plus the message and the box is cleared. |
| CallView.SendOnce | bigbruhh/Features/Call/Views/CallScreen.swift:452-457 | After a send, sending again does nothing. The live text still carries the whole message after its prefix. |
| CallView.EndCall | bigbruhh/Features/Call/Views/CallScreen.swift:459-462 | Hanging up stops the call and asks the navigator for the home screen. Nothing else changes. |
| CallView.EndCallGoesHome | bigbruhh/Features/Call/Views/CallScreen.swift:461 | Hanging up lands on the home screen from anywhere. |

## Left out

- I/O and platform services. URLSession transport, JSON encoding and decoding, Supabase and Apple sign-in, AVAudioPlayer, haptics, vibration and the CallKit framework objects are left out. Their results are parameters. JSON encoding is assumed to succeed and to decode back.
- Concurrency and timing. `Task`, `MainActor`, `Timer` and `DispatchQueue` scheduling are left out, and so are the typewriter effect, the scripted mood cycle, screen shakes, the shame overlay and animation values. A run of the processing screen is a fixed sequence of updates, with "cancelled" waits as input. The timers' ticks and clock readings are inputs.
- Face.SuccessRate and Evidence.SuccessRate use exact integer division truncated toward zero. The source goes through `Double`, where rounding can give one less (29 of 100 can give 28). The grade and verdict tables are stated over the integer rate.
- Integer width. Swift's `Int` is 64-bit and traps on overflow; every count here is unbounded.
- Onboarding.ProgressPercentage divides exactly in `real`, where the source divides in `Double`. The step counts it sees are small integers, so the `Double` quotient is the correctly rounded exact one. Strict increase in the step and exactly 100.0 at step 45 also hold for `Double` at these sizes. The model does not state the rounding itself.
- BrutalMirror.Lower lower-cases ASCII letters only. Swift's `lowercased()` also folds other scripts; every emotion name the app matches is ASCII.
- OnboardingStore.ResponsesOfKind returns a set where the source returns an array in dictionary order. That order is unspecified in Swift.
- DEBUG-only paths are left out: the root view jumping to home in debug builds and the debug HOME button on the confrontation screen. Only the release paths are modelled.
- The welcome view's `showLogin` call is left out because it has no target on the navigator.
- TimePicker.DragSnap takes the rounded slot change as input; the `CGFloat` rounding of the drag distance is not modelled.
- Prompt and option wording in the step catalog is left out. Only ids, phases, types, storage columns, option counts, slider ranges and minimum durations are kept.
- Request bodies are not serialised; a body is carried through as a value.
- Processing.NetworkMessagesDistinct covers only the network-error messages. It does not state that the three fixed messages differ from each other.
- The order of the processing stages is stated through the final states of complete and failed runs (Processing.SuccessRun, Processing.FailedRun), not as a property of intermediate states.

=== FILE: AlmostThere.dfy ===
/**
 * The "almost there" confrontation shown after onboarding: four explanation
 * pages advanced by NEXT, then a LEAVE / COMMIT choice. The simple view
 * (shown by the root navigator) and the full view (shown by the entry view)
 * advance the page cursor the same way; they differ in what LEAVE and
 * COMMIT do and in how many prompts they hold.
 */
module AlmostThere {
  /** Index of the last explanation page. */
  const LastPage: int := 3
  /** Prompts held by the simple view and by the full view. */
  const SimplePromptCount: int := 4
  const FullPromptCount: int := 5

  datatype Confrontation = Confrontation(currentStep: int, showChoiceScreen: bool)

  const Start: Confrontation := Confrontation(0, false)

  /** The cursor stays on a page, and the choice screen only opens from the last page. */
  predicate Valid(c: Confrontation)
  {
    0 <= c.currentStep <= LastPage && (c.showChoiceScreen ==> c.currentStep == LastPage)
  }

  /** NEXT: turn the page, or open the choice screen from the last page. */
  function Next(c: Confrontation): (d: Confrontation)
    ensures c.currentStep < LastPage ==> d.currentStep == c.currentStep + 1 && d.showChoiceScreen == c.showChoiceScreen
    ensures c.currentStep >= LastPage ==> d.currentStep == c.currentStep && d.showChoiceScreen
  {
    if c.currentStep < LastPage then c.(currentStep := c.currentStep + 1)
    else c.(showChoiceScreen := true)
  }

  /** NEXT pressed n times. */
  function NextN(c: Confrontation, n: nat): Confrontation
    decreases n
  {
    if n == 0 then c else NextN(Next(c), n - 1)
  }

  /** Hex colour of the simple view's NEXT button on each page. */
  function ButtonColor(step: int): string
  {
    if step == 0 then "#90FD0E"
    else if step == 1 then "#FF0000"
    else if step == 2 then "#FF4444"
    else "#90FD0E"
  }

  /** Hex accent colour of the full view on each page. */
  function AccentColor(step: int): string
  {
    if step == 1 then "#FF0000"
    else if step == 2 then "#FF4444"
    else "#90FD0E"
  }

  /** The full view's state: the page cursor and its two navigation flags. */
  datatype FullView = FullView(pages: Confrontation, navigateToHome: bool, navigateToPaywall: bool)

  const FullStart: FullView := FullView(Start, false, false)

  function HandleNextStep(v: FullView): (w: FullView)
    ensures w.pages == Next(v.pages)
    ensures w.navigateToHome == v.navigateToHome && w.navigateToPaywall == v.navigateToPaywall
  {
    v.(pages := Next(v.pages))
  }

  /** Marks the confrontation done by asking to go home (the debug HOME button does the same). */
  function MarkAlmostThereCompleted(v: FullView): (w: FullView)
    ensures w.navigateToHome
    ensures w.pages == v.pages && w.navigateToPaywall == v.navigateToPaywall
  {
    v.(navigateToHome := true)
  }

  /** LEAVE: the confrontation is marked done, which sends the user home. */
  function HandleLeave(v: FullView): (w: FullView)
    ensures w.navigateToHome
    ensures w.pages == v.pages && w.navigateToPaywall == v.navigateToPaywall
  {
    MarkAlmostThereCompleted(v)
  }

  function HandleCommit(v: FullView): (w: FullView)
    ensures w.navigateToPaywall
    ensures w.pages == v.pages && w.navigateToHome == v.navigateToHome
  {
    v.(navigateToPaywall := true)
  }

  /** NEXT keeps the cursor on a page, so the prompt lookup stays inside both prompt lists. */
  lemma NextPreservesValid(c: Confrontation)
    requires Valid(c)
    ensures Valid(Next(c))
    ensures 0 <= Next(c).currentStep < SimplePromptCount
    ensures Next(c).currentStep != FullPromptCount - 1
  {
  }

  /** No action closes the choice screen once it is open. */
  lemma {:induction false} ChoiceScreenStaysOpen(c: Confrontation, n: nat)
    requires c.showChoiceScreen
    ensures NextN(c, n).showChoiceScreen
    decreases n
  {
    if n > 0 {
      ChoiceScreenStaysOpen(Next(c), n - 1);
    }
  }

  /**
   * After n presses of NEXT from page p (choice screen still closed), the
   * cursor is on page min(p + n, 3), and the choice screen is open exactly
   * when p + n exceeds 3; from the first page, that is from the fourth press on.
   */
  lemma {:induction false} PressesFromStart(c: Confrontation, n: nat)
    requires Valid(c) && !c.showChoiceScreen
    ensures var d := NextN(c, n);
            var reach := c.currentStep + n;
            Valid(d)
            && d.currentStep == (if reach < LastPage then reach else LastPage)
            && (d.showChoiceScreen <==> reach > LastPage)
    decreases n
  {
    if n > 0 {
      var c' := Next(c);
      if c.currentStep < LastPage {
        PressesFromStart(c', n - 1);
      } else {
        StaysOnLastPage(c', n - 1);
      }
    }
  }

  /** Once the choice screen is open, NEXT no longer moves the cursor. */
  lemma {:induction false} StaysOnLastPage(c: Confrontation, n: nat)
    requires Valid(c) && c.showChoiceScreen
    ensures NextN(c, n) == c
    decreases n
  {
    if n > 0 {
      StaysOnLastPage(Next(c), n - 1);
    }
  }

  /** The simple view's button and the full view's accent use the same colour on every page. */
  lemma ButtonColorMatchesAccent(step: int)
    ensures ButtonColor(step) == AccentColor(step)
    ensures ButtonColor(step) == "#90FD0E" <==> step != 1 && step != 2
  {
  }

  /** LEAVE and COMMIT each raise only their own flag and leave the pages alone. */
  lemma ChoicesTouchOnlyTheirFlag(v: FullView)
    ensures HandleLeave(v) == v.(navigateToHome := true)
    ensures HandleCommit(v) == v.(navigateToPaywall := true)
    ensures HandleCommit(HandleLeave(v)) == HandleLeave(HandleCommit(v))
  {
  }
}

=== FILE: Api.dfy ===
/**
 * The backend client: how one request is built from a base address, an
 * endpoint path and the current session, and how its outcome is classified.
 * The transport's answer (a thrown error, a non-HTTP response, or a status
 * code with a body that did or did not decode) and whether the combined
 * address parses as a URL are inputs.
 */
module Api {
  import opened Wrappers
  import opened Strings

  datatype APIError =
    | InvalidURL
    | NoData
    | DecodingError
    | ServerError(message: string)
    | Unauthorized
    | NetworkError(description: string)
    | SubscriptionRequired

  /** The text shown for each error. */
  function LocalizedDescription(e: APIError): string
  {
    match e
    case InvalidURL => "Invalid URL"
    case NoData => "No data received"
    case DecodingError => "Failed to decode response"
    case ServerError(message) => "Server error: " + message
    case Unauthorized => "Unauthorized - please sign in"
    case NetworkError(description) => "Network error: " + description
    case SubscriptionRequired => "Active subscription required"
  }

  datatype HTTPMethod = Get | Post | Put | Delete | Patch

  function MethodName(m: HTTPMethod): string
  {
    match m
    case Get => "GET"
    case Post => "POST"
    case Put => "PUT"
    case Delete => "DELETE"
    case Patch => "PATCH"
  }

  /** The envelope every endpoint answers with. */
  datatype APIResponse<T> = APIResponse(success: bool, data: Option<T>, error: Option<string>)

  /** The request handed to the transport. The body is kept opaque. */
  datatype URLRequest<B> = URLRequest(url: string, httpMethod: string, headers: map<string, string>, body: Option<B>)

  /** What the transport answered. */
  datatype Transport<T> =
    | TransportThrew(description: string)      // the transport itself failed
    | NotHttp                                  // a response that is not an HTTP response
    | Http(status: int, decoded: Decoded<T>)

  /** Whether the body decoded into an envelope. */
  datatype Decoded<T> = Envelope(response: APIResponse<T>) | Undecodable(description: string)

  datatype Outcome<T> = Success(value: T) | Failure(error: APIError)

  /** A request and its outcome; `sent` is None when no request was made. */
  datatype Exchange<B, T> = Exchange(sent: Option<URLRequest<B>>, outcome: Outcome<APIResponse<T>>)

  const AuthorizationHeader: string := "Authorization"
  const ContentTypeHeader: string := "Content-Type"

  /** The headers of every request: a JSON content type, and a bearer token while a session exists. */
  function Headers(accessToken: Option<string>): (h: map<string, string>)
    ensures ContentTypeHeader in h && h[ContentTypeHeader] == "application/json"
    ensures AuthorizationHeader in h <==> accessToken.Some?
    ensures accessToken.Some? ==> h[AuthorizationHeader] == "Bearer " + accessToken.value
    ensures h.Keys <= {ContentTypeHeader, AuthorizationHeader}
  {
    var base := map[ContentTypeHeader := "application/json"];
    match accessToken
    case None => base
    case Some(token) => base[AuthorizationHeader := "Bearer " + token]
  }

  /** How a transport answer becomes the request's outcome. */
  function Classify<T>(t: Transport<T>): (r: Outcome<APIResponse<T>>)
    ensures r.Success? <==> t.Http? && t.status != 401 && t.status < 400 && t.decoded.Envelope?
    ensures r.Success? ==> r.value == t.decoded.response
    ensures t.TransportThrew? ==> r == Failure(NetworkError(t.description))
    ensures t.NotHttp? ==> r == Failure(ServerError("Invalid response"))
  {
    match t
    case TransportThrew(d) => Failure(NetworkError(d))
    case NotHttp => Failure(ServerError("Invalid response"))
    case Http(status, decoded) =>
      if status == 401 then Failure(Unauthorized)
      else if status >= 400 then Failure(ServerError("HTTP " + IntToString(status)))
      else
        match decoded
        // a decoding failure is not one of the client's own errors, so it is wrapped as a network error
        case Undecodable(d) => Failure(NetworkError(d))
        case Envelope(response) => Success(response)
  }

  /**
   * One request: the address is the base followed by the endpoint; if it
   * does not parse, nothing is sent. Otherwise the request goes out and the
   * transport's answer is classified.
   */
  function Request<B, T>(baseURL: string, endpoint: string, verb: HTTPMethod, accessToken: Option<string>,
                         body: Option<B>, parses: string -> bool, answer: Transport<T>): (x: Exchange<B, T>)
    ensures x.sent.None? <==> !parses(baseURL + endpoint)
    ensures x.sent.None? ==> x.outcome == Failure(InvalidURL)
    ensures x.sent.Some? ==> x.sent.value.url == baseURL + endpoint && x.sent.value.httpMethod == MethodName(verb)
                             && x.sent.value.body == body && x.outcome == Classify(answer)
    ensures x.sent.Some? ==> x.sent.value.headers == Headers(accessToken)
  {
    var full := baseURL + endpoint;
    if !parses(full) then Exchange(None, Failure(InvalidURL))
    else Exchange(Some(URLRequest(full, MethodName(verb), Headers(accessToken), body)), Classify(answer))
  }

  // ---------------------------------------------------------------------------
  // Endpoints
  // ---------------------------------------------------------------------------

  /** Every endpoint the client calls, with the identifiers that go into its path. */
  datatype Endpoint =
    | FetchIdentity(userId: string)
    | UpdateIdentity(userId: string)
    | FetchIdentityStats(userId: string)
    | FetchVoiceClips(userId: string)
    | GetCallConfig(userId: string, callType: string)
    | FetchCallHistory(userId: string)
    | FetchWeekCalls(userId: string)
    | FetchCallReceipts(userId: string)
    | FetchPromises(userId: string)
    | CreatePromise
    | CompletePromise
    | FetchSchedule(userId: string)
    | UpdateSchedule(userId: string)
    | FetchRules(userId: string)
    | FetchLimits(userId: string)
    | GetTodayBrutalReality
    | FetchCountdown(userId: string)
    | PushOnboardingData
    | RegisterVOIPToken
    | TestConnection

  function Method(e: Endpoint): HTTPMethod
  {
    match e
    case UpdateIdentity(_) => Put
    case UpdateSchedule(_) => Put
    case GetCallConfig(_, _) => Post
    case CreatePromise => Post
    case CompletePromise => Post
    case PushOnboardingData => Post
    case RegisterVOIPToken => Post
    case _ => Get
  }

  /** The path's segments, in order. */
  function Segments(e: Endpoint): seq<string>
  {
    match e
    case FetchIdentity(u) => ["api", "identity", u]
    case UpdateIdentity(u) => ["api", "identity", u]
    case FetchIdentityStats(u) => ["api", "identity", "stats", u]
    case FetchVoiceClips(u) => ["api", "identity", "voice-clips", u]
    case GetCallConfig(u, t) => ["call", u, t]
    case FetchCallHistory(u) => ["api", "call-log", u]
    case FetchWeekCalls(u) => ["api", "call-log", "week", u]
    case FetchCallReceipts(u) => ["api", "call-log", "receipts", u]
    case FetchPromises(u) => ["api", "promises", u]
    case CreatePromise => ["promise", "create"]
    case CompletePromise => ["promise", "complete"]
    case FetchSchedule(u) => ["api", "settings", "schedule", u]
    case UpdateSchedule(u) => ["api", "settings", "schedule", u]
    case FetchRules(u) => ["api", "settings", "rules", u]
    case FetchLimits(u) => ["api", "settings", "limits", u]
    case GetTodayBrutalReality => ["api", "brutal-reality", "today"]
    case FetchCountdown(u) => ["api", "mirror", "countdown", u]
    case PushOnboardingData => ["onboarding", "v3", "complete"]
    case RegisterVOIPToken => ["token-init-push"]
    case TestConnection => ["test"]
  }

  /** Each segment preceded by a slash. */
  function JoinPath(segments: seq<string>): (p: string)
    ensures |segments| > 0 ==> |p| > 0 && p[0] == '/'
  {
    if |segments| == 0 then "" else "/" + segments[0] + JoinPath(segments[1..])
  }

  function Path(e: Endpoint): string
  {
    JoinPath(Segments(e))
  }

  /** The identifiers that go into the path. */
  function Identifiers(e: Endpoint): seq<string>
  {
    match e
    case GetCallConfig(u, t) => [u, t]
    case CreatePromise => []
    case CompletePromise => []
    case GetTodayBrutalReality => []
    case PushOnboardingData => []
    case RegisterVOIPToken => []
    case TestConnection => []
    case _ => [e.userId]
  }

  /** An identifier that makes exactly one path segment. */
  predicate ValidIdentifier(id: string)
  {
    |id| > 0 && '/' !in id
  }

  /** Which endpoint a method and a list of path segments address, if any. */
  function Route(m: HTTPMethod, p: seq<string>): Option<Endpoint>
  {
    if |p| == 1 then
      if m == Post && p[0] == "token-init-push" then Some(RegisterVOIPToken)
      else if m == Get && p[0] == "test" then Some(TestConnection)
      else None
    else if |p| == 2 then
      if m == Post && p[0] == "promise" && p[1] == "create" then Some(CreatePromise)
      else if m == Post && p[0] == "promise" && p[1] == "complete" then Some(CompletePromise)
      else None
    else if |p| == 3 then
      if p[0] == "call" then (if m == Post then Some(GetCallConfig(p[1], p[2])) else None)
      else if p[0] == "onboarding" then
        (if m == Post && p[1] == "v3" && p[2] == "complete" then Some(PushOnboardingData) else None)
      else if p[0] != "api" then None
      else if p[1] == "identity" then
        (if m == Get then Some(FetchIdentity(p[2])) else if m == Put then Some(UpdateIdentity(p[2])) else None)
      else if m != Get then None
      else if p[1] == "call-log" then Some(FetchCallHistory(p[2]))
      else if p[1] == "promises" then Some(FetchPromises(p[2]))
      else if p[1] == "brutal-reality" && p[2] == "today" then Some(GetTodayBrutalReality)
      else None
    else if |p| == 4 && p[0] == "api" then RouteApi4(m, p[1], p[2], p[3])
    else None
  }

  /** Paths of the form /api/<group>/<name>/<id>. */
  function RouteApi4(m: HTTPMethod, group: string, name: string, id: string): Option<Endpoint>
  {
    if group == "settings" && name == "schedule" then
      (if m == Get then Some(FetchSchedule(id)) else if m == Put then Some(UpdateSchedule(id)) else None)
    else if m != Get then None
    else if group == "identity" && name == "stats" then Some(FetchIdentityStats(id))
    else if group == "identity" && name == "voice-clips" then Some(FetchVoiceClips(id))
    else if group == "call-log" && name == "week" then Some(FetchWeekCalls(id))
    else if group == "call-log" && name == "receipts" then Some(FetchCallReceipts(id))
    else if group == "settings" && name == "rules" then Some(FetchRules(id))
    else if group == "settings" && name == "limits" then Some(FetchLimits(id))
    else if group == "mirror" && name == "countdown" then Some(FetchCountdown(id))
    else None
  }

  // ---------------------------------------------------------------------------
  // Properties
  // ---------------------------------------------------------------------------

  /** A 401 is reported as unauthorized, whatever the body, never as a server error. */
  lemma UnauthorizedBeforeServerError<T>(d: Decoded<T>)
    ensures Classify(Http(401, d)) == Failure(Unauthorized)
  {
  }

  /** Any other status from 400 up is a server error whose message carries the status, which reads back as a number. */
  lemma ServerErrorCarriesStatus<T>(status: int, d: Decoded<T>)
    requires status >= 400 && status != 401
    ensures Classify(Http(status, d)).Failure?
    ensures var e := Classify(Http(status, d)).error;
            e.ServerError? && e.message[..5] == "HTTP " && ParseInt(e.message[5..]) == Some(status)
  {
    var m := "HTTP " + IntToString(status);
    assert m[5..] == IntToString(status);
    IntToStringRoundTrip(status);
  }

  /**
   * A status below 400 hands back the decoded envelope as it is, even one
   * reporting failure; a body that does not decode becomes a network error.
   */
  lemma SuccessIsTheEnvelope<T>(status: int, r: APIResponse<T>, description: string)
    requires status < 400
    ensures Classify(Http(status, Envelope(r))) == Success(r)
    ensures Classify(Http(status, Decoded<T>.Undecodable(description))) == Failure(NetworkError(description))
  {
  }

  /** The client never reports a decoding failure, missing data or a missing subscription itself. */
  lemma UnusedErrors<B, T>(baseURL: string, endpoint: string, verb: HTTPMethod, accessToken: Option<string>,
                           body: Option<B>, parses: string -> bool, answer: Transport<T>)
    ensures var o := Request(baseURL, endpoint, verb, accessToken, body, parses, answer).outcome;
            o != Failure(DecodingError) && o != Failure(NoData) && o != Failure(SubscriptionRequired)
  {
  }

  /** The bearer header is present exactly when a session exists, and carries its token. */
  lemma BearerIffSession<B, T>(baseURL: string, endpoint: string, verb: HTTPMethod, accessToken: Option<string>,
                               body: Option<B>, parses: string -> bool, answer: Transport<T>)
    requires parses(baseURL + endpoint)
    ensures var h := Request(baseURL, endpoint, verb, accessToken, body, parses, answer).sent.value.headers;
            && (AuthorizationHeader in h <==> accessToken.Some?)
            && (accessToken.Some? ==> h[AuthorizationHeader] == "Bearer " + accessToken.value)
  {
  }

  /** The method names are the five distinct HTTP verbs. */
  lemma MethodNamesDistinct(m: HTTPMethod, n: HTTPMethod)
    ensures MethodName(m) == MethodName(n) <==> m == n
  {
  }

  /** A server or network error shows the text it carries after a fixed prefix. */
  lemma DescriptionCarriesDetail(e: APIError)
    ensures e.ServerError? ==> LocalizedDescription(e)[14..] == e.message
    ensures e.NetworkError? ==> LocalizedDescription(e)[15..] == e.description
  {
  }

  lemma {:induction false} IndexOfBeforeSlash(a: string, rest: string)
    requires '/' !in a
    requires |rest| == 0 || rest[0] == '/'
    ensures IndexOf(a + rest, '/') == |a|
  {
    if |rest| > 0 {
      assert (a + rest)[|a|] == '/';
    } else {
      assert a + rest == a;
    }
  }

  /** Splitting a joined path at its slashes gives back its segments. */
  lemma {:induction false} SplitJoinPath(segments: seq<string>)
    requires forall i :: 0 <= i < |segments| ==> ValidIdentifier(segments[i])
    ensures Split(JoinPath(segments), '/') == segments
    decreases |segments|
  {
    if |segments| > 0 {
      var a, rest := segments[0], JoinPath(segments[1..]);
      var p := "/" + a + rest;
      assert p[0] == '/' && p[1..] == a + rest;
      SplitAfterPiece(a, rest);
      SplitJoinPath(segments[1..]);
      assert segments == [a] + segments[1..];
    }
  }

  /** A piece followed by a slash, or by nothing, splits off as the first part. */
  lemma SplitAfterPiece(a: string, rest: string)
    requires ValidIdentifier(a)
    requires |rest| == 0 || rest[0] == '/'
    ensures Split(a + rest, '/') == [a] + Split(rest, '/')
  {
    IndexOfBeforeSlash(a, rest);
    assert (a + rest)[..|a|] == a;
    assert (a + rest)[|a|..] == rest;
    assert (a + rest)[0] == a[0];
  }

  /** Every endpoint's method and segments lead back to that endpoint. */
  lemma RouteOfSegments(e: Endpoint)
    ensures Route(Method(e), Segments(e)) == Some(e)
  {
    if |Segments(e)| == 4 {
      RouteOfApi4(e);
    } else if |Segments(e)| == 3 {
      RouteOfThree(e);
    } else {
      RouteOfShort(e);
    }
  }

  lemma RouteOfShort(e: Endpoint)
    requires |Segments(e)| < 3
    ensures Route(Method(e), Segments(e)) == Some(e)
  {
  }

  lemma RouteOfThree(e: Endpoint)
    requires |Segments(e)| == 3
    ensures Route(Method(e), Segments(e)) == Some(e)
  {
  }

  lemma RouteOfApi4(e: Endpoint)
    requires |Segments(e)| == 4
    ensures Route(Method(e), Segments(e)) == Some(e)
  {
    var p := Segments(e);
    assert Route(Method(e), p) == RouteApi4(Method(e), p[1], p[2], p[3]);
  }

  /**
   * Every endpoint's method and path lead back to that endpoint, so no two
   * endpoints share a method and path, as long as the identifiers are
   * non-empty and slash-free.
   */
  lemma RouteRoundTrip(e: Endpoint)
    requires forall i :: 0 <= i < |Identifiers(e)| ==> ValidIdentifier(Identifiers(e)[i])
    ensures Route(Method(e), Split(Path(e), '/')) == Some(e)
  {
    SegmentsValid(e);
    SplitJoinPath(Segments(e));
    RouteOfSegments(e);
  }

  /** With valid identifiers, every segment of a path is one too. */
  lemma SegmentsValid(e: Endpoint)
    requires forall i :: 0 <= i < |Identifiers(e)| ==> ValidIdentifier(Identifiers(e)[i])
    ensures forall i :: 0 <= i < |Segments(e)| ==> ValidIdentifier(Segments(e)[i])
  {
    if e.GetCallConfig? {
      var segs := Segments(e);
      assert segs == ["call", Identifiers(e)[0], Identifiers(e)[1]];
    } else if |Identifiers(e)| == 0 {
      FixedSegmentsValid(e);
    } else {
      LastSegmentIsTheUser(e);
    }
  }

  /** An endpoint without identifiers has only literal segments, each non-empty and slash-free. */
  lemma FixedSegmentsValid(e: Endpoint)
    requires |Identifiers(e)| == 0
    ensures forall i :: 0 <= i < |Segments(e)| ==> ValidIdentifier(Segments(e)[i])
  {
  }

  /** An endpoint for one user ends with the user's identifier, after valid literal segments. */
  lemma LastSegmentIsTheUser(e: Endpoint)
    requires !e.GetCallConfig? && |Identifiers(e)| > 0 && ValidIdentifier(Identifiers(e)[0])
    ensures forall i :: 0 <= i < |Segments(e)| ==> ValidIdentifier(Segments(e)[i])
  {
    var segs := Segments(e);
    forall i | 0 <= i < |segs|
      ensures ValidIdentifier(segs[i])
    {
      if i == |segs| - 1 {
        assert segs[i] == Identifiers(e)[0];
      }
    }
  }

  /** The paths as written out in the client, for the identity endpoints. */
  lemma IdentityPaths(u: string)
    ensures Path(FetchIdentity(u)) == "/api/identity/" + u
    ensures Path(UpdateIdentity(u)) == Path(FetchIdentity(u))
    ensures Method(FetchIdentity(u)) == Get && Method(UpdateIdentity(u)) == Put
  {
    var segs := ["api", "identity", u];
    assert segs[1..] == ["identity", u] && segs[1..][1..] == [u] && [u][1..] == [];
    assert JoinPath([u]) == "/" + u;
    assert JoinPath(["identity", u]) == "/identity" + ("/" + u);
    assert JoinPath(segs) == "/api" + ("/identity" + ("/" + u));
    assert "/api" + ("/identity" + ("/" + u)) == "/api/identity/" + u;
  }
}

=== FILE: BrutalManager.dfy ===
/**
 * Deciding when the day's review is shown. A stored trigger flag (a JSON
 * string under a fixed key) asks for it; the review comes from the backend,
 * with a built-in stand-in when the backend answers without one. The flag's
 * parse and the backend's answer are inputs; the key/value store is a map.
 */
module BrutalManager {
  import opened Wrappers
  import opened BrutalMirror

  const TriggerKey: string := "trigger_brutal_reality"

  /** What the stored flag parses to. */
  datatype FlagParse =
    | Malformed        // not JSON at all
    | NotATrigger      // JSON, but not an object whose "triggerBrutalReality" is true
    | Trigger          // an object whose "triggerBrutalReality" is true

  /** What asking the backend for today's review gave. */
  datatype ApiAnswer =
    | Threw
    | Responded(success: bool, data: Option<BrutalRealityReview>)

  datatype Manager = Manager(
    showBrutalReality: bool,
    todayReview: Option<BrutalRealityReview>,
    defaults: map<string, string>)

  const MockParagraph: string :=
    "You thought you could escape, didn't you? Another day, another set of broken promises. The mirror doesn't lie, and neither do your actions. This is the reality you've created."

  /** The stand-in review; its identifier and dates come from the caller. */
  function MockReview(id: string, now: real): (r: BrutalRealityReview)
    ensures r.psychologicalImpactScore == 85 && r.dominantEmotion == "shame" && r.readingTimeSeconds == 10
    ensures r.id == id && r.reviewDate == now && r.createdAt == now
  {
    BrutalRealityReview(
      id,
      MockParagraph,
      85,
      "shame",
      ColorTheme("#2d2008", "#5c4a15", "#8a7228", "#fff5e6"),
      Some("chronic_avoidance"),
      10,
      now,
      now)
  }

  /** The review an answer yields: the backend's when it succeeded with one, the stand-in otherwise. */
  function ReviewFrom(answer: ApiAnswer, mockId: string, now: real): (r: BrutalRealityReview)
    ensures answer.Responded? && answer.success && answer.data.Some? ==> r == answer.data.value
    ensures !(answer.Responded? && answer.success && answer.data.Some?) ==> r == MockReview(mockId, now)
  {
    if answer.Responded? && answer.success && answer.data.Some? then answer.data.value else MockReview(mockId, now)
  }

  function DismissBrutalReality(m: Manager): (n: Manager)
    ensures !n.showBrutalReality && n.todayReview.None? && n.defaults == m.defaults
  {
    m.(showBrutalReality := false, todayReview := None)
  }

  /** The manual trigger: always shows a review, falling back to the stand-in on any failure. */
  function TriggerManually(m: Manager, answer: ApiAnswer, mockId: string, now: real): (n: Manager)
    ensures n.showBrutalReality && n.todayReview == Some(ReviewFrom(answer, mockId, now))
    ensures n.defaults == m.defaults
  {
    m.(todayReview := Some(ReviewFrom(answer, mockId, now)), showBrutalReality := true)
  }

  /**
   * The flag check. Without a flag nothing happens. A flag that asks for the
   * review shows the backend's (or the stand-in when the answer has none)
   * and is removed; one that does not parse, or whose request throws, is
   * removed and nothing is shown; a well-formed flag that does not ask is
   * kept.
   */
  function CheckFlags(m: Manager, parse: string -> FlagParse, answer: ApiAnswer, mockId: string, now: real): (n: Manager)
    ensures n.defaults == m.defaults || n.defaults == m.defaults - {TriggerKey}
    ensures n.todayReview != m.todayReview || n.showBrutalReality != m.showBrutalReality ==>
              n.showBrutalReality && n.todayReview == Some(ReviewFrom(answer, mockId, now)) && TriggerKey !in n.defaults
  {
    if TriggerKey !in m.defaults then m
    else
      match parse(m.defaults[TriggerKey])
      case NotATrigger => m
      case Malformed => m.(defaults := m.defaults - {TriggerKey})
      case Trigger =>
        if answer.Threw? then m.(defaults := m.defaults - {TriggerKey})
        else m.(todayReview := Some(ReviewFrom(answer, mockId, now)), showBrutalReality := true,
                defaults := m.defaults - {TriggerKey})
  }

  // ---------------------------------------------------------------------------
  // Properties
  // ---------------------------------------------------------------------------

  /** With no flag stored, the check changes nothing at all. */
  lemma NoFlagNoChange(m: Manager, parse: string -> FlagParse, answer: ApiAnswer, mockId: string, now: real)
    requires TriggerKey !in m.defaults
    ensures CheckFlags(m, parse, answer, mockId, now) == m
  {
  }

  /**
   * The check's outcome in full: the review is shown exactly when a flag
   * asking for it is stored and the backend answered; the flag is removed
   * exactly when it was stored and either did not parse or asked; no other
   * stored value changes.
   */
  lemma CheckFlagsOutcome(m: Manager, parse: string -> FlagParse, answer: ApiAnswer, mockId: string, now: real)
    ensures var n := CheckFlags(m, parse, answer, mockId, now);
            var asked := TriggerKey in m.defaults && parse(m.defaults[TriggerKey]) == Trigger;
            var cleared := TriggerKey in m.defaults && parse(m.defaults[TriggerKey]) != NotATrigger;
            && (asked && answer.Responded? ==>
                  n.showBrutalReality && n.todayReview == Some(ReviewFrom(answer, mockId, now)))
            && (!(asked && answer.Responded?) ==>
                  n.showBrutalReality == m.showBrutalReality && n.todayReview == m.todayReview)
            && (TriggerKey in n.defaults <==> TriggerKey in m.defaults && !cleared)
            && (forall k :: k != TriggerKey ==> (k in n.defaults <==> k in m.defaults))
            && (forall k :: k != TriggerKey && k in m.defaults ==> n.defaults[k] == m.defaults[k])
  {
  }

  /** A successful answer without data, or a failed one, falls back to the stand-in review. */
  lemma FallbackToMock(m: Manager, parse: string -> FlagParse, data: Option<BrutalRealityReview>, success: bool,
                       mockId: string, now: real)
    requires TriggerKey in m.defaults && parse(m.defaults[TriggerKey]) == Trigger
    requires !success || data.None?
    ensures CheckFlags(m, parse, Responded(success, data), mockId, now).todayReview == Some(MockReview(mockId, now))
    ensures TriggerKey !in CheckFlags(m, parse, Responded(success, data), mockId, now).defaults
  {
  }

  /** Once the flag has been consumed, checking again changes nothing. */
  lemma CheckTwiceAfterTrigger(m: Manager, parse: string -> FlagParse, a1: ApiAnswer, a2: ApiAnswer, mockId: string, now: real)
    requires TriggerKey in m.defaults && parse(m.defaults[TriggerKey]) != NotATrigger
    ensures var n := CheckFlags(m, parse, a1, mockId, now);
            CheckFlags(n, parse, a2, mockId, now) == n
  {
  }

  /**
   * The stand-in review pulses and vibrates with five pulses, never glitches,
   * and is held for 8 seconds: the screen works out its own reading time and
   * does not use the review's 10-second field.
   */
  lemma MockOnScreen(id: string, now: real)
    ensures var r := MockReview(id, now);
            && EffectsFrom(r.dominantEmotion, r.psychologicalImpactScore) == EmotionEffects(true, true, false)
            && |VibrationPattern(EffectsFrom(r.dominantEmotion, r.psychologicalImpactScore), r.psychologicalImpactScore)| == 5
            && ReadingTime(r.psychologicalImpactScore) == 8 != r.readingTimeSeconds
  {
    EffectsTable("shame", 85);
    assert Lower("shame") == "shame";
  }
}

=== FILE: BrutalMirror.dfy ===
/**
 * The full-screen "brutal reality" review: which effects its emotion and
 * impact score switch on, how long it must be read before it can be
 * dismissed, and the reading countdown that unlocks dismissal. Animations,
 * haptics and sound are not modelled; only the flags and counters that
 * drive them are.
 */
module BrutalMirror {
  import opened Wrappers

  datatype ColorTheme = ColorTheme(primary: string, secondary: string, accent: string, text: string)

  /** The day's review as the backend sends it; dates are seconds. */
  datatype BrutalRealityReview = BrutalRealityReview(
    id: string,
    brutalParagraph: string,
    psychologicalImpactScore: int,
    dominantEmotion: string,
    colorTheme: ColorTheme,
    patternIdentified: Option<string>,
    readingTimeSeconds: int,
    reviewDate: real,
    createdAt: real)

  /** ASCII lower-casing of one character. */
  function LowerChar(c: char): (d: char)
    ensures 'A' <= c <= 'Z' ==> 'a' <= d <= 'z' && d as int - c as int == 'a' as int - 'A' as int
    ensures !('A' <= c <= 'Z') ==> d == c
  {
    if 'A' <= c <= 'Z' then (c as int - 'A' as int + 'a' as int) as char else c
  }

  function Lower(s: string): (t: string)
    ensures |t| == |s|
    ensures forall i :: 0 <= i < |s| ==> t[i] == LowerChar(s[i])
  {
    seq(|s|, i requires 0 <= i < |s| => LowerChar(s[i]))
  }

  datatype EmotionEffects = EmotionEffects(shouldPulse: bool, shouldVibrate: bool, shouldGlitch: bool)

  /** The effects for an emotion, named in any letter case, at an impact score out of 100. */
  function EffectsFrom(emotion: string, impactScore: int): EmotionEffects
  {
    var intensity := impactScore as real / 100.0;
    var e := Lower(emotion);
    if e == "shame" then EmotionEffects(intensity > 0.7, intensity > 0.8, false)
    else if e == "rage" then EmotionEffects(true, intensity > 0.6, intensity > 0.9)
    else if e == "despair" then EmotionEffects(false, false, intensity > 0.8)
    else if e == "denial" then EmotionEffects(false, false, intensity > 0.7)
    else EmotionEffects(intensity > 0.8, intensity > 0.9, false)
  }

  /** Seconds the review must stay up: a thousandth of the larger of 8000 and a hundred times the score. */
  function ReadingTime(impactScore: int): (seconds: int)
    ensures seconds >= 8
  {
    var millis := if 8000 >= impactScore * 100 then 8000 else impactScore * 100;
    millis / 1000
  }

  /** The vibration pulses, in milliseconds, played when the effects call for vibration. */
  function VibrationPattern(effects: EmotionEffects, impactScore: int): seq<int>
  {
    if !effects.shouldVibrate then []
    else if impactScore > 80 then [500, 200, 500, 200, 500]
    else [300, 150, 300]
  }

  /** The reading state: `timerRunning` is false before the countdown starts and after it stops itself. */
  datatype Mirror = Mirror(canDismiss: bool, isReading: bool, remainingTime: int, timerRunning: bool)

  const Initial: Mirror := Mirror(false, true, 0, false)

  /** The countdown starts from the reading time. */
  function StartReadingTimer(m: Mirror, impactScore: int): (n: Mirror)
    ensures n.remainingTime == ReadingTime(impactScore) && n.timerRunning
    ensures n.canDismiss == m.canDismiss && n.isReading == m.isReading
  {
    m.(remainingTime := ReadingTime(impactScore), timerRunning := true)
  }

  /** One second of the countdown; reaching zero unlocks dismissal and stops the timer. */
  function Tick(m: Mirror): (n: Mirror)
    ensures !m.timerRunning ==> n == m
    ensures m.timerRunning ==> n.remainingTime == m.remainingTime - 1
    ensures m.timerRunning ==> (n.timerRunning <==> n.remainingTime > 0)
  {
    if !m.timerRunning then m
    else
      var left := m.remainingTime - 1;
      if left <= 0 then Mirror(true, false, left, false)
      else m.(remainingTime := left)
  }

  function TickN(m: Mirror, n: nat): Mirror
    decreases n
  {
    if n == 0 then m else TickN(Tick(m), n - 1)
  }

  /** Dismissal, and whether the dismiss callback runs: only once reading is over. */
  function HandleDismiss(m: Mirror): (dismissed: bool)
    ensures dismissed <==> m.canDismiss
  {
    m.canDismiss
  }

  // ---------------------------------------------------------------------------
  // Properties
  // ---------------------------------------------------------------------------

  /** The effects table in whole scores: a share above 0.7 is a score above 70, and so on. */
  lemma EffectsTable(emotion: string, score: int)
    ensures var f := EffectsFrom(emotion, score);
            var e := Lower(emotion);
            && (e == "shame" ==> f == EmotionEffects(score > 70, score > 80, false))
            && (e == "rage" ==> f == EmotionEffects(true, score > 60, score > 90))
            && (e == "despair" ==> f == EmotionEffects(false, false, score > 80))
            && (e == "denial" ==> f == EmotionEffects(false, false, score > 70))
            && (e !in {"shame", "rage", "despair", "denial"} ==> f == EmotionEffects(score > 80, score > 90, false))
  {
  }

  /** The emotion's letter case does not matter. */
  lemma EffectsIgnoreCase(e1: string, e2: string, score: int)
    requires Lower(e1) == Lower(e2)
    ensures EffectsFrom(e1, score) == EffectsFrom(e2, score)
  {
  }

  /** An upper-case emotion name selects the same row as the lower-case one. */
  lemma UpperCaseShame(score: int)
    ensures EffectsFrom("SHAME", score) == EffectsFrom("shame", score)
  {
    assert Lower("SHAME") == "shame";
    assert Lower("shame") == "shame";
  }

  /** The reading time is a tenth of the score, but never under 8 seconds; so it is 8 exactly for scores below 90. */
  lemma ReadingTimeIsTenthOfScore(score: int)
    ensures ReadingTime(score) == (if score / 10 > 8 then score / 10 else 8)
    ensures ReadingTime(score) == 8 <==> score < 90
  {
  }

  /** The vibration has five pulses above a score of 80 and three otherwise, when it plays at all. */
  lemma VibrationLength(effects: EmotionEffects, score: int)
    ensures |VibrationPattern(effects, score)| == (if !effects.shouldVibrate then 0 else if score > 80 then 5 else 3)
  {
  }

  /**
   * After the countdown starts, dismissal unlocks on exactly the tick that
   * takes the remaining time to zero, and is impossible before it.
   */
  lemma {:induction false} CountdownUnlocksDismissal(m: Mirror, n: nat)
    requires m.timerRunning && !m.canDismiss && m.remainingTime > 0
    ensures HandleDismiss(TickN(m, n)) <==> n >= m.remainingTime
    ensures n < m.remainingTime ==> TickN(m, n).isReading == m.isReading
    ensures n >= m.remainingTime ==> !TickN(m, n).isReading && !TickN(m, n).timerRunning
    decreases n
  {
    if n > 0 {
      var t := Tick(m);
      if m.remainingTime == 1 {
        StoppedStaysPut(t, n - 1);
      } else {
        CountdownUnlocksDismissal(t, n - 1);
      }
    }
  }

  /** A stopped countdown never changes. */
  lemma {:induction false} StoppedStaysPut(m: Mirror, n: nat)
    requires !m.timerRunning
    ensures TickN(m, n) == m
    decreases n
  {
    if n > 0 {
      StoppedStaysPut(Tick(m), n - 1);
    }
  }

  /** From the screen's appearance, the review can be dismissed after exactly its reading time in ticks. */
  lemma DismissAfterReadingTime(score: int, n: nat)
    ensures HandleDismiss(TickN(StartReadingTimer(Initial, score), n)) <==> n >= ReadingTime(score)
  {
    CountdownUnlocksDismissal(StartReadingTimer(Initial, score), n);
  }
}

=== FILE: CallKit.dfy ===
/**
 * The call state published from the system call interface: which call is
 * active, whether it is muted or held, and the last observed call. The
 * manager's own requests (end, mute, hold) only queue transactions with the
 * system; the state changes when the system performs the action and calls
 * back. The system itself is not modelled: its callbacks are the inputs.
 */
module CallKit {
  import opened Wrappers

  /** Call identifiers are opaque. */
  type Uuid = string

  /** What the call observer last reported. */
  datatype CallSnapshot = CallSnapshot(uuid: Uuid, hasConnected: bool, hasEnded: bool, isOnHold: bool)

  /** The actions the manager asks the system to perform, and the system's answer action. */
  datatype CallAction =
    | AnswerCallAction(callUUID: Uuid)
    | EndCallAction(callUUID: Uuid)
    | SetMutedCallAction(callUUID: Uuid, muted: bool)
    | SetHeldCallAction(callUUID: Uuid, onHold: bool)

  /**
   * The published state, plus the transactions requested so far (each a
   * list of actions), which the system may or may not perform later.
   */
  datatype CallKitState = CallKitState(
    activeCallUUID: Option<Uuid>,
    isMuted: bool,
    isOnHold: bool,
    callState: Option<CallSnapshot>,
    requested: seq<seq<CallAction>>)

  const Initial: CallKitState := CallKitState(None, false, false, None, [])

  /** The four published fields together. */
  datatype Published = Published(activeCallUUID: Option<Uuid>, isMuted: bool, isOnHold: bool, callState: Option<CallSnapshot>)

  function PublishedOf(s: CallKitState): Published
  {
    Published(s.activeCallUUID, s.isMuted, s.isOnHold, s.callState)
  }

  /** The provider's set-up: the defaults name the app "BIG BRUH", without video, one call per group. */
  datatype CallKitConfiguration = CallKitConfiguration(appName: string, supportsVideo: bool, maximumCallsPerCallGroup: int)

  const DefaultConfiguration: CallKitConfiguration := CallKitConfiguration("BIG BRUH", false, 1)

  datatype HandleType = Generic | PhoneNumber

  datatype ProviderConfiguration = ProviderConfiguration(
    localizedName: string,
    maximumCallsPerCallGroup: int,
    supportsVideo: bool,
    supportedHandleTypes: seq<HandleType>)

  function ProviderConfigurationOf(c: CallKitConfiguration): (p: ProviderConfiguration)
    ensures p.localizedName == c.appName && p.supportsVideo == c.supportsVideo
    ensures p.maximumCallsPerCallGroup == c.maximumCallsPerCallGroup && p.supportedHandleTypes == [PhoneNumber]
  {
    ProviderConfiguration(c.appName, c.maximumCallsPerCallGroup, c.supportsVideo, [PhoneNumber])
  }

  datatype Handle = Handle(kind: HandleType, value: string)

  datatype CallUpdate = CallUpdate(
    hasVideo: bool,
    remoteHandle: Handle,
    localizedCallerName: string,
    supportsHolding: bool,
    supportsUngrouping: bool,
    supportsGrouping: bool,
    supportsDTMF: bool)

  /** The update describing a call: the name shown is also the handle; holding is the only extra supported. */
  function ConfigureDefaultUpdate(displayName: string, hasVideo: bool := false): (u: CallUpdate)
    ensures u.localizedCallerName == displayName && u.remoteHandle == Handle(Generic, displayName)
    ensures u.hasVideo == hasVideo && u.supportsHolding
    ensures !u.supportsGrouping && !u.supportsUngrouping && !u.supportsDTMF
  {
    CallUpdate(hasVideo, Handle(Generic, displayName), displayName, true, false, false, false)
  }

  /** An incoming call becomes active once the system accepts the report without error. */
  function ReportIncomingCall(s: CallKitState, uuid: Uuid, providerError: bool): (t: CallKitState)
    ensures !providerError ==> t == s.(activeCallUUID := Some(uuid))
    ensures providerError ==> t == s
  {
    if providerError then s else s.(activeCallUUID := Some(uuid))
  }

  /** An outgoing call becomes active at once. */
  function ReportOutgoingCall(s: CallKitState, uuid: Uuid): (t: CallKitState)
    ensures t == s.(activeCallUUID := Some(uuid))
  {
    s.(activeCallUUID := Some(uuid))
  }

  /** Asks the system to perform some actions; nothing published changes. */
  function RequestTransaction(s: CallKitState, actions: seq<CallAction>): (t: CallKitState)
    ensures t.requested == s.requested + [actions]
    ensures PublishedOf(t) == PublishedOf(s)
  {
    s.(requested := s.requested + [actions])
  }

  /** Asks the system to end a call: one transaction holding one end action; nothing published changes yet. */
  function EndCall(s: CallKitState, uuid: Uuid): (t: CallKitState)
    ensures t.requested == s.requested + [[EndCallAction(uuid)]]
    ensures PublishedOf(t) == PublishedOf(s)
  {
    RequestTransaction(s, [EndCallAction(uuid)])
  }

  /** Asks the system to mute or unmute; the flag changes only when the system performs it. */
  function SetMuted(s: CallKitState, muted: bool, uuid: Uuid): (t: CallKitState)
    ensures t.requested == s.requested + [[SetMutedCallAction(uuid, muted)]]
    ensures PublishedOf(t) == PublishedOf(s)
  {
    RequestTransaction(s, [SetMutedCallAction(uuid, muted)])
  }

  /** Asks the system to hold or resume; the flag changes only when the system performs it. */
  function SetOnHold(s: CallKitState, onHold: bool, uuid: Uuid): (t: CallKitState)
    ensures t.requested == s.requested + [[SetHeldCallAction(uuid, onHold)]]
    ensures PublishedOf(t) == PublishedOf(s)
  {
    RequestTransaction(s, [SetHeldCallAction(uuid, onHold)])
  }

  /** The system reset: every published field goes back to its initial value. */
  function ProviderDidReset(s: CallKitState): (t: CallKitState)
    ensures PublishedOf(t) == PublishedOf(Initial) && t.requested == s.requested
  {
    s.(activeCallUUID := None, isMuted := false, isOnHold := false, callState := None)
  }

  /**
   * The system performs an action and calls back. The observed call and the
   * request log are never touched; the active call changes only by an answer,
   * or by ending the very call that is active.
   */
  function Perform(s: CallKitState, action: CallAction): (t: CallKitState)
    ensures t.callState == s.callState && t.requested == s.requested
    ensures t.activeCallUUID != s.activeCallUUID ==>
              action.AnswerCallAction? || (action.EndCallAction? && s.activeCallUUID == Some(action.callUUID))
    ensures t.isMuted != s.isMuted ==> action.SetMutedCallAction?
    ensures t.isOnHold != s.isOnHold ==> action.SetHeldCallAction?
  {
    match action
    case AnswerCallAction(u) => s.(activeCallUUID := Some(u))
    case EndCallAction(u) => if s.activeCallUUID == Some(u) then s.(activeCallUUID := None) else s
    case SetMutedCallAction(_, muted) => s.(isMuted := muted)
    case SetHeldCallAction(_, onHold) => s.(isOnHold := onHold)
  }

  /** The system performs a whole transaction, action by action. */
  function PerformAll(s: CallKitState, actions: seq<CallAction>): CallKitState
    decreases |actions|
  {
    if |actions| == 0 then s else PerformAll(Perform(s, actions[0]), actions[1..])
  }

  /** The observer reports a change to a call. */
  function CallChanged(s: CallKitState, call: CallSnapshot): (t: CallKitState)
    ensures t == s.(callState := Some(call))
  {
    s.(callState := Some(call))
  }

  // ---------------------------------------------------------------------------
  // Properties
  // ---------------------------------------------------------------------------

  /** The manager starts with no call, unmuted, not held, nothing observed and nothing requested. */
  lemma InitialState()
    ensures Initial.activeCallUUID.None? && !Initial.isMuted && !Initial.isOnHold && Initial.callState.None?
    ensures ProviderDidReset(Initial) == Initial
  {
  }

  /** Answering makes the answered call the active one. */
  lemma AnswerActivates(s: CallKitState, u: Uuid)
    ensures Perform(s, AnswerCallAction(u)) == s.(activeCallUUID := Some(u))
  {
  }

  /** Ending clears the active call exactly when it is the call being ended, and touches nothing else. */
  lemma EndClearsOnlyItsOwnCall(s: CallKitState, u: Uuid)
    ensures Perform(s, EndCallAction(u)).activeCallUUID == (if s.activeCallUUID == Some(u) then None else s.activeCallUUID)
    ensures Perform(s, EndCallAction(u)).(activeCallUUID := s.activeCallUUID) == s
  {
  }

  /** Muting and holding set their own flag to the action's value and change nothing else. */
  lemma FlagsTouchOnlyTheirField(s: CallKitState, u: Uuid, b: bool)
    ensures Perform(s, SetMutedCallAction(u, b)) == s.(isMuted := b)
    ensures Perform(s, SetHeldCallAction(u, b)) == s.(isOnHold := b)
  {
  }

  /**
   * The manager's own requests change no published state; the change comes
   * only when the system performs the requested transaction.
   */
  lemma RequestsWaitForTheSystem(s: CallKitState, u: Uuid, b: bool)
    ensures PublishedOf(EndCall(s, u)) == PublishedOf(s)
    ensures PublishedOf(SetMuted(s, b, u)) == PublishedOf(s)
    ensures PublishedOf(SetOnHold(s, b, u)) == PublishedOf(s)
    ensures var t := SetMuted(s, b, u); PerformAll(t, t.requested[|t.requested| - 1]).isMuted == b
    ensures var t := SetOnHold(s, b, u); PerformAll(t, t.requested[|t.requested| - 1]).isOnHold == b
    ensures var t := EndCall(ReportOutgoingCall(s, u), u); PerformAll(t, t.requested[|t.requested| - 1]).activeCallUUID.None?
  {
    var t := SetMuted(s, b, u);
    assert t.requested[|t.requested| - 1] == [SetMutedCallAction(u, b)];
    assert [SetMutedCallAction(u, b)][1..] == [];
    var h := SetOnHold(s, b, u);
    assert h.requested[|h.requested| - 1] == [SetHeldCallAction(u, b)];
    assert [SetHeldCallAction(u, b)][1..] == [];
    var e := EndCall(ReportOutgoingCall(s, u), u);
    assert e.requested[|e.requested| - 1] == [EndCallAction(u)];
    assert [EndCallAction(u)][1..] == [];
  }

  /** After a reset the state is as if no call had ever been reported, whatever happened before. */
  lemma ResetForgetsHistory(s1: CallKitState, s2: CallKitState)
    ensures PublishedOf(ProviderDidReset(s1)) == PublishedOf(ProviderDidReset(s2))
  {
  }

  /**
   * An accepted incoming call is the one an end action for it clears; a
   * rejected report leaves the active call as it was, so ending the reported
   * call then changes it only if that call was already active.
   */
  lemma IncomingThenEnd(s: CallKitState, uuid: Uuid, providerError: bool)
    ensures !providerError ==> Perform(ReportIncomingCall(s, uuid, false), EndCallAction(uuid)).activeCallUUID.None?
    ensures providerError ==>
              Perform(ReportIncomingCall(s, uuid, true), EndCallAction(uuid)).activeCallUUID
              == (if s.activeCallUUID == Some(uuid) then None else s.activeCallUUID)
  {
  }

  /**
   * The observer's report is the only thing that sets the observed call, and
   * the latest report wins; no action the system performs overwrites it.
   */
  lemma LatestObservationWins(s: CallKitState, c1: CallSnapshot, c2: CallSnapshot, a: CallAction)
    ensures CallChanged(CallChanged(s, c1), c2).callState == Some(c2)
    ensures Perform(CallChanged(s, c1), a).callState == Some(c1)
    ensures PublishedOf(CallChanged(s, c1)).(callState := s.callState) == PublishedOf(s)
  {
  }

  /** The default update shows the same name in both places and supports only holding. */
  lemma DefaultUpdateShape(name: string)
    ensures ConfigureDefaultUpdate(name) == CallUpdate(false, Handle(Generic, name), name, true, false, false, false)
  {
  }
}

=== FILE: CallView.dfy ===
/**
 * The in-call screen's own state: the elapsed-time label its one-second
 * timer rewrites, the mute toggle, the message box and what sending a message
 * does to the live text, hanging up, and the background colour of each mood.
 * The timer, the typewriter effect and the scripted mood cycle are scheduled
 * work and are not modelled; the clock readings they use are parameters.
 */
module CallView {
  import opened Wrappers
  import opened Strings
  import Navigation

  datatype CallMood = Calm | Angry | Nuclear | Disappointed

  /** The background colour behind the call, as a hex string. */
  function BackgroundColor(mood: CallMood): string
  {
    match mood
    case Calm => "#000000"
    case Angry => "#DC143C"
    case Disappointed => "#8B00FF"
    case Nuclear => "#FF8C00"
  }

  datatype CallState = CallState(
    callStarted: bool,
    elapsed: string,
    muted: bool,
    showTextInput: bool,
    messageText: string,
    liveText: string,
    startTime: Option<real>)

  const Connecting: string := "Connecting to your accountability system..."

  const Initial: CallState := CallState(false, "00:00", false, false, "", Connecting, None)

  /** The label for a whole number of seconds: minutes and seconds, each printed with `%02d`. */
  function ElapsedText(totalSeconds: int): string
  {
    Pad2(TDiv(totalSeconds, 60)) + ":" + Pad2(TRem(totalSeconds, 60))
  }

  /** The call starts: the clock reading is kept as the start time. */
  function StartCall(s: CallState, now: real): (t: CallState)
    ensures t.callStarted && t.startTime == Some(now)
    ensures t.(callStarted := s.callStarted, startTime := s.startTime) == s
  {
    s.(callStarted := true, startTime := Some(now))
  }

  /** One timer tick at clock reading `now`: without a start time it does nothing. */
  function TimerFired(s: CallState, now: real): (t: CallState)
    ensures s.startTime.None? ==> t == s
    ensures t.(elapsed := s.elapsed) == s
  {
    match s.startTime
    case None => s
    case Some(start) => s.(elapsed := ElapsedText(TruncToInt(now - start)))
  }

  function ToggleMute(s: CallState): (t: CallState)
    ensures t.muted == !s.muted && t.(muted := s.muted) == s
  {
    s.(muted := !s.muted)
  }

  /** Shows or hides the message box; hiding it throws the unsent message away. */
  function ToggleTextInput(s: CallState): (t: CallState)
    ensures t.showTextInput == !s.showTextInput
    ensures t.messageText == (if t.showTextInput then s.messageText else "")
    ensures t.(showTextInput := s.showTextInput, messageText := s.messageText) == s
  {
    var shown := !s.showTextInput;
    s.(showTextInput := shown, messageText := if shown then s.messageText else "")
  }

  /** Sends the typed message: it becomes the live text, prefixed "You: ", and the box is cleared. */
  function SendMessage(s: CallState): (t: CallState)
    ensures |s.messageText| == 0 ==> t == s
    ensures |s.messageText| > 0 ==> t == s.(liveText := "You: " + s.messageText, messageText := "")
  {
    if |s.messageText| == 0 then s
    else s.(liveText := "You: " + s.messageText, messageText := "")
  }

  /** Hanging up: the call stops and the navigator is asked for the home screen. */
  function EndCall(s: CallState): (r: (CallState, Navigation.NavEvent))
    ensures !r.0.callStarted && r.0.(callStarted := s.callStarted) == s
    ensures r.1 == Navigation.CallEnded
  {
    (s.(callStarted := false), Navigation.CallEnded)
  }

  // ---------------------------------------------------------------------------
  // Properties
  // ---------------------------------------------------------------------------

  /** Each mood has its own colour: black, crimson, purple and orange. */
  lemma MoodColorsDistinct(a: CallMood, b: CallMood)
    ensures BackgroundColor(a) == BackgroundColor(b) <==> a == b
    ensures BackgroundColor(Calm) == "#000000" && BackgroundColor(Angry) == "#DC143C"
    ensures BackgroundColor(Disappointed) == "#8B00FF" && BackgroundColor(Nuclear) == "#FF8C00"
  {
    if a != b {
      var x, y := BackgroundColor(a), BackgroundColor(b);
      assert x[1] != y[1];
    }
  }

  /** The label starts out as the label for zero seconds. */
  lemma InitialLabelIsZero()
    ensures Initial.elapsed == ElapsedText(0)
    ensures !Initial.callStarted && !Initial.muted && !Initial.showTextInput && Initial.messageText == ""
  {
    assert Pad2(0) == "00";
  }

  /**
   * For a non-negative count the label reads back as whole minutes and the
   * remaining seconds, which together give the count back. Minutes are
   * never reduced to hours, so a call of 100 minutes or more shows three
   * or more minute digits.
   */
  lemma ElapsedReadsBack(totalSeconds: int)
    requires totalSeconds >= 0
    ensures ColonFields(ElapsedText(totalSeconds)) == [totalSeconds / 60, totalSeconds % 60]
    ensures var f := ColonFields(ElapsedText(totalSeconds)); f[0] * 60 + f[1] == totalSeconds && 0 <= f[1] < 60
  {
    TruncationAgreesOnNonNegatives(totalSeconds, 60);
    ColonFieldsOfPadded(TDiv(totalSeconds, 60), TRem(totalSeconds, 60));
  }

  /** Different non-negative counts give different labels. */
  lemma ElapsedInjective(a: int, b: int)
    requires a >= 0 && b >= 0 && a != b
    ensures ElapsedText(a) != ElapsedText(b)
  {
    ElapsedReadsBack(a);
    ElapsedReadsBack(b);
  }

  /**
   * Once the call has started at clock reading `start`, a tick at any reading
   * within `[start + k, start + k + 1)` shows exactly `k` whole seconds.
   */
  lemma TickShowsWholeSeconds(s: CallState, start: real, k: nat, fraction: real)
    requires 0.0 <= fraction < 1.0
    ensures var t := TimerFired(StartCall(s, start), start + k as real + fraction);
            ColonFields(t.elapsed) == [k / 60, k % 60]
  {
    TickLabel(s, start, k, fraction);
    ElapsedReadsBack(k);
  }

  /** The tick's label is the label for the whole seconds elapsed. */
  lemma TickLabel(s: CallState, start: real, k: nat, fraction: real)
    requires 0.0 <= fraction < 1.0
    ensures TimerFired(StartCall(s, start), start + k as real + fraction).elapsed == ElapsedText(k)
  {
    var now := start + k as real + fraction;
    WholePart(now - start, k, fraction);
  }

  /** A whole number plus a fraction below one truncates to the whole number. */
  lemma WholePart(x: real, k: nat, fraction: real)
    requires 0.0 <= fraction < 1.0 && x == k as real + fraction
    ensures TruncToInt(x) == k
  {
    var n := TruncToInt(x);
    assert n as real <= x < n as real + 1.0;
  }

  /** Muting twice is no change at all. */
  lemma MuteTwice(s: CallState)
    ensures ToggleMute(ToggleMute(s)) == s
  {
  }

  /** Opening and closing the message box, in either order, only loses the unsent message. */
  lemma TextInputTwice(s: CallState)
    ensures ToggleTextInput(ToggleTextInput(s)) == s.(messageText := "")
  {
  }

  /**
   * After a send the box is empty, so sending again changes nothing; the live
   * text still carries the whole message after its five-character prefix.
   */
  lemma SendOnce(s: CallState)
    requires |s.messageText| > 0
    ensures var t := SendMessage(s);
            && SendMessage(t) == t
            && t.liveText[..5] == "You: " && t.liveText[5..] == s.messageText
  {
  }

  /** Hanging up lands on the home screen, wherever the app was. */
  lemma EndCallGoesHome(s: CallState, screen: Navigation.AppScreen)
    ensures Navigation.Apply(screen, EndCall(s).1) == Navigation.HomeScreen
  {
  }
}

=== FILE: Evidence.dfy ===
/**
 * The evidence tab: the call history's totals, the kept-promise rate and the
 * verdict read off it, the first pattern the reviews identified, and how the
 * three most recent calls are shown as pass/fail cards.
 */
module Evidence {
  import opened Wrappers
  import opened Strings

  datatype BrutalReview = BrutalReview(
    paragraph: string,
    impactScore: int,
    dominantEmotion: string,
    patternIdentified: Option<string>)

  datatype CallHistoryItem = CallHistoryItem(
    id: string,
    date: string,
    time: string,
    duration: int,
    promisesAnalyzed: int,
    promisesBroken: int,
    promisesKept: int,
    worstExcuse: Option<string>,
    brutalReview: Option<BrutalReview>)

  /** The three per-call counts that are summed over the history. */
  datatype Count = Broken | Kept | Analyzed

  function CountOf(c: CallHistoryItem, which: Count): int
  {
    match which
    case Broken => c.promisesBroken
    case Kept => c.promisesKept
    case Analyzed => c.promisesAnalyzed
  }

  /** A count summed over the history, first call first. */
  function Total(history: seq<CallHistoryItem>, which: Count): (sum: int)
    ensures (forall i :: 0 <= i < |history| ==> CountOf(history[i], which) >= 0) ==> sum >= 0
    decreases |history|
  {
    if |history| == 0 then 0 else Total(history[..|history| - 1], which) + CountOf(history[|history| - 1], which)
  }

  function TotalBroken(history: seq<CallHistoryItem>): int { Total(history, Broken) }
  function TotalKept(history: seq<CallHistoryItem>): int { Total(history, Kept) }
  function TotalPromises(history: seq<CallHistoryItem>): int { Total(history, Analyzed) }

  /** Kept promises as a whole percentage of those analysed, truncated toward zero; 0 when there are none. */
  function SuccessRate(history: seq<CallHistoryItem>): (rate: int)
    ensures TotalPromises(history) <= 0 ==> rate == 0
    ensures TotalPromises(history) > 0 && 0 <= TotalKept(history) <= TotalPromises(history) ==> 0 <= rate <= 100
  {
    var promises := TotalPromises(history);
    if promises <= 0 then 0 else TDiv(TotalKept(history) * 100, promises)
  }

  /** The verdicts below 80, one for each fifth of the scale, lowest first. */
  const Fifths: seq<string> := ["HOPELESS CASE", "DAMNING EVIDENCE", "FAILURE EVIDENCE", "MIXED EVIDENCE"]

  /** The verdict for a rate: reliable from 80 on, else the verdict of the fifth it falls in; below 0 hopeless. */
  function RateAssessment(rate: int): (verdict: string)
    ensures rate >= 80 <==> verdict == "RELIABLE EVIDENCE"
    ensures 0 <= rate < 80 ==> verdict == Fifths[rate / 20]
    ensures rate < 0 ==> verdict == "HOPELESS CASE"
  {
    if rate >= 80 then "RELIABLE EVIDENCE"
    else if rate >= 60 then "MIXED EVIDENCE"
    else if rate >= 40 then "FAILURE EVIDENCE"
    else if rate >= 20 then "DAMNING EVIDENCE"
    else "HOPELESS CASE"
  }

  /** The verdict for the history: an empty history is judged before any rate is looked at. */
  function EvidenceAssessment(history: seq<CallHistoryItem>): (verdict: string)
    ensures |history| == 0 ==> verdict == "PATHETIC"
    ensures |history| > 0 && SuccessRate(history) >= 80 ==> verdict == "RELIABLE EVIDENCE"
    ensures |history| > 0 && 0 <= SuccessRate(history) < 80 ==> verdict == Fifths[SuccessRate(history) / 20]
    ensures |history| > 0 && SuccessRate(history) < 0 ==> verdict == "HOPELESS CASE"
  {
    if |history| == 0 then "PATHETIC" else RateAssessment(SuccessRate(history))
  }

  /** The pattern of a call's review, when the call has a review that names one. */
  function PatternOf(c: CallHistoryItem): Option<string>
  {
    if c.brutalReview.Some? then c.brutalReview.value.patternIdentified else None
  }

  /** The patterns the reviews named, in history order. */
  function Patterns(history: seq<CallHistoryItem>): (ps: seq<string>)
    ensures |ps| <= |history|
    decreases |history|
  {
    if |history| == 0 then []
    else
      var rest := Patterns(history[1..]);
      match PatternOf(history[0])
      case Some(p) => [p] + rest
      case None => rest
  }

  /** The pattern the tab leads with: none without calls, else the first one named, else still analysing. */
  function DominantPattern(history: seq<CallHistoryItem>): (r: string)
    ensures |history| == 0 ==> r == "NO EVIDENCE"
    ensures |history| > 0 ==> r == "ANALYZING PATTERNS" || r in Patterns(history)
  {
    if |history| == 0 then "NO EVIDENCE"
    else
      var ps := Patterns(history);
      if |ps| > 0 then ps[0] else "ANALYZING PATTERNS"
  }

  /** How many calls have a review that names a pattern. */
  function PatternsIdentified(history: seq<CallHistoryItem>): (n: nat)
    decreases |history|
  {
    if |history| == 0 then 0
    else PatternsIdentified(history[..|history| - 1]) + (if PatternOf(history[|history| - 1]).Some? then 1 else 0)
  }

  /** The calls shown in the recent list: the first three, or all of them when there are fewer. */
  function Recent(history: seq<CallHistoryItem>): (shown: seq<CallHistoryItem>)
    ensures |shown| == if |history| < 3 then |history| else 3
    ensures shown <= history
  {
    if |history| < 3 then history else history[..3]
  }

  /** What a card shows: pass or fail, its colours, and one line of text. */
  datatype Card = Card(isFail: bool, verdict: string, background: string, border: string, text: string)

  function EvidenceCard(c: CallHistoryItem): (card: Card)
    ensures card.isFail <==> c.promisesBroken > 0
    ensures card.verdict == (if card.isFail then "FAIL" else "PASS")
  {
    var isFail := c.promisesBroken > 0;
    var text :=
      if c.brutalReview.Some? then c.brutalReview.value.paragraph
      else if c.worstExcuse.Some? then "\"" + c.worstExcuse.value + "\""
      else "Evidence analyzed";
    Card(isFail, if isFail then "FAIL" else "PASS",
         if isFail then "#DC143C" else "#C8E6C9",
         if isFail then "#8B0000" else "#88a88a",
         text)
  }

  // ---------------------------------------------------------------------------
  // Properties
  // ---------------------------------------------------------------------------

  /** Totals add up across any split of the history. */
  lemma {:induction false} TotalAppend(a: seq<CallHistoryItem>, b: seq<CallHistoryItem>, which: Count)
    ensures Total(a + b, which) == Total(a, which) + Total(b, which)
    decreases |b|
  {
    if |b| == 0 {
      assert a + b == a;
    } else {
      var b' := b[..|b| - 1];
      assert (a + b)[..|a + b| - 1] == a + b';
      assert (a + b)[|a + b| - 1] == b[|b| - 1];
      TotalAppend(a, b', which);
    }
  }

  /** The total of a single call is that call's count. */
  lemma TotalSingle(c: CallHistoryItem, which: Count)
    ensures Total([c], which) == CountOf(c, which)
  {
    assert [c][..0] == [];
  }

  /** The history's counting is the sum of its first call and the rest, so the left-to-right fold agrees with summing from the front. */
  lemma TotalFromFront(history: seq<CallHistoryItem>, which: Count)
    requires |history| > 0
    ensures Total(history, which) == CountOf(history[0], which) + Total(history[1..], which)
  {
    assert history == [history[0]] + history[1..];
    TotalAppend([history[0]], history[1..], which);
    TotalSingle(history[0], which);
  }

  /** For a non-empty history the verdict follows the rate; the empty one is "PATHETIC" although its rate is 0. */
  lemma EmptyJudgedFirst()
    ensures SuccessRate([]) == 0 && RateAssessment(SuccessRate([])) == "HOPELESS CASE"
    ensures EvidenceAssessment([]) == "PATHETIC"
  {
  }

  /** The number of calls with a pattern is the number of patterns listed, and never more than the calls. */
  lemma {:induction false} PatternsIdentifiedCounts(history: seq<CallHistoryItem>)
    ensures PatternsIdentified(history) == |Patterns(history)| <= |history|
    decreases |history|
  {
    if |history| > 0 {
      var init := history[..|history| - 1];
      PatternsIdentifiedCounts(init);
      PatternsAppend(init, [history[|history| - 1]]);
      assert init + [history[|history| - 1]] == history;
      assert [history[|history| - 1]][1..] == [];
    }
  }

  /** The patterns of a joined history are the patterns of each part, in order. */
  lemma {:induction false} PatternsAppend(a: seq<CallHistoryItem>, b: seq<CallHistoryItem>)
    ensures Patterns(a + b) == Patterns(a) + Patterns(b)
    decreases |a|
  {
    if |a| == 0 {
      assert a + b == b;
    } else {
      assert (a + b)[0] == a[0];
      assert (a + b)[1..] == a[1..] + b;
      PatternsAppend(a[1..], b);
    }
  }

  /**
   * The dominant pattern is the pattern of the first call whose review names
   * one; it is "ANALYZING PATTERNS" when no review names one.
   */
  lemma {:induction false} DominantIsFirstNamed(history: seq<CallHistoryItem>, i: nat)
    requires i < |history| && PatternOf(history[i]).Some?
    requires forall j :: 0 <= j < i ==> PatternOf(history[j]).None?
    ensures DominantPattern(history) == PatternOf(history[i]).value
    decreases i
  {
    if i > 0 {
      DominantIsFirstNamed(history[1..], i - 1);
      assert Patterns(history) == Patterns(history[1..]);
    }
  }

  /** With no pattern named anywhere in a non-empty history, the dominant pattern is still being analysed. */
  lemma {:induction false} NoPatternNamed(history: seq<CallHistoryItem>)
    requires |history| > 0
    requires forall j :: 0 <= j < |history| ==> PatternOf(history[j]).None?
    ensures Patterns(history) == []
    ensures DominantPattern(history) == "ANALYZING PATTERNS"
    decreases |history|
  {
    if |history| > 1 {
      NoPatternNamed(history[1..]);
    }
  }

  /** A card's text prefers the review paragraph, then the quoted worst excuse, then a fixed line. */
  lemma CardText(c: CallHistoryItem)
    ensures c.brutalReview.Some? ==> EvidenceCard(c).text == c.brutalReview.value.paragraph
    ensures c.brutalReview.None? && c.worstExcuse.Some? ==>
              EvidenceCard(c).text == "\"" + c.worstExcuse.value + "\""
    ensures c.brutalReview.None? && c.worstExcuse.None? ==> EvidenceCard(c).text == "Evidence analyzed"
  {
  }
}

=== FILE: Face.dfy ===
/**
 * The home dashboard: a success rate over the promises made and broken, the
 * grade tables read off it, the colour of a grade, and the countdown to the
 * next call with its hours/minutes/seconds display and once-a-second tick.
 * The countdown is kept in seconds as a real number, as the source keeps it
 * in a floating-point time interval.
 */
module Face {
  import opened Strings

  /**
   * The share of promises kept, as a whole percentage truncated toward zero;
   * 0 when none were made. More broken than made gives a negative rate.
   */
  function SuccessRate(promisesMade: int, promisesBroken: int): (rate: int)
    ensures promisesMade <= 0 ==> rate == 0
    ensures promisesMade > 0 && 0 <= promisesBroken <= promisesMade ==> 0 <= rate <= 100
    ensures promisesMade > 0 && promisesBroken > promisesMade ==> rate <= 0
  {
    if promisesMade <= 0 then 0
    else TDiv((promisesMade - promisesBroken) * 100, promisesMade)
  }

  /** A grade with the line shown under it. */
  datatype Verdict = Verdict(grade: string, message: string)

  /**
   * The fire and skull emoji as the view's literals hold them: the emoji's
   * UTF-8 bytes decoded a second time as Windows-1252, so the app shows these
   * four characters each rather than the emoji.
   */
  const Fire: string := "\U{F0}\U{178}\U{201D}\U{A5}"
  const Skull: string := "\U{F0}\U{178}\U{2019}\U{20AC}"

  /** The messages below 80, one for each fifth of the scale, lowest first. */
  const FifthMessages: seq<string> :=
    ["Absolutely cooked " + Skull, "You're not even trying", "Still making excuses bro", "Getting there... maybe"]

  /** The line under the rate: the fifth of the scale it falls in, and the top message from 80 on. */
  function ProgressMessage(rate: int): (msg: string)
    ensures rate >= 80 <==> msg == "Actually locked in " + Fire
    ensures 0 <= rate < 80 ==> msg == FifthMessages[rate / 20]
    ensures rate < 0 ==> msg == "Absolutely cooked " + Skull
  {
    if rate >= 80 then "Actually locked in " + Fire
    else if rate >= 60 then "Getting there... maybe"
    else if rate >= 40 then "Still making excuses bro"
    else if rate >= 20 then "You're not even trying"
    else "Absolutely cooked " + Skull
  }

  /** The promise grade: A+ from 90, F below 40, and the tens digit in between. */
  function PromiseGrade(rate: int): (v: Verdict)
    ensures rate >= 90 <==> v.grade == "A+"
    ensures rate < 40 <==> v.grade == "F"
    ensures 40 <= rate < 90 ==> v.grade == ["D", "C", "B", "B+", "A"][rate / 10 - 4]
  {
    if rate >= 90 then Verdict("A+", "Actually reliable")
    else if rate >= 80 then Verdict("A", "Pretty good")
    else if rate >= 70 then Verdict("B+", "Not bad")
    else if rate >= 60 then Verdict("B", "Mediocre")
    else if rate >= 50 then Verdict("C", "Weak effort")
    else if rate >= 40 then Verdict("D", "Disappointing")
    else Verdict("F", "Pathetic")
  }

  /** Graded the other way round: the fewer promises kept, the better the excuses. */
  function ExcuseGrade(rate: int): (v: Verdict)
    ensures rate <= 20 <==> v.grade == "A+"
    ensures rate > 80 <==> v.grade == "F"
    ensures 20 < rate <= 80 ==> v.grade == ["A", "B", "C"][(rate - 1) / 20 - 1]
  {
    if rate <= 20 then Verdict("A+", "Too creative")
    else if rate <= 40 then Verdict("A", "Very creative")
    else if rate <= 60 then Verdict("B", "Getting there")
    else if rate <= 80 then Verdict("C", "Boring excuses")
    else Verdict("F", "No excuses!")
  }

  /** The streak grade: A+ from two weeks, F without a streak, and three steps in between. */
  function StreakGrade(streakDays: int): (v: Verdict)
    ensures streakDays >= 14 <==> v.grade == "A+"
    ensures streakDays <= 0 <==> v.grade == "F"
    ensures 0 < streakDays < 14 ==> v.grade == (if streakDays >= 7 then "B+" else if streakDays >= 3 then "C" else "D")
  {
    if streakDays >= 14 then Verdict("A+", "On fire")
    else if streakDays >= 7 then Verdict("B+", "Building up")
    else if streakDays >= 3 then Verdict("C", "Inconsistent")
    else if streakDays >= 1 then Verdict("D", "Broken")
    else Verdict("F", "Non-existent")
  }

  /** The overall grade: A+ from 90, F below 50, and the tens digit in between. */
  function OverallGrade(rate: int): (v: Verdict)
    ensures rate >= 90 <==> v.grade == "A+"
    ensures rate < 50 <==> v.grade == "F"
    ensures 50 <= rate < 90 ==> v.grade == ["D", "C", "B", "A"][rate / 10 - 5]
  {
    if rate >= 90 then Verdict("A+", "Exceptional")
    else if rate >= 80 then Verdict("A", "Good work")
    else if rate >= 70 then Verdict("B", "Average")
    else if rate >= 60 then Verdict("C", "Below par")
    else if rate >= 50 then Verdict("D", "Disappointing")
    else Verdict("F", "Hopeless")
  }

  /** The first of A, B, C, D the grade contains picks its colour; anything else is red. */
  function GradeColor(grade: string): (c: string)
    ensures c in [LetterColor('A'), LetterColor('B'), LetterColor('C'), LetterColor('D'), LetterColor('F')]
    ensures 'A' in grade ==> c == LetterColor('A')
    ensures 'A' !in grade && 'B' in grade ==> c == LetterColor('B')
  {
    if 'A' in grade then "#00FF00"
    else if 'B' in grade then "#FFD700"
    else if 'C' in grade then "#FF8C00"
    else if 'D' in grade then "#8B00FF"
    else "#DC143C"
  }

  /** The order of the grades the tables hand out, worst first. */
  function Rank(grade: string): int
  {
    if grade == "A+" then 6
    else if grade == "A" then 5
    else if grade == "B+" then 4
    else if grade == "B" then 3
    else if grade == "C" then 2
    else if grade == "D" then 1
    else 0
  }

  /** The colour each letter stands for. */
  function LetterColor(letter: char): string
  {
    match letter
    case 'A' => "#00FF00"
    case 'B' => "#FFD700"
    case 'C' => "#FF8C00"
    case 'D' => "#8B00FF"
    case _ => "#DC143C"
  }

  // ---------------------------------------------------------------------------
  // Countdown
  // ---------------------------------------------------------------------------

  const DefaultTimeRemaining: real := 7200.0

  function Hours(timeRemaining: real): int
  {
    TDiv(TruncToInt(timeRemaining), 3600)
  }

  function Minutes(timeRemaining: real): int
  {
    TDiv(TRem(TruncToInt(timeRemaining), 3600), 60)
  }

  function Seconds(timeRemaining: real): int
  {
    TRem(TruncToInt(timeRemaining), 60)
  }

  predicate IsUnderOneHour(timeRemaining: real)
  {
    timeRemaining < 3600.0 && timeRemaining > 0.0
  }

  /** The countdown after a tick, and whether the tick flashes red. */
  datatype Tick = Tick(timeRemaining: real, flash: bool)

  /**
   * One tick: while time remains it drops by a second, and the screen
   * flashes when the new value shows zero minutes and zero seconds.
   */
  function UpdateTimer(timeRemaining: real): (t: Tick)
    ensures timeRemaining > 0.0 ==> t.timeRemaining == timeRemaining - 1.0
    ensures timeRemaining <= 0.0 ==> t == Tick(timeRemaining, false)
  {
    if timeRemaining > 0.0 then
      var next := timeRemaining - 1.0;
      Tick(next, Seconds(next) == 0 && Minutes(next) == 0)
    else Tick(timeRemaining, false)
  }

  function TickN(timeRemaining: real, n: nat): real
    decreases n
  {
    if n == 0 then timeRemaining else TickN(UpdateTimer(timeRemaining).timeRemaining, n - 1)
  }

  // ---------------------------------------------------------------------------
  // Properties
  // ---------------------------------------------------------------------------

  /** Keeping every promise rates 100, keeping none rates 0, and each broken promise can only lower the rate. */
  lemma SuccessRateEndpoints(made: int, b1: int, b2: int)
    requires made > 0 && 0 <= b1 <= b2
    ensures SuccessRate(made, 0) == 100 && SuccessRate(made, made) == 0
    ensures SuccessRate(made, b2) <= SuccessRate(made, b1)
  {
    var q := SuccessRate(made, 0);
    assert q * made <= made * 100 < (q + 1) * made;
    CancelPositive(100, q + 1, made);
    CancelPositive(q, 101, made);
    RateAntitone(made, (made - b2) * 100, (made - b1) * 100);
  }

  /** Truncating division by a positive number keeps the order of the dividends. */
  lemma RateAntitone(d: int, x: int, y: int)
    requires d > 0 && x <= y
    ensures TDiv(x, d) <= TDiv(y, d)
  {
    var p, q := TDiv(x, d), TDiv(y, d);
    if x >= 0 {
      assert p * d <= x;
      assert y < (q + 1) * d;
      CancelPositive(p, q + 1, d);
    } else if y < 0 {
      assert (p - 1) * d < x;
      assert y <= q * d;
      CancelPositive(p - 1, q, d);
    } else {
      assert (p - 1) * d < 0 * d;
      CancelPositive(p - 1, 0, d);
      assert 0 * d < (q + 1) * d;
      CancelPositive(0, q + 1, d);
    }
  }

  /** A product with a positive factor keeps the order of the other factor. */
  lemma CancelPositive(a: int, b: int, d: int)
    requires d > 0 && a * d < b * d
    ensures a < b
  {
  }

  /** The promise grade never drops as the rate rises. */
  lemma PromiseGradeMonotone(r1: int, r2: int)
    requires r1 <= r2
    ensures Rank(PromiseGrade(r1).grade) <= Rank(PromiseGrade(r2).grade)
  {
  }

  /** The overall grade never drops as the rate rises. */
  lemma OverallGradeMonotone(r1: int, r2: int)
    requires r1 <= r2
    ensures Rank(OverallGrade(r1).grade) <= Rank(OverallGrade(r2).grade)
  {
  }

  /** The excuse grade never rises as the rate rises. */
  lemma ExcuseGradeAntitone(r1: int, r2: int)
    requires r1 <= r2
    ensures Rank(ExcuseGrade(r2).grade) <= Rank(ExcuseGrade(r1).grade)
  {
  }

  /** The streak grade never drops as the streak grows. */
  lemma StreakGradeMonotone(d1: int, d2: int)
    requires d1 <= d2
    ensures Rank(StreakGrade(d1).grade) <= Rank(StreakGrade(d2).grade)
  {
  }

  /** Every grade a table hands out gets the colour of its letter, so "A+" and "B+" share A's and B's. */
  lemma TableGradesColoredByLetter(rate: int, days: int)
    ensures var g := PromiseGrade(rate).grade; GradeColor(g) == LetterColor(g[0])
    ensures var g := ExcuseGrade(rate).grade; GradeColor(g) == LetterColor(g[0])
    ensures var g := StreakGrade(days).grade; GradeColor(g) == LetterColor(g[0])
    ensures var g := OverallGrade(rate).grade; GradeColor(g) == LetterColor(g[0])
  {
    TableGradeColor(PromiseGrade(rate).grade);
    TableGradeColor(ExcuseGrade(rate).grade);
    TableGradeColor(StreakGrade(days).grade);
    TableGradeColor(OverallGrade(rate).grade);
  }

  /** Each grade the tables hand out is coloured by its letter. */
  lemma TableGradeColor(g: string)
    requires g in ["A+", "A", "B+", "B", "C", "D", "F"]
    ensures GradeColor(g) == LetterColor(g[0])
  {
  }

  /** A grade containing none of A, B, C, D is red, whatever else it says. */
  lemma OtherGradesAreRed(grade: string)
    requires 'A' !in grade && 'B' !in grade && 'C' !in grade && 'D' !in grade
    ensures GradeColor(grade) == LetterColor('F')
  {
  }

  /** The display decomposes the whole seconds left, with minutes and seconds below 60. */
  lemma ClockDecomposes(timeRemaining: real)
    requires timeRemaining >= 0.0
    ensures Hours(timeRemaining) * 3600 + Minutes(timeRemaining) * 60 + Seconds(timeRemaining)
            == TruncToInt(timeRemaining)
    ensures 0 <= Minutes(timeRemaining) < 60 && 0 <= Seconds(timeRemaining) < 60 && Hours(timeRemaining) >= 0
  {
    ClockOfCount(TruncToInt(timeRemaining));
  }

  /** Hours, minutes and seconds of a whole number of seconds, in Swift's arithmetic. */
  lemma ClockOfCount(n: int)
    requires n >= 0
    ensures TDiv(n, 3600) * 3600 + TDiv(TRem(n, 3600), 60) * 60 + TRem(n, 60) == n
    ensures 0 <= TDiv(TRem(n, 3600), 60) < 60 && 0 <= TRem(n, 60) < 60 && TDiv(n, 3600) >= 0
    ensures TRem(n, 60) == 0 && TDiv(TRem(n, 3600), 60) == 0 <==> n % 3600 == 0
  {
    TruncationAgreesOnNonNegatives(n, 3600);
    TruncationAgreesOnNonNegatives(n % 3600, 60);
    TruncationAgreesOnNonNegatives(n, 60);
    assert n % 60 == (n % 3600) % 60;
  }

  /** Under an hour exactly when time remains and the hours read zero. */
  lemma UnderOneHourIffNoHours(timeRemaining: real)
    ensures IsUnderOneHour(timeRemaining) <==> timeRemaining > 0.0 && Hours(timeRemaining) == 0
  {
    if timeRemaining > 0.0 {
      TruncationAgreesOnNonNegatives(TruncToInt(timeRemaining), 3600);
    }
  }

  /** A whole number of seconds is shown as itself. */
  lemma WholeSecondsClock(k: nat)
    ensures TruncToInt(k as real) == k
    ensures Seconds(k as real) == 0 && Minutes(k as real) == 0 <==> k % 3600 == 0
  {
    assert TruncToInt(k as real) == k;
    ClockOfCount(k);
  }

  /** A tick flashes exactly when it lands on a whole hour, the last tick to zero included. */
  lemma FlashOnWholeHours(k: nat)
    ensures UpdateTimer(k as real + 1.0).flash <==> k % 3600 == 0
  {
    assert k as real + 1.0 - 1.0 == k as real;
    WholeSecondsClock(k);
  }

  /** From a whole number of seconds, n ticks count down to zero and stop there. */
  lemma {:induction false} TicksFromWholeSeconds(k: nat, n: nat)
    ensures TickN(k as real, n) == (if n <= k then (k - n) as real else 0.0)
    decreases n
  {
    if n > 0 {
      if k > 0 {
        assert UpdateTimer(k as real).timeRemaining == (k - 1) as real;
        TicksFromWholeSeconds(k - 1, n - 1);
      } else {
        TicksFromWholeSeconds(0, n - 1);
      }
    }
  }

  /** A fractional start goes below zero: half a second left ticks to minus half a second. */
  lemma FractionalStartGoesNegative()
    ensures UpdateTimer(0.5).timeRemaining == -0.5
  {
  }
}

=== FILE: Navigation.dfy ===
/**
 * Top-level screen selection. The root view keeps one current screen that
 * the navigator and a few screens overwrite; its starting decision is
 * repeated, as a view choice, by the entry view. Only the release build's
 * decision is modelled.
 */
module Navigation {
  import opened Wrappers
  import opened Users

  datatype AppScreen =
    | LoadingScreen
    | WelcomeScreen
    | OnboardingScreen
    | AlmostThereScreen
    | PaywallScreen
    | HomeScreen
    | CallScreen

  /** What the authentication service publishes. */
  datatype AuthState = AuthState(loading: bool, isAuthenticated: bool, user: Option<User>)

  /** `user?.onboardingCompleted == true`: a missing record or flag counts as not done. */
  predicate OnboardingDone(auth: AuthState)
  {
    auth.user.Some? && auth.user.value.onboardingCompleted == Some(true)
  }

  /** `user?.almostThereCompleted == true`. */
  predicate AlmostThereDone(auth: AuthState)
  {
    auth.user.Some? && auth.user.value.almostThereCompleted == Some(true)
  }

  const InitialScreen: AppScreen := LoadingScreen

  /** The root view's release-build choice of screen for the current authentication state. */
  function DetermineInitialScreen(auth: AuthState): (s: AppScreen)
    ensures auth.loading ==> s == LoadingScreen
    ensures !auth.loading && !auth.isAuthenticated ==> s == WelcomeScreen
    ensures !auth.loading && auth.isAuthenticated ==>
              s == (if OnboardingDone(auth) then (if AlmostThereDone(auth) then HomeScreen else AlmostThereScreen)
                    else OnboardingScreen)
  {
    if auth.loading then LoadingScreen
    else if !auth.isAuthenticated then WelcomeScreen
    else if OnboardingDone(auth) then
      if AlmostThereDone(auth) then HomeScreen else AlmostThereScreen
    else OnboardingScreen
  }

  /** The views the entry view can show. */
  datatype EntryChoice =
    | LoadingView
    | WelcomeView
    | OnboardingView
    | AlmostThereView
    | HomeView

  /** The entry view's choice, written with its own branch order. */
  function EntryView(auth: AuthState): EntryChoice
  {
    if auth.loading then LoadingView
    else if auth.isAuthenticated then
      if OnboardingDone(auth) then
        if AlmostThereDone(auth) then HomeView else AlmostThereView
      else OnboardingView
    else WelcomeView
  }

  /** The root screen that shows the same thing as an entry-view choice. */
  function ScreenOf(v: EntryChoice): AppScreen
  {
    match v
    case LoadingView => LoadingScreen
    case WelcomeView => WelcomeScreen
    case OnboardingView => OnboardingScreen
    case AlmostThereView => AlmostThereScreen
    case HomeView => HomeScreen
  }

  /**
   * Everything that writes the current screen: the navigator's three show
   * methods, the root view's own decisions, and the screens that assign a
   * screen directly.
   */
  datatype NavEvent =
    | ShowPaywall
    | ShowHome
    | ShowCall
    | Appeared(auth: AuthState)            // root view appears
    | AuthChanged(auth: AuthState)         // isAuthenticated changes
    | OnboardingCompleted                  // onboarding's completion callback
    | StartTalking                         // welcome screen's start button
    | AlmostThereLeave                     // simple confrontation view, LEAVE
    | AlmostThereCommit                    // simple confrontation view, COMMIT
    | PurchaseCompleted                    // paywall, after a purchase
    | PaywallDismissed                     // paywall, declined
    | CallEnded                            // call screen, hang up

  /** The screen after an event. Every event overwrites the screen whatever it was. */
  function Apply(screen: AppScreen, e: NavEvent): (next: AppScreen)
    ensures e.ShowPaywall? || e.AlmostThereCommit? ==> next == PaywallScreen
    ensures e.ShowHome? || e.AlmostThereLeave? || e.PurchaseCompleted? || e.CallEnded? ==> next == HomeScreen
    ensures e.ShowCall? ==> next == CallScreen
    ensures e.OnboardingCompleted? || e.PaywallDismissed? ==> next == AlmostThereScreen
    ensures e.StartTalking? ==> next == OnboardingScreen
  {
    match e
    case ShowPaywall => PaywallScreen
    case ShowHome => HomeScreen
    case ShowCall => CallScreen
    case Appeared(auth) => DetermineInitialScreen(auth)
    case AuthChanged(auth) => DetermineInitialScreen(auth)
    case OnboardingCompleted => AlmostThereScreen
    case StartTalking => OnboardingScreen
    // LEAVE, COMMIT, a purchase and hanging up go through the navigator's show methods
    case AlmostThereLeave => HomeScreen
    case AlmostThereCommit => PaywallScreen
    case PurchaseCompleted => HomeScreen
    case PaywallDismissed => AlmostThereScreen
    case CallEnded => HomeScreen
  }

  function ApplyAll(screen: AppScreen, events: seq<NavEvent>): AppScreen
    decreases |events|
  {
    if |events| == 0 then screen else ApplyAll(Apply(screen, events[0]), events[1..])
  }

  /** The entry view and the root view choose the same thing for every authentication state. */
  lemma EntryAgreesWithRoot(auth: AuthState)
    ensures ScreenOf(EntryView(auth)) == DetermineInitialScreen(auth)
  {
  }

  /** A signed-in user with no user record yet is sent to onboarding. */
  lemma MissingUserGoesToOnboarding(auth: AuthState)
    requires !auth.loading && auth.isAuthenticated && auth.user.None?
    ensures DetermineInitialScreen(auth) == OnboardingScreen
  {
  }

  /** The screen after an event never depends on the screen before it. */
  lemma ApplyForgetsScreen(s1: AppScreen, s2: AppScreen, e: NavEvent)
    ensures Apply(s1, e) == Apply(s2, e)
  {
  }

  /** An authentication change re-runs the decision and overwrites even a screen the user navigated to. */
  lemma AuthChangeOverwrites(screen: AppScreen, auth: AuthState)
    ensures Apply(screen, AuthChanged(auth)) == DetermineInitialScreen(auth)
    ensures Apply(screen, AuthChanged(auth)) == Apply(InitialScreen, Appeared(auth))
  {
  }

  /** The call screen is reached only through the navigator's showCall. */
  lemma {:induction false} CallOnlyViaShowCall(screen: AppScreen, events: seq<NavEvent>)
    requires screen != CallScreen
    requires forall i :: 0 <= i < |events| ==> !events[i].ShowCall?
    ensures ApplyAll(screen, events) != CallScreen
    decreases |events|
  {
    if |events| > 0 {
      var next := Apply(screen, events[0]);
      assert next != CallScreen;
      CallOnlyViaShowCall(next, events[1..]);
    }
  }

  /** Applying a sequence of events leaves the screen the last event chose. */
  lemma {:induction false} LastEventWins(screen: AppScreen, events: seq<NavEvent>)
    requires |events| > 0
    ensures ApplyAll(screen, events) == Apply(screen, events[|events| - 1])
    decreases |events|
  {
    if |events| > 1 {
      LastEventWins(Apply(screen, events[0]), events[1..]);
      assert events[1..][|events[1..]| - 1] == events[|events| - 1];
      ApplyForgetsScreen(Apply(screen, events[0]), screen, events[|events| - 1]);
    }
  }
}

=== FILE: Onboarding.dfy ===
/**
 * The in-progress onboarding record: the answers given so far, keyed by step
 * id, the step cursor, and the completion stamp. Wall-clock readings are
 * passed in as `now`, measured in seconds.
 */
module Onboarding {
  import opened Wrappers
  import opened Steps

  /**
   * The answer payload. Only the time-window answer is inspected anywhere in
   * this model; every other payload (recorded audio, typed text, a chosen
   * option, slider values) is carried as an uninterpreted string.
   */
  datatype ResponseValue =
    | TimeWindow(start: string, end: string)
    | Other(payload: string)

  /** One answered step, as it is stored under its step id. */
  datatype UserResponse = UserResponse(
    stepId: int,
    kind: StepType,
    value: ResponseValue,
    timestamp: real,
    dbField: Option<seq<string>>)

  datatype OnboardingState = OnboardingState(
    currentStep: int,
    responses: map<int, UserResponse>,
    brotherName: string,
    userName: Option<string>,
    isCompleted: bool,
    startedAt: real,
    completedAt: Option<real>)

  /** The number of steps the progress bar divides by. */
  const ProgressSteps: real := 45.0

  /** A fresh record, started at `now`, with every other field at its default. */
  function Fresh(now: real): (s: OnboardingState)
    ensures s.currentStep == 1 && s.isCompleted == false
    ensures s.responses == map[] && s.brotherName == "" && s.userName == None
    ensures s.startedAt == now && s.completedAt == None
  {
    OnboardingState(1, map[], "", None, false, now, None)
  }

  /** Records `r` under its own step id, replacing an earlier answer to that step. */
  function SaveResponse(s: OnboardingState, r: UserResponse): (t: OnboardingState)
    ensures r.stepId in t.responses && t.responses[r.stepId] == r
    ensures forall k :: k != r.stepId ==>
              (k in t.responses <==> k in s.responses)
    ensures forall k :: k != r.stepId && k in s.responses ==>
              t.responses[k] == s.responses[k]
    ensures t.(responses := s.responses) == s
  {
    s.(responses := s.responses[r.stepId := r])
  }

  function GetResponse(s: OnboardingState, stepId: int): (r: Option<UserResponse>)
    ensures r.Some? <==> stepId in s.responses
    ensures r.Some? ==> r.value == s.responses[stepId]
  {
    if stepId in s.responses then Some(s.responses[stepId]) else None
  }

  /** Advances the cursor by one; there is no upper bound. */
  function NextStep(s: OnboardingState): (t: OnboardingState)
    ensures t.currentStep == s.currentStep + 1
    ensures t.(currentStep := s.currentStep) == s
  {
    s.(currentStep := s.currentStep + 1)
  }

  /** Moves the cursor back by one, but never below step 1. */
  function PreviousStep(s: OnboardingState): (t: OnboardingState)
    ensures s.currentStep > 1 ==> t.currentStep == s.currentStep - 1 && t.currentStep >= 1
    ensures s.currentStep <= 1 ==> t == s
    ensures t.(currentStep := s.currentStep) == s
  {
    if s.currentStep > 1 then s.(currentStep := s.currentStep - 1) else s
  }

  /** Marks the record completed at `now`; the cursor and answers stay. */
  function Complete(s: OnboardingState, now: real): (t: OnboardingState)
    ensures t.isCompleted && t.completedAt == Some(now)
    ensures t.currentStep == s.currentStep && t.responses == s.responses
    ensures t.brotherName == s.brotherName && t.userName == s.userName
    ensures t.startedAt == s.startedAt
  {
    s.(isCompleted := true, completedAt := Some(now))
  }

  /** Discards everything and starts over at `now`. */
  function Reset(s: OnboardingState, now: real): (t: OnboardingState)
    ensures t.currentStep == 1 && t.responses == map[] && !t.isCompleted
    ensures t.startedAt == now
  {
    OnboardingState(1, map[], "", None, false, now, None)
  }

  /** The share of the 45 steps reached, in percent. */
  function ProgressPercentage(s: OnboardingState): (p: real)
    ensures s.currentStep >= 0 ==> p >= 0.0
  {
    (s.currentStep as real / ProgressSteps) * 100.0
  }

  function TotalResponses(s: OnboardingState): (n: nat)
    ensures n == 0 <==> s.responses == map[]
  {
    |s.responses|
  }

  /** Whether the user has moved past the first step or answered anything. */
  function HasStarted(s: OnboardingState): (started: bool)
    ensures s.responses != map[] ==> started
    ensures s.responses == map[] ==> (started <==> s.currentStep > 1)
  {
    s.currentStep > 1 || TotalResponses(s) > 0
  }

  /** After saving `r`, looking up its step returns exactly `r`. */
  lemma SaveThenGet(s: OnboardingState, r: UserResponse)
    ensures GetResponse(SaveResponse(s, r), r.stepId) == Some(r)
  {
  }

  /** Saving does not disturb the answer to any other step. */
  lemma SaveKeepsOthers(s: OnboardingState, r: UserResponse, id: int)
    requires id != r.stepId
    ensures GetResponse(SaveResponse(s, r), id) == GetResponse(s, id)
  {
  }

  /** Saving the same answer twice is the same as saving it once. */
  lemma SaveIdempotent(s: OnboardingState, r: UserResponse)
    ensures SaveResponse(SaveResponse(s, r), r) == SaveResponse(s, r)
  {
  }

  /** Moving forward and then back returns to the same record. */
  lemma NextThenPrevious(s: OnboardingState)
    requires s.currentStep >= 1
    ensures PreviousStep(NextStep(s)) == s
  {
  }

  /** Stepping back from the first step changes nothing. */
  lemma PreviousAtFirstStep(s: OnboardingState)
    requires s.currentStep <= 1
    ensures PreviousStep(s) == s
  {
  }

  /** Resetting any record gives the same record as starting fresh at that moment. */
  lemma ResetIsFresh(s: OnboardingState, now: real)
    ensures Reset(s, now) == Fresh(now)
    ensures !HasStarted(Reset(s, now))
  {
  }

  /** A larger cursor always shows a larger percentage, and step 45 shows 100. */
  lemma ProgressStrictlyIncreasing(a: OnboardingState, b: OnboardingState)
    requires a.currentStep < b.currentStep
    ensures ProgressPercentage(a) < ProgressPercentage(b)
  {
  }

  lemma ProgressAtLastStep(s: OnboardingState)
    requires s.currentStep == TotalSteps()
    ensures ProgressPercentage(s) == 100.0
  {
  }

  /**
   * A record has not started exactly when it sits at (or before) step 1 with
   * no answers; advancing or answering always starts it.
   */
  lemma HasStartedCharacterised(s: OnboardingState, r: UserResponse)
    ensures !HasStarted(s) <==> s.currentStep <= 1 && s.responses == map[]
    ensures s.currentStep >= 1 ==> HasStarted(NextStep(s))
    ensures HasStarted(SaveResponse(s, r))
  {
  }
}

=== FILE: OnboardingSound.dfy ===
/**
 * Ambient audio during onboarding: which looping track a step calls for,
 * and the published "is a track playing / which one" state. The audio
 * players themselves are not modelled; only the state they drive is.
 */
module OnboardingSound {
  import opened Wrappers
  import opened Steps

  const SubBass: string := "sub_bass"
  const Ticking: string := "ticking"

  /** The two looping tracks the manager knows how to start. */
  predicate IsAmbientTrack(kind: string)
  {
    kind == SubBass || kind == Ticking
  }

  datatype Ambient = Ambient(isAmbientPlaying: bool, currentAmbientFile: Option<string>)

  const Initial: Ambient := Ambient(false, None)

  /** Something is playing exactly when a current track is recorded. */
  predicate Consistent(a: Ambient)
  {
    a.isAmbientPlaying <==> a.currentAmbientFile.Some?
  }

  predicate IsTickingPhase(phase: Phase)
  {
    phase == CommitmentSystem || phase == ExternalAnchors || phase == FinalOath
  }

  predicate IsPatternPhase(phase: Phase)
  {
    phase == PatternAwareness || phase == PatternAnalysis
  }

  /**
   * The track a step calls for. `recordingTime` is the length, in seconds,
   * of the recording made on a voice step, when there is one.
   */
  function ContextualAudio(phase: Phase, kind: StepType, recordingTime: Option<real>): (r: Option<string>)
    ensures r.Some? ==> IsAmbientTrack(r.value)
  {
    if kind == Voice && recordingTime.Some? && recordingTime.value > 30.0 then Some(SubBass)
    else if kind == Voice && IsPatternPhase(phase) then Some(Ticking)
    else if IsTickingPhase(phase) then Some(Ticking)
    else None
  }

  function StopAmbient(a: Ambient): (b: Ambient)
    ensures !b.isAmbientPlaying && b.currentAmbientFile == None
  {
    Ambient(false, None)
  }

  /** Stops whatever plays, then starts `kind` if it is a known track. */
  function PlayAmbient(a: Ambient, kind: string): (b: Ambient)
    ensures IsAmbientTrack(kind) ==> b.isAmbientPlaying && b.currentAmbientFile == Some(kind)
    ensures !IsAmbientTrack(kind) ==> b == StopAmbient(a)
  {
    var stopped := StopAmbient(a);
    if kind == SubBass || kind == Ticking then Ambient(true, Some(kind)) else stopped
  }

  /** Brings the ambient track in line with the current step. */
  function UpdateAmbientForStep(a: Ambient, phase: Phase, kind: StepType, recordingTime: Option<real>): (b: Ambient)
    ensures ContextualAudio(phase, kind, recordingTime) == None ==>
              b == (if a.isAmbientPlaying then StopAmbient(a) else a)
    ensures (a.currentAmbientFile.Some? && ContextualAudio(phase, kind, recordingTime) == a.currentAmbientFile)
              ==> b == a
  {
    match ContextualAudio(phase, kind, recordingTime)
    case None => if a.isAmbientPlaying then StopAmbient(a) else a
    case Some(file) => if a.currentAmbientFile == Some(file) then a else PlayAmbient(a, file)
  }

  /**
   * The selection table: a long voice recording always calls for the sub-bass
   * loop; otherwise a voice step in a pattern phase, or any step in the last
   * three phases, calls for the ticking clock; nothing else calls for a track.
   */
  lemma ContextualAudioTable(phase: Phase, kind: StepType, recordingTime: Option<real>)
    ensures var r := ContextualAudio(phase, kind, recordingTime);
            var longVoice := kind == Voice && recordingTime.Some? && recordingTime.value > 30.0;
            && (r == Some(SubBass) <==> longVoice)
            && (r == Some(Ticking) <==>
                  !longVoice && ((kind == Voice && IsPatternPhase(phase)) || IsTickingPhase(phase)))
            && (r == None <==>
                  !longVoice && !(kind == Voice && IsPatternPhase(phase)) && !IsTickingPhase(phase))
  {
  }

  /** The "playing exactly when a track is recorded" invariant holds initially and survives every operation. */
  lemma ConsistencyPreserved(a: Ambient, phase: Phase, kind: StepType, recordingTime: Option<real>, track: string)
    requires Consistent(a)
    ensures Consistent(Initial)
    ensures Consistent(StopAmbient(a))
    ensures Consistent(PlayAmbient(a, track))
    ensures Consistent(UpdateAmbientForStep(a, phase, kind, recordingTime))
  {
  }

  /** From a consistent state, an update leaves exactly the selected track playing, or nothing. */
  lemma UpdateFollowsSelection(a: Ambient, phase: Phase, kind: StepType, recordingTime: Option<real>)
    requires Consistent(a)
    ensures var b := UpdateAmbientForStep(a, phase, kind, recordingTime);
            b.currentAmbientFile == ContextualAudio(phase, kind, recordingTime)
            && (b.isAmbientPlaying <==> ContextualAudio(phase, kind, recordingTime).Some?)
  {
  }

  /** Updating for the same step twice is the same as updating once. */
  lemma UpdateIdempotent(a: Ambient, phase: Phase, kind: StepType, recordingTime: Option<real>)
    ensures var b := UpdateAmbientForStep(a, phase, kind, recordingTime);
            UpdateAmbientForStep(b, phase, kind, recordingTime) == b
  {
  }
}

=== FILE: OnboardingStore.dfy ===
/**
 * The store for finished onboarding data. The device's key-value defaults
 * are an abstract map from key to stored blob; a blob either decodes to a
 * record or does not. Encoding a record always succeeds and decodes back to
 * the same record.
 */
module OnboardingStore {
  import opened Wrappers
  import opened Steps
  import opened Onboarding

  const CompletedKey: string := "completed_onboarding_data"
  const InProgressKey: string := "onboarding_v3_state"

  /** A stored value: an encoded record, or bytes that do not decode to one. */
  datatype Blob =
    | Encoded(state: OnboardingState)
    | Undecodable(bytes: seq<int>)

  type Defaults = map<string, Blob>

  /** The stored defaults and the published copy of the completed record. */
  datatype Manager = Manager(defaults: Defaults, completedData: Option<OnboardingState>)

  function Decode(b: Blob): (r: Option<OnboardingState>)
    ensures r.Some? <==> b.Encoded?
  {
    match b
    case Encoded(s) => Some(s)
    case Undecodable(_) => None
  }

  /** Publishes the stored completed record if there is one that decodes; otherwise keeps the old copy. */
  function LoadCompletedData(m: Manager): (n: Manager)
    ensures n.defaults == m.defaults
    ensures CompletedKey in m.defaults && m.defaults[CompletedKey].Encoded? ==>
              n.completedData == Some(m.defaults[CompletedKey].state)
    ensures !(CompletedKey in m.defaults && m.defaults[CompletedKey].Encoded?) ==>
              n.completedData == m.completedData
  {
    if CompletedKey in m.defaults then
      match Decode(m.defaults[CompletedKey])
      case Some(s) => m.(completedData := Some(s))
      case None => m
    else m
  }

  /** The manager as it stands right after start-up: nothing published, then a load. */
  function Open(defaults: Defaults): (m: Manager)
    ensures m.defaults == defaults
    ensures m.completedData.Some? <==>
              CompletedKey in defaults && defaults[CompletedKey].Encoded?
  {
    LoadCompletedData(Manager(defaults, None))
  }

  /** Stores the encoded record under the completed key, then reloads. */
  function SaveCompletedData(m: Manager, s: OnboardingState): (n: Manager)
    ensures n.completedData == Some(s)
    ensures CompletedKey in n.defaults && Decode(n.defaults[CompletedKey]) == Some(s)
    ensures forall k :: k != CompletedKey ==>
              (k in n.defaults <==> k in m.defaults)
    ensures forall k :: k != CompletedKey && k in m.defaults ==>
              n.defaults[k] == m.defaults[k]
  {
    LoadCompletedData(m.(defaults := m.defaults[CompletedKey := Encoded(s)]))
  }

  /** Forgets the in-progress record; the completed record is untouched. */
  function ClearInProgressState(m: Manager): (n: Manager)
    ensures InProgressKey !in n.defaults
    ensures forall k :: k != InProgressKey ==>
              (k in n.defaults <==> k in m.defaults)
    ensures forall k :: k != InProgressKey && k in m.defaults ==>
              n.defaults[k] == m.defaults[k]
    ensures n.completedData == m.completedData
  {
    m.(defaults := m.defaults - {InProgressKey})
  }

  /** Forgets both records and the published copy. */
  function ClearAllData(m: Manager): (n: Manager)
    ensures CompletedKey !in n.defaults && InProgressKey !in n.defaults
    ensures forall k :: k != CompletedKey && k != InProgressKey ==>
              (k in n.defaults <==> k in m.defaults)
    ensures forall k :: k != CompletedKey && k != InProgressKey && k in m.defaults ==>
              n.defaults[k] == m.defaults[k]
    ensures n.completedData == None
  {
    Manager(m.defaults - {CompletedKey, InProgressKey}, None)
  }

  function UserName(m: Manager): (r: Option<string>)
    ensures m.completedData.None? ==> r == None
    ensures m.completedData.Some? ==> r == m.completedData.value.userName
  {
    match m.completedData
    case Some(s) => s.userName
    case None => None
  }

  function BrotherName(m: Manager): (r: string)
    ensures m.completedData.None? ==> r == ""
    ensures m.completedData.Some? ==> r == m.completedData.value.brotherName
  {
    match m.completedData
    case Some(s) => s.brotherName
    case None => ""
  }

  function AllResponses(m: Manager): (r: map<int, UserResponse>)
    ensures m.completedData.None? ==> r == map[]
    ensures m.completedData.Some? ==> r == m.completedData.value.responses
  {
    match m.completedData
    case Some(s) => s.responses
    case None => map[]
  }

  function StoredResponse(m: Manager, stepId: int): (r: Option<UserResponse>)
    ensures r.Some? ==> stepId in AllResponses(m)
  {
    match m.completedData
    case Some(s) => GetResponse(s, stepId)
    case None => None
  }

  /**
   * The stored answers of one kind. The app lists them in the dictionary's
   * unspecified order; the model keeps the set.
   */
  function ResponsesOfKind(m: Manager, kind: StepType): (r: set<UserResponse>)
    ensures forall x :: x in r ==> x in AllResponses(m).Values && x.kind == kind
    ensures forall x :: x in AllResponses(m).Values && x.kind == kind ==> x in r
  {
    set x | x in AllResponses(m).Values && x.kind == kind
  }

  function VoiceResponses(m: Manager): set<UserResponse>
  {
    ResponsesOfKind(m, Voice)
  }

  function TextResponses(m: Manager): set<UserResponse>
  {
    ResponsesOfKind(m, Text)
  }

  /** Nothing published counts as not completed; otherwise the record's own flag decides. */
  function HasCompletedOnboarding(m: Manager): (done: bool)
    ensures m.completedData.None? ==> !done
    ensures m.completedData.Some? ==> (done <==> m.completedData.value.isCompleted)
  {
    m.completedData.Some? && m.completedData.value.isCompleted
  }

  /** After a save, and after reopening the store, the getters read back the saved record's fields. */
  lemma SaveThenRead(m: Manager, s: OnboardingState, id: int)
    ensures var n := SaveCompletedData(m, s);
            UserName(n) == s.userName && BrotherName(n) == s.brotherName && AllResponses(n) == s.responses
    ensures var o := Open(SaveCompletedData(m, s).defaults);
            UserName(o) == s.userName && BrotherName(o) == s.brotherName && AllResponses(o) == s.responses
    ensures StoredResponse(SaveCompletedData(m, s), id) == (if id in s.responses then Some(s.responses[id]) else None)
  {
    SaveThenLoad(m, s);
    StoredResponseIsLookup(SaveCompletedData(m, s), id);
  }

  /** Saving a record publishes it, and reopening the store finds it again. */
  lemma SaveThenLoad(m: Manager, s: OnboardingState)
    ensures SaveCompletedData(m, s).completedData == Some(s)
    ensures Open(SaveCompletedData(m, s).defaults).completedData == Some(s)
  {
  }

  /** A load with nothing usable stored leaves the published copy as it was. */
  lemma LoadWithoutRecordIsNoOp(m: Manager)
    requires CompletedKey !in m.defaults || m.defaults[CompletedKey].Undecodable?
    ensures LoadCompletedData(m) == m
  {
  }

  /** Loading twice is the same as loading once. */
  lemma LoadIdempotent(m: Manager)
    ensures LoadCompletedData(LoadCompletedData(m)) == LoadCompletedData(m)
  {
  }

  /** Clearing everything empties every derived view, and nothing is found on reopening. */
  lemma ClearAllEmptiesViews(m: Manager, id: int)
    ensures UserName(ClearAllData(m)) == None
    ensures BrotherName(ClearAllData(m)) == ""
    ensures AllResponses(ClearAllData(m)) == map[]
    ensures StoredResponse(ClearAllData(m), id) == None
    ensures VoiceResponses(ClearAllData(m)) == {} && TextResponses(ClearAllData(m)) == {}
    ensures !HasCompletedOnboarding(ClearAllData(m))
    ensures Open(ClearAllData(m).defaults).completedData == None
  {
  }

  /** Clearing the in-progress record changes none of the derived views. */
  lemma ClearInProgressKeepsViews(m: Manager, id: int)
    ensures AllResponses(ClearInProgressState(m)) == AllResponses(m)
    ensures StoredResponse(ClearInProgressState(m), id) == StoredResponse(m, id)
    ensures HasCompletedOnboarding(ClearInProgressState(m)) == HasCompletedOnboarding(m)
    ensures Open(ClearInProgressState(m).defaults) == Open(m.defaults).(defaults := ClearInProgressState(m).defaults)
  {
  }

  /** Looking up one step agrees with indexing the full answer map. */
  lemma StoredResponseIsLookup(m: Manager, id: int)
    ensures StoredResponse(m, id).Some? <==> id in AllResponses(m)
    ensures id in AllResponses(m) ==> StoredResponse(m, id) == Some(AllResponses(m)[id])
  {
  }

  /** No answer is both a voice and a text answer, and both lists come from the stored answers. */
  lemma VoiceAndTextDisjoint(m: Manager)
    ensures VoiceResponses(m) * TextResponses(m) == {}
    ensures VoiceResponses(m) + TextResponses(m) <= AllResponses(m).Values
  {
  }
}

=== FILE: Processing.dfy ===
/**
 * The set-up screen shown after onboarding: four stages run in order, each
 * marked processing and then completed, with a progress value set as each
 * stage starts. The second stage pushes the onboarding answers to the
 * backend; its outcome, and whether one of the three waits is cancelled,
 * are inputs. A run is modelled as the list of state updates it performs.
 */
module Processing {
  import opened Wrappers

  datatype StepStatus = Pending | InProgress | Completed

  datatype ProcessingStep = ProcessingStep(caption: string, status: StepStatus)

  const StageLabels: seq<string> := ["CREATING", "SYNCING", "ENABLING", "READY"]
  const StageCount: nat := 4

  /**
   * The screen's state. `redirects` counts the completion callbacks the
   * screen has scheduled so far; it is bookkeeping for the model.
   */
  datatype ProcessingState = ProcessingState(
    isComplete: bool,
    error: Option<string>,
    currentStep: int,
    hasRedirected: bool,
    progress: real,
    steps: seq<ProcessingStep>,
    redirects: nat)

  function PendingSteps(): (steps: seq<ProcessingStep>)
    ensures |steps| == StageCount
    ensures forall k :: 0 <= k < StageCount ==> steps[k] == ProcessingStep(StageLabels[k], Pending)
  {
    seq(StageCount, k requires 0 <= k < StageCount => ProcessingStep(StageLabels[k], Pending))
  }

  const Initial: ProcessingState := ProcessingState(false, None, 0, false, 0.0, PendingSteps(), 0)

  /** Why the push failed, as the push service reports it. */
  datatype PushError =
    | UserNotAuthenticated
    | InvalidData
    | NetworkError(description: string)
    | ForeignError          // any error that is not one of the push service's own

  /** What the push returned: a response envelope, or a thrown error. */
  datatype PushOutcome =
    | Responded(success: bool, message: Option<string>)
    | Threw(err: PushError)

  /** The message shown for each failure. */
  function ErrorMessage(e: PushError): string
  {
    match e
    case UserNotAuthenticated => "Authentication failed. Please sign in again."
    case InvalidData => "No onboarding data found. Please complete onboarding first."
    case NetworkError(d) => "Network error: " + d
    case ForeignError => "Setup failed. Please try again."
  }

  /** The error a push outcome raises, if any; an unsuccessful envelope becomes a network error. */
  function PushFailure(p: PushOutcome): (r: Option<PushError>)
    ensures r.None? <==> p.Responded? && p.success
    ensures p.Threw? ==> r == Some(p.err)
    ensures p.Responded? && !p.success && p.message.Some? ==> r == Some(NetworkError(p.message.value))
    ensures p.Responded? && !p.success && p.message.None? ==> r == Some(NetworkError("Unknown error"))
  {
    match p
    case Responded(success, message) =>
      if success then None else Some(NetworkError(message.GetOr("Unknown error")))
    case Threw(e) => Some(e)
  }

  /** One state update performed by a run. */
  datatype Action =
    | SetStatus(index: nat, status: StepStatus)
    | SetProgress(value: real)
    | Fail(message: string)
    | Finish

  /** Sets a stage's status; an index past the last stage is ignored. */
  function UpdateStepStatus(s: ProcessingState, index: nat, status: StepStatus): (t: ProcessingState)
    ensures |t.steps| == |s.steps|
    ensures index < |s.steps| ==> t.steps[index] == s.steps[index].(status := status)
    ensures forall k :: 0 <= k < |s.steps| && k != index ==> t.steps[k] == s.steps[k]
    ensures t.(steps := s.steps) == s
  {
    if index < |s.steps| then s.(steps := s.steps[index := s.steps[index].(status := status)]) else s
  }

  function Step(s: ProcessingState, a: Action): ProcessingState
  {
    match a
    case SetStatus(i, st) => UpdateStepStatus(s, i, st)
    case SetProgress(v) => s.(progress := v)
    case Fail(m) => s.(error := Some(m))
    case Finish =>
      if s.hasRedirected then s.(isComplete := true)
      else s.(isComplete := true, hasRedirected := true, redirects := s.redirects + 1)
  }

  function Run(s: ProcessingState, actions: seq<Action>): ProcessingState
    decreases |actions|
  {
    if |actions| == 0 then s else Run(Step(s, actions[0]), actions[1..])
  }

  /** The progress value set when stage k starts: 0.25, 0.5, 0.75, 1.0. */
  function StageProgress(k: nat): real
  {
    (k + 1) as real / 4.0
  }

  /** Stage k starts: marked processing, progress raised. */
  function Begin(k: nat): seq<Action>
  {
    [SetStatus(k, InProgress), SetProgress(StageProgress(k))]
  }

  /** The single update a failure performs: its message is shown. */
  function FailWith(e: PushError): seq<Action>
  {
    [Fail(ErrorMessage(e))]
  }

  /**
   * The updates a run performs. `cancelled` names the wait (0, 1 or 2, in
   * stages 0, 2 and 3) that throws, if any; a thrown wait is not one of the
   * push service's errors. The run stops at the first failure.
   */
  function Script(push: PushOutcome, cancelled: Option<nat>): seq<Action>
  {
    Begin(0) + (if cancelled == Some(0) then FailWith(ForeignError) else AfterCreate(push, cancelled))
  }

  /** The run once the first wait is over: the push happens here. */
  function AfterCreate(push: PushOutcome, cancelled: Option<nat>): seq<Action>
  {
    [SetStatus(0, Completed)] + Begin(1)
    + (match PushFailure(push)
       case Some(e) => FailWith(e)
       case None => AfterSync(cancelled))
  }

  function AfterSync(cancelled: Option<nat>): seq<Action>
  {
    [SetStatus(1, Completed)] + Begin(2)
    + (if cancelled == Some(1) then FailWith(ForeignError) else AfterEnable(cancelled))
  }

  function AfterEnable(cancelled: Option<nat>): seq<Action>
  {
    [SetStatus(2, Completed)] + Begin(3)
    + (if cancelled == Some(2) then FailWith(ForeignError) else [SetStatus(3, Completed), Finish])
  }

  function ProcessUser(s: ProcessingState, push: PushOutcome, cancelled: Option<nat>): ProcessingState
  {
    Run(s, Script(push, cancelled))
  }

  /** Clears the outcome of the last run and puts every stage back to pending. */
  function Reset(s: ProcessingState): (t: ProcessingState)
    ensures t.error == None && !t.isComplete && !t.hasRedirected && t.progress == 0.0
    ensures t.steps == PendingSteps() && t.redirects == s.redirects
  {
    ProcessingState(false, None, 0, false, 0.0, PendingSteps(), s.redirects)
  }

  /** Retry from the error screen: reset, then run again. */
  function RestartProcess(s: ProcessingState, push: PushOutcome, cancelled: Option<nat>): ProcessingState
  {
    ProcessUser(Reset(s), push, cancelled)
  }

  /** Where a run stops with an error, written from the order of the stages rather than from the script. */
  function FailedStage(push: PushOutcome, cancelled: Option<nat>): (k: Option<nat>)
    ensures k.Some? ==> k.value < StageCount
  {
    if cancelled == Some(0) then Some(0)
    else if PushFailure(push).Some? then Some(1)
    else if cancelled == Some(1) then Some(2)
    else if cancelled == Some(2) then Some(3)
    else None
  }

  /** The error that stops a run, if any. */
  function Failure(push: PushOutcome, cancelled: Option<nat>): (e: Option<PushError>)
    ensures e.Some? <==> FailedStage(push, cancelled).Some?
  {
    if cancelled == Some(0) then Some(ForeignError)
    else if PushFailure(push).Some? then PushFailure(push)
    else if cancelled == Some(1) || cancelled == Some(2) then Some(ForeignError)
    else None
  }

  lemma {:induction false} RunAppend(s: ProcessingState, a: seq<Action>, b: seq<Action>)
    ensures Run(s, a + b) == Run(Run(s, a), b)
    decreases |a|
  {
    if |a| == 0 {
      assert a + b == b;
    } else {
      assert (a + b)[1..] == a[1..] + b;
      RunAppend(Step(s, a[0]), a[1..], b);
    }
  }

  lemma RunSingle(s: ProcessingState, a: Action)
    ensures Run(s, [a]) == Step(s, a)
  {
    assert [a][1..] == [];
  }

  /** Starting stage k marks it processing and sets its progress; nothing else changes. */
  lemma BeginEffect(s: ProcessingState, k: nat)
    ensures Run(s, Begin(k)) == UpdateStepStatus(s, k, InProgress).(progress := StageProgress(k))
  {
    var b := Begin(k);
    assert b == [b[0]] + [b[1]];
    RunAppend(s, [b[0]], [b[1]]);
    RunSingle(s, b[0]);
    RunSingle(Step(s, b[0]), b[1]);
  }

  /** Completing stage k - 1 and starting stage k. */
  lemma HandOver(s: ProcessingState, k: nat, rest: seq<Action>)
    requires 0 < k
    ensures Run(s, [SetStatus(k - 1, Completed)] + Begin(k) + rest)
            == Run(UpdateStepStatus(UpdateStepStatus(s, k - 1, Completed), k, InProgress).(progress := StageProgress(k)), rest)
  {
    var done := UpdateStepStatus(s, k - 1, Completed);
    RunAppend(s, [SetStatus(k - 1, Completed)] + Begin(k), rest);
    RunAppend(s, [SetStatus(k - 1, Completed)], Begin(k));
    RunSingle(s, SetStatus(k - 1, Completed));
    BeginEffect(done, k);
  }

  /** The screen opens with the four stages pending, in order, no progress and no error. */
  lemma InitialState()
    ensures |Initial.steps| == StageCount
    ensures forall k :: 0 <= k < StageCount ==>
              Initial.steps[k].caption == StageLabels[k] && Initial.steps[k].status == Pending
    ensures Initial.progress == 0.0 && Initial.error == None && !Initial.isComplete && !Initial.hasRedirected
  {
  }

  /**
   * A run with no failure completes every stage in turn, ends at full
   * progress and marks the screen complete; the completion callback is
   * scheduled unless one already was. The error is left as it was.
   */
  lemma SuccessRun(s: ProcessingState, push: PushOutcome, cancelled: Option<nat>)
    requires |s.steps| == StageCount && FailedStage(push, cancelled).None?
    ensures var t := ProcessUser(s, push, cancelled);
            && |t.steps| == StageCount
            && (forall k :: 0 <= k < StageCount ==> t.steps[k] == s.steps[k].(status := Completed))
            && t.progress == 1.0 && t.isComplete && t.hasRedirected && t.error == s.error
            && t.redirects == s.redirects + (if s.hasRedirected then 0 else 1)
  {
    var s1 := UpdateStepStatus(s, 0, InProgress).(progress := StageProgress(0));
    var s2 := UpdateStepStatus(UpdateStepStatus(s1, 0, Completed), 1, InProgress).(progress := StageProgress(1));
    var s3 := UpdateStepStatus(UpdateStepStatus(s2, 1, Completed), 2, InProgress).(progress := StageProgress(2));
    var s4 := UpdateStepStatus(UpdateStepStatus(s3, 2, Completed), 3, InProgress).(progress := StageProgress(3));
    RunAppend(s, Begin(0), AfterCreate(push, cancelled));
    BeginEffect(s, 0);
    HandOver(s1, 1, AfterSync(cancelled));
    HandOver(s2, 2, AfterEnable(cancelled));
    HandOver(s3, 3, [SetStatus(3, Completed), Finish]);
    RunAppend(s4, [SetStatus(3, Completed)], [Finish]);
    RunSingle(s4, SetStatus(3, Completed));
    RunSingle(UpdateStepStatus(s4, 3, Completed), Finish);
    var u := UpdateStepStatus(s4, 3, Completed);
    assert ProcessUser(s, push, cancelled) == Step(u, Finish);
    FinishedRun(s, Step(u, Finish));
  }

  /** The state a run without failure ends in: every stage completed, then the finish. */
  lemma FinishedRun(s: ProcessingState, t: ProcessingState)
    requires |s.steps| == StageCount
    requires var s1 := UpdateStepStatus(s, 0, InProgress).(progress := StageProgress(0));
             var s2 := UpdateStepStatus(UpdateStepStatus(s1, 0, Completed), 1, InProgress).(progress := StageProgress(1));
             var s3 := UpdateStepStatus(UpdateStepStatus(s2, 1, Completed), 2, InProgress).(progress := StageProgress(2));
             var s4 := UpdateStepStatus(UpdateStepStatus(s3, 2, Completed), 3, InProgress).(progress := StageProgress(3));
             t == Step(UpdateStepStatus(s4, 3, Completed), Finish)
    ensures |t.steps| == StageCount
    ensures forall k :: 0 <= k < StageCount ==> t.steps[k] == s.steps[k].(status := Completed)
    ensures t.progress == 1.0 && t.isComplete && t.hasRedirected && t.error == s.error
    ensures t.redirects == s.redirects + (if s.hasRedirected then 0 else 1)
  {
  }

  /**
   * A run that fails at stage k leaves the stages before k completed, stage k
   * processing and the later ones untouched, with the progress stage k set,
   * and shows the failure's message. It neither completes the screen nor
   * schedules the completion callback.
   */
  lemma FailedRun(s: ProcessingState, push: PushOutcome, cancelled: Option<nat>)
    requires |s.steps| == StageCount && FailedStage(push, cancelled).Some?
    ensures var t := ProcessUser(s, push, cancelled);
            var k := FailedStage(push, cancelled).value;
            && |t.steps| == StageCount
            && (forall j :: 0 <= j < k ==> t.steps[j] == s.steps[j].(status := Completed))
            && t.steps[k] == s.steps[k].(status := InProgress)
            && (forall j :: k < j < StageCount ==> t.steps[j] == s.steps[j])
            && t.progress == StageProgress(k)
            && t.error == Some(ErrorMessage(Failure(push, cancelled).value))
            && t.isComplete == s.isComplete && t.hasRedirected == s.hasRedirected && t.redirects == s.redirects
  {
    var k := FailedStage(push, cancelled).value;
    var t := ProcessUser(s, push, cancelled);
    var s1 := UpdateStepStatus(s, 0, InProgress).(progress := StageProgress(0));
    var s2 := UpdateStepStatus(UpdateStepStatus(s1, 0, Completed), 1, InProgress).(progress := StageProgress(1));
    var s3 := UpdateStepStatus(UpdateStepStatus(s2, 1, Completed), 2, InProgress).(progress := StageProgress(2));
    var s4 := UpdateStepStatus(UpdateStepStatus(s3, 2, Completed), 3, InProgress).(progress := StageProgress(3));
    var m := ErrorMessage(Failure(push, cancelled).value);
    if k == 0 {
      FailAtCreate(s, push, cancelled);
      assert t == s1.(error := Some(m));
    } else if k == 1 {
      FailAtSync(s, push, cancelled);
      assert t == s2.(error := Some(m));
    } else if k == 2 {
      FailAtEnable(s, push, cancelled);
      assert t == s3.(error := Some(m));
    } else {
      FailAtReady(s, push, cancelled);
      assert t == s4.(error := Some(m));
    }
  }

  lemma FailAtCreate(s: ProcessingState, push: PushOutcome, cancelled: Option<nat>)
    requires cancelled == Some(0)
    ensures ProcessUser(s, push, cancelled)
            == UpdateStepStatus(s, 0, InProgress).(progress := StageProgress(0), error := Some(ErrorMessage(ForeignError)))
  {
    var s1 := UpdateStepStatus(s, 0, InProgress).(progress := StageProgress(0));
    RunAppend(s, Begin(0), FailWith(ForeignError));
    BeginEffect(s, 0);
    RunSingle(s1, Fail(ErrorMessage(ForeignError)));
  }

  lemma FailAtSync(s: ProcessingState, push: PushOutcome, cancelled: Option<nat>)
    requires cancelled != Some(0) && PushFailure(push).Some?
    ensures var s1 := UpdateStepStatus(s, 0, InProgress).(progress := StageProgress(0));
            ProcessUser(s, push, cancelled)
            == UpdateStepStatus(UpdateStepStatus(s1, 0, Completed), 1, InProgress)
                 .(progress := StageProgress(1), error := Some(ErrorMessage(PushFailure(push).value)))
  {
    var s1 := UpdateStepStatus(s, 0, InProgress).(progress := StageProgress(0));
    var s2 := UpdateStepStatus(UpdateStepStatus(s1, 0, Completed), 1, InProgress).(progress := StageProgress(1));
    RunAppend(s, Begin(0), AfterCreate(push, cancelled));
    BeginEffect(s, 0);
    HandOver(s1, 1, FailWith(PushFailure(push).value));
    RunSingle(s2, Fail(ErrorMessage(PushFailure(push).value)));
  }

  /** The run up to the point where stage 2 starts, when the first wait and the push succeed. */
  lemma ReachEnable(s: ProcessingState, push: PushOutcome, cancelled: Option<nat>)
    requires cancelled != Some(0) && PushFailure(push).None?
    ensures var s1 := UpdateStepStatus(s, 0, InProgress).(progress := StageProgress(0));
            var s2 := UpdateStepStatus(UpdateStepStatus(s1, 0, Completed), 1, InProgress).(progress := StageProgress(1));
            var s3 := UpdateStepStatus(UpdateStepStatus(s2, 1, Completed), 2, InProgress).(progress := StageProgress(2));
            ProcessUser(s, push, cancelled)
            == Run(s3, if cancelled == Some(1) then FailWith(ForeignError) else AfterEnable(cancelled))
  {
    var s1 := UpdateStepStatus(s, 0, InProgress).(progress := StageProgress(0));
    var s2 := UpdateStepStatus(UpdateStepStatus(s1, 0, Completed), 1, InProgress).(progress := StageProgress(1));
    RunAppend(s, Begin(0), AfterCreate(push, cancelled));
    BeginEffect(s, 0);
    HandOver(s1, 1, AfterSync(cancelled));
    HandOver(s2, 2, if cancelled == Some(1) then FailWith(ForeignError) else AfterEnable(cancelled));
  }

  lemma FailAtEnable(s: ProcessingState, push: PushOutcome, cancelled: Option<nat>)
    requires cancelled == Some(1) && PushFailure(push).None?
    ensures var s1 := UpdateStepStatus(s, 0, InProgress).(progress := StageProgress(0));
            var s2 := UpdateStepStatus(UpdateStepStatus(s1, 0, Completed), 1, InProgress).(progress := StageProgress(1));
            ProcessUser(s, push, cancelled)
            == UpdateStepStatus(UpdateStepStatus(s2, 1, Completed), 2, InProgress)
                 .(progress := StageProgress(2), error := Some(ErrorMessage(ForeignError)))
  {
    var s1 := UpdateStepStatus(s, 0, InProgress).(progress := StageProgress(0));
    var s2 := UpdateStepStatus(UpdateStepStatus(s1, 0, Completed), 1, InProgress).(progress := StageProgress(1));
    var s3 := UpdateStepStatus(UpdateStepStatus(s2, 1, Completed), 2, InProgress).(progress := StageProgress(2));
    ReachEnable(s, push, cancelled);
    RunSingle(s3, Fail(ErrorMessage(ForeignError)));
  }

  lemma FailAtReady(s: ProcessingState, push: PushOutcome, cancelled: Option<nat>)
    requires cancelled == Some(2) && PushFailure(push).None?
    ensures var s1 := UpdateStepStatus(s, 0, InProgress).(progress := StageProgress(0));
            var s2 := UpdateStepStatus(UpdateStepStatus(s1, 0, Completed), 1, InProgress).(progress := StageProgress(1));
            var s3 := UpdateStepStatus(UpdateStepStatus(s2, 1, Completed), 2, InProgress).(progress := StageProgress(2));
            ProcessUser(s, push, cancelled)
            == UpdateStepStatus(UpdateStepStatus(s3, 2, Completed), 3, InProgress)
                 .(progress := StageProgress(3), error := Some(ErrorMessage(ForeignError)))
  {
    var s1 := UpdateStepStatus(s, 0, InProgress).(progress := StageProgress(0));
    var s2 := UpdateStepStatus(UpdateStepStatus(s1, 0, Completed), 1, InProgress).(progress := StageProgress(1));
    var s3 := UpdateStepStatus(UpdateStepStatus(s2, 1, Completed), 2, InProgress).(progress := StageProgress(2));
    var s4 := UpdateStepStatus(UpdateStepStatus(s3, 2, Completed), 3, InProgress).(progress := StageProgress(3));
    ReachEnable(s, push, cancelled);
    HandOver(s3, 3, FailWith(ForeignError));
    RunSingle(s4, Fail(ErrorMessage(ForeignError)));
  }

  /**
   * An envelope reporting failure, after the first wait: stage 0 completed,
   * stage 1 still processing, the last two stages as they were, progress
   * one half, and the envelope's message (or "Unknown error") shown as a
   * network error.
   */
  lemma UnsuccessfulPush(s: ProcessingState, message: Option<string>, cancelled: Option<nat>)
    requires |s.steps| == StageCount && cancelled != Some(0)
    ensures var t := ProcessUser(s, Responded(false, message), cancelled);
            && t.steps == [s.steps[0].(status := Completed), s.steps[1].(status := InProgress), s.steps[2], s.steps[3]]
            && t.progress == 0.5
            && t.error == Some("Network error: " + message.GetOr("Unknown error"))
            && t.isComplete == s.isComplete
  {
    var t := ProcessUser(s, Responded(false, message), cancelled);
    FailedRun(s, Responded(false, message), cancelled);
    assert t.steps == [s.steps[0].(status := Completed), s.steps[1].(status := InProgress), s.steps[2], s.steps[3]];
  }

  /** One attempt at the set-up: the push's outcome and which wait, if any, is cancelled. */
  datatype Attempt = Attempt(push: PushOutcome, cancelled: Option<nat>)

  /**
   * The screen's life: the run started when it appears, then one retry per
   * further attempt. Retry is offered only on the error screen, so an
   * attempt made while no error shows changes nothing.
   */
  function Session(attempts: seq<Attempt>): ProcessingState
    requires |attempts| > 0
    decreases |attempts|
  {
    var last := attempts[|attempts| - 1];
    if |attempts| == 1 then ProcessUser(Initial, last.push, last.cancelled)
    else
      var before := Session(attempts[..|attempts| - 1]);
      if before.error.Some? then RestartProcess(before, last.push, last.cancelled) else before
  }

  /** The outcome of one run from a freshly reset screen: either an error and no callback, or completion and one callback. */
  lemma FreshRun(s: ProcessingState, push: PushOutcome, cancelled: Option<nat>)
    requires |s.steps| == StageCount && s.error.None? && !s.hasRedirected && !s.isComplete
    ensures var t := ProcessUser(s, push, cancelled);
            && (t.error.Some? <==> FailedStage(push, cancelled).Some?)
            && (t.error.Some? ==> t.redirects == s.redirects && !t.isComplete)
            && (t.error.None? ==> t.redirects == s.redirects + 1 && t.isComplete)
  {
    if FailedStage(push, cancelled).Some? {
      FailedRun(s, push, cancelled);
    } else {
      SuccessRun(s, push, cancelled);
    }
  }

  /**
   * However many retries follow, the completion callback is scheduled at
   * most once over the screen's life, and never while an error shows.
   */
  lemma {:induction false} SessionRedirectsAtMostOnce(attempts: seq<Attempt>)
    requires |attempts| > 0
    ensures Session(attempts).redirects <= 1
    ensures Session(attempts).error.Some? ==> Session(attempts).redirects == 0
    ensures Session(attempts).redirects == 1 <==> Session(attempts).isComplete
    decreases |attempts|
  {
    var last := attempts[|attempts| - 1];
    if |attempts| == 1 {
      InitialState();
      FreshRun(Initial, last.push, last.cancelled);
    } else {
      var before := Session(attempts[..|attempts| - 1]);
      SessionRedirectsAtMostOnce(attempts[..|attempts| - 1]);
      if before.error.Some? {
        FreshRun(Reset(before), last.push, last.cancelled);
      }
    }
  }

  /** A retry does not depend on anything the failed run left behind, apart from the callback count. */
  lemma RestartForgetsPast(s1: ProcessingState, s2: ProcessingState, push: PushOutcome, cancelled: Option<nat>)
    ensures RestartProcess(s1, push, cancelled).(redirects := 0) == RestartProcess(s2, push, cancelled).(redirects := 0)
  {
    assert Reset(s1) == Reset(s2).(redirects := s1.redirects);
    RunCountsFrom(Reset(s2), s1.redirects, Script(push, cancelled));
  }

  /** A run adds to the callback count and otherwise ignores it. */
  lemma {:induction false} RunCountsFrom(s: ProcessingState, n: nat, a: seq<Action>)
    ensures Run(s, a).redirects >= s.redirects
    ensures Run(s.(redirects := n), a) == Run(s, a).(redirects := n + Run(s, a).redirects - s.redirects)
    decreases |a|
  {
    if |a| > 0 {
      var t := Step(s, a[0]);
      assert Step(s.(redirects := n), a[0]) == t.(redirects := n + t.redirects - s.redirects);
      RunCountsFrom(t, n + t.redirects - s.redirects, a[1..]);
    }
  }

  /** Each network failure shows its own description after the "Network error: " prefix. */
  lemma NetworkMessagesDistinct(e: PushError, f: PushError)
    requires e != f
    ensures e.NetworkError? ==> ErrorMessage(e)[..15] == "Network error: " && ErrorMessage(e)[15..] == e.description
    ensures e.NetworkError? && f.NetworkError? ==> ErrorMessage(e) != ErrorMessage(f)
  {
    if e.NetworkError? && f.NetworkError? {
      assert ErrorMessage(e)[15..] == e.description;
      assert ErrorMessage(f)[15..] == f.description;
    }
  }
}

=== FILE: Steps.dfy ===
/**
 * The fixed onboarding catalog: 45 step records walked in order by the
 * onboarding flow, and the three lookups the app performs on it.
 * Prompt, helper and option wording is not modelled; only the number of
 * options of a choice step is kept.
 */
module Steps {
  import opened Wrappers

  datatype Phase =
    | WarningInitiation
    | ExcuseDiscovery
    | ExcuseConfrontation
    | PatternAwareness
    | PatternAnalysis
    | IdentityRebuild
    | CommitmentSystem
    | ExternalAnchors
    | FinalOath

  datatype StepType =
    | Explanation
    | Voice
    | Text
    | Choice
    | DualSliders
    | TimeWindowPicker
    | LongPressActivate

  datatype SliderRange = SliderRange(min: int, max: int)

  /**
   * One catalog entry. `dbField` lists the storage columns the answer fills,
   * `optionCount` is the length of a choice step's option list, and
   * `minDuration` is the shortest voice recording, in seconds, a step accepts.
   */
  datatype StepDefinition = StepDefinition(
    id: int,
    phase: Phase,
    kind: StepType,
    dbField: Option<seq<string>>,
    optionCount: Option<nat>,
    sliders: Option<seq<SliderRange>>,
    minDuration: Option<int>)

  /** Steps 1-5. */
  const WarningInitiationSteps: seq<StepDefinition> :=
    [
      StepDefinition(1, WarningInitiation, Explanation, None, None, None, None),
      StepDefinition(2, WarningInitiation, Voice, Some(["voice_commitment"]), None, None, Some(10)),
      StepDefinition(3, WarningInitiation, Text, Some(["identity_name"]), None, None, None),
      StepDefinition(4, WarningInitiation, Explanation, None, None, None, None),
      StepDefinition(5, WarningInitiation, Voice, Some(["biggest_lie"]), None, None, Some(7))
    ]

  /** Steps 6-11. */
  const ExcuseDiscoverySteps: seq<StepDefinition> :=
    [
      StepDefinition(6, ExcuseDiscovery, Choice, Some(["favorite_excuse"]), Some(6), None, None),
      StepDefinition(7, ExcuseDiscovery, Voice, Some(["last_failure"]), None, None, Some(10)),
      StepDefinition(8, ExcuseDiscovery, Explanation, None, None, None, None),
      StepDefinition(9, ExcuseDiscovery, Text, Some(["weakness_window"]), None, None, None),
      StepDefinition(10, ExcuseDiscovery, Voice, Some(["procrastination_now"]), None, None, Some(8)),
      StepDefinition(11, ExcuseDiscovery, DualSliders, Some(["motivation_fear_intensity", "motivation_desire_intensity"]), None, Some([SliderRange(1, 10), SliderRange(1, 10)]), None)
    ]

  /** Steps 12-16. */
  const ExcuseConfrontationSteps: seq<StepDefinition> :=
    [
      StepDefinition(12, ExcuseConfrontation, Choice, Some(["time_waster"]), Some(6), None, None),
      StepDefinition(13, ExcuseConfrontation, Explanation, None, None, None, None),
      StepDefinition(14, ExcuseConfrontation, Voice, Some(["fear_version"]), None, None, Some(8)),
      StepDefinition(15, ExcuseConfrontation, Choice, Some(["disappointment_check"]), Some(5), None, None),
      StepDefinition(16, ExcuseConfrontation, Voice, Some(["morning_failure"]), None, None, Some(6))
    ]

  /** Steps 17-21. */
  const PatternAwarenessSteps: seq<StepDefinition> :=
    [
      StepDefinition(17, PatternAwareness, Explanation, None, None, None, None),
      StepDefinition(18, PatternAwareness, Text, Some(["quit_counter"]), None, None, None),
      StepDefinition(19, PatternAwareness, Choice, Some(["daily_non_negotiable"]), Some(6), None, None),
      StepDefinition(20, PatternAwareness, Text, Some(["commitment_time"]), None, None, None),
      StepDefinition(21, PatternAwareness, Explanation, None, None, None, None)
    ]

  /** Steps 22-26. */
  const PatternAnalysisSteps: seq<StepDefinition> :=
    [
      StepDefinition(22, PatternAnalysis, Voice, Some(["sabotage_pattern"]), None, None, Some(6)),
      StepDefinition(23, PatternAnalysis, Voice, Some(["excuse_sophistication"]), None, None, Some(7)),
      StepDefinition(24, PatternAnalysis, Choice, Some(["accountability_style"]), Some(6), None, None),
      StepDefinition(25, PatternAnalysis, Explanation, None, None, None, None),
      StepDefinition(26, PatternAnalysis, Voice, Some(["success_memory"]), None, None, Some(7))
    ]

  /** Steps 27-31. */
  const IdentityRebuildSteps: seq<StepDefinition> :=
    [
      StepDefinition(27, IdentityRebuild, Voice, Some(["identity_goal"]), None, None, Some(7)),
      StepDefinition(28, IdentityRebuild, Explanation, None, None, None, None),
      StepDefinition(29, IdentityRebuild, Text, Some(["success_metric"]), None, None, None),
      StepDefinition(30, IdentityRebuild, Text, Some(["transformation_date"]), None, None, None),
      StepDefinition(31, IdentityRebuild, Voice, Some(["biggest_enemy"]), None, None, Some(6))
    ]

  /** Steps 32-36. */
  const CommitmentSystemSteps: seq<StepDefinition> :=
    [
      StepDefinition(32, CommitmentSystem, Explanation, None, None, None, None),
      StepDefinition(33, CommitmentSystem, Text, Some(["streak_target"]), None, None, None),
      StepDefinition(34, CommitmentSystem, Choice, Some(["sacrifice_list"]), Some(6), None, None),
      StepDefinition(35, CommitmentSystem, Voice, Some(["war_cry"]), None, None, Some(8)),
      StepDefinition(36, CommitmentSystem, Explanation, None, None, None, None)
    ]

  /** Steps 37-41. */
  const ExternalAnchorsSteps: seq<StepDefinition> :=
    [
      StepDefinition(37, ExternalAnchors, TimeWindowPicker, Some(["evening_call_time"]), None, None, None),
      StepDefinition(38, ExternalAnchors, Text, Some(["external_judge"]), None, None, None),
      StepDefinition(39, ExternalAnchors, Choice, Some(["failure_threshold"]), Some(3), None, None),
      StepDefinition(40, ExternalAnchors, Explanation, None, None, None, None),
      StepDefinition(41, ExternalAnchors, Voice, Some(["oath_recording"]), None, None, Some(6))
    ]

  /** Steps 42-45. */
  const FinalOathSteps: seq<StepDefinition> :=
    [
      StepDefinition(42, FinalOath, Voice, Some(["identity_declaration"]), None, None, Some(6)),
      StepDefinition(43, FinalOath, LongPressActivate, Some(["contract_seal"]), None, None, Some(7)),
      StepDefinition(44, FinalOath, Voice, Some(["consequence_acceptance"]), None, None, Some(6)),
      StepDefinition(45, FinalOath, Explanation, None, None, None, None)
    ]

  /** The table of steps, in presentation order. */
  const Catalog: seq<StepDefinition> :=
    WarningInitiationSteps
    + ExcuseDiscoverySteps
    + ExcuseConfrontationSteps
    + PatternAwarenessSteps
    + PatternAnalysisSteps
    + IdentityRebuildSteps
    + CommitmentSystemSteps
    + ExternalAnchorsSteps
    + FinalOathSteps

  // ---------------------------------------------------------------------------
  // Lookups
  // ---------------------------------------------------------------------------

  /** Index of the first entry with the given id, or `|steps|` when none has it. */
  function FirstIndexWithId(steps: seq<StepDefinition>, id: int): (k: nat)
    ensures k <= |steps|
    ensures forall j :: 0 <= j < k ==> steps[j].id != id
    ensures k < |steps| ==> steps[k].id == id
  {
    if |steps| == 0 then 0
    else if steps[0].id == id then 0
    else 1 + FirstIndexWithId(steps[1..], id)
  }

  /** `step(withId:)`: the first entry carrying `id`, if any. */
  function StepWithId(steps: seq<StepDefinition>, id: int): (r: Option<StepDefinition>)
    ensures r.None? <==> forall j :: 0 <= j < |steps| ==> steps[j].id != id
    ensures r.Some? ==> exists k :: 0 <= k < |steps| && steps[k] == r.value && r.value.id == id &&
                          forall j :: 0 <= j < k ==> steps[j].id != id
  {
    var k := FirstIndexWithId(steps, id);
    if k < |steps| then Some(steps[k]) else None
  }

  /** `steps(inPhase:)`: the entries of one phase, keeping table order. */
  function StepsInPhase(steps: seq<StepDefinition>, p: Phase): (r: seq<StepDefinition>)
    ensures |r| <= |steps|
    ensures forall i :: 0 <= i < |r| ==> r[i].phase == p && r[i] in steps
    ensures forall i :: 0 <= i < |steps| && steps[i].phase == p ==> steps[i] in r
  {
    if |steps| == 0 then []
    else (if steps[0].phase == p then [steps[0]] else []) + StepsInPhase(steps[1..], p)
  }

  /** `totalSteps`: the number of entries in the catalog. */
  function TotalSteps(): (n: nat)
    ensures n == 45
  {
    |Catalog|
  }

  // ---------------------------------------------------------------------------
  // Shape of the table
  // ---------------------------------------------------------------------------

  /** The table has 45 entries and entry i carries id i + 1. */
  lemma CatalogIds()
    ensures |Catalog| == 45
    ensures forall i :: 0 <= i < |Catalog| ==> Catalog[i].id == i + 1
  {
    CatalogShape();
  }

  /** `step(withId:)` finds entry id - 1 for every id in 1..45 and nothing otherwise. */
  lemma StepWithIdInCatalog(id: int)
    ensures 1 <= id <= 45 ==> StepWithId(Catalog, id) == Some(Catalog[id - 1])
    ensures !(1 <= id <= 45) ==> StepWithId(Catalog, id) == None
  {
    CatalogIds();
    var k := FirstIndexWithId(Catalog, id);
    if 1 <= id <= 45 {
      assert Catalog[id - 1].id == id;
      assert k == id - 1;
    }
  }

  /** The first and last step id of each phase. */
  function PhaseBounds(p: Phase): (r: (int, int))
    ensures 1 <= r.0 <= r.1 <= 45
  {
    match p
    case WarningInitiation => (1, 5)
    case ExcuseDiscovery => (6, 11)
    case ExcuseConfrontation => (12, 16)
    case PatternAwareness => (17, 21)
    case PatternAnalysis => (22, 26)
    case IdentityRebuild => (27, 31)
    case CommitmentSystem => (32, 36)
    case ExternalAnchors => (37, 41)
    case FinalOath => (42, 45)
  }

  /** Every entry lies inside the id range of its own phase. */
  lemma CatalogPhases()
    ensures |Catalog| == 45
    ensures forall i :: 0 <= i < 45 ==>
              PhaseBounds(Catalog[i].phase).0 <= i + 1 <= PhaseBounds(Catalog[i].phase).1
  {
    CatalogShape();
    forall i | 0 <= i < 45
      ensures PhaseBounds(Catalog[i].phase).0 <= i + 1 <= PhaseBounds(Catalog[i].phase).1
    {
      PhaseOfIdInBounds(i + 1, Catalog[i].phase);
    }
  }

  /** Filtering keeps order and multiplicity: the filter of two tables joined is the two filters joined. */
  lemma {:induction false} StepsInPhaseAppend(a: seq<StepDefinition>, b: seq<StepDefinition>, p: Phase)
    ensures StepsInPhase(a + b, p) == StepsInPhase(a, p) + StepsInPhase(b, p)
    decreases |a|
  {
    if |a| > 0 {
      assert (a + b)[1..] == a[1..] + b;
      StepsInPhaseAppend(a[1..], b, p);
    } else {
      assert a + b == b;
    }
  }

  /**
   * Filtering a table by phase returns the slice `s[lo..hi]` when exactly the
   * entries in that slice have the phase.
   */
  lemma {:induction false} StepsInPhaseOfBlock(s: seq<StepDefinition>, p: Phase, lo: nat, hi: nat)
    requires lo <= hi <= |s|
    requires forall i :: 0 <= i < |s| ==> (s[i].phase == p <==> lo <= i < hi)
    ensures StepsInPhase(s, p) == s[lo..hi]
    decreases |s|
  {
    if |s| > 0 {
      var t := s[1..];
      var lo', hi' := if lo > 0 then lo - 1 else 0, if hi > 0 then hi - 1 else 0;
      forall i | 0 <= i < |t|
        ensures t[i].phase == p <==> lo' <= i < hi'
      {
        assert t[i] == s[i + 1];
      }
      StepsInPhaseOfBlock(t, p, lo', hi');
      assert StepsInPhase(s, p) == (if s[0].phase == p then [s[0]] else []) + StepsInPhase(t, p);
      if lo > 0 {
        SliceOfTail(s, lo, hi);
      } else if hi > 0 {
        SliceOfCons(s, hi);
      }
    }
  }

  lemma SliceOfTail<T>(s: seq<T>, lo: nat, hi: nat)
    requires 1 <= lo <= hi <= |s|
    ensures s[1..][lo - 1..hi - 1] == s[lo..hi]
  {
  }

  lemma SliceOfCons<T>(s: seq<T>, hi: nat)
    requires 1 <= hi <= |s|
    ensures [s[0]] + s[1..][0..hi - 1] == s[0..hi]
  {
  }

  /**
   * Phases occupy contiguous id ranges in a fixed order, so `steps(inPhase:)`
   * returns exactly that run of the table, in table order.
   */
  lemma StepsInPhaseIsContiguous(p: Phase)
    ensures StepsInPhase(Catalog, p) == Catalog[PhaseBounds(p).0 - 1 .. PhaseBounds(p).1]
    ensures |StepsInPhase(Catalog, p)| == PhaseBounds(p).1 - PhaseBounds(p).0 + 1
  {
    var (first, last) := PhaseBounds(p);
    CatalogShape();
    forall i | 0 <= i < |Catalog|
      ensures Catalog[i].phase == p <==> first - 1 <= i < last
    {
      assert EntryShape(Catalog[i], i);
      PhaseOfIdInBounds(i + 1, p);
    }
    StepsInPhaseOfBlock(Catalog, p, first - 1, last);
  }

  /** The phase whose id range holds step id `n`. */
  function PhaseOfId(n: int): Phase
  {
    if n <= 5 then WarningInitiation
    else if n <= 11 then ExcuseDiscovery
    else if n <= 16 then ExcuseConfrontation
    else if n <= 21 then PatternAwareness
    else if n <= 26 then PatternAnalysis
    else if n <= 31 then IdentityRebuild
    else if n <= 36 then CommitmentSystem
    else if n <= 41 then ExternalAnchors
    else FinalOath
  }

  /** The id ranges of the phases do not overlap and cover 1..45. */
  lemma PhaseOfIdInBounds(n: int, p: Phase)
    requires 1 <= n <= 45
    ensures PhaseOfId(n) == p <==> PhaseBounds(p).0 <= n <= PhaseBounds(p).1
  {
  }

  /** The storage columns a step fills; none for a step without `dbField`. */
  function Fields(step: StepDefinition): seq<string>
  {
    step.dbField.GetOr([])
  }

  /**
   * The storage shape of one entry: explanation steps fill no column, the
   * dual-slider step fills two and carries two sliders ranging 1..10, and every
   * other step fills exactly one column and has no sliders.
   */
  predicate FieldShape(x: StepDefinition)
  {
    && (x.kind == Explanation <==> x.dbField.None?)
    && (x.kind == DualSliders <==> x.sliders.Some?)
    && (x.kind == DualSliders ==>
          |Fields(x)| == 2 && x.sliders == Some([SliderRange(1, 10), SliderRange(1, 10)]))
    && (x.kind != Explanation && x.kind != DualSliders ==> |Fields(x)| == 1)
  }

  /** Only choice steps carry options, each a non-empty list; voice steps demand 6..10 seconds. */
  predicate InputShape(x: StepDefinition)
  {
    && (x.optionCount.Some? <==> x.kind == Choice)
    && (x.optionCount.Some? ==> x.optionCount.value > 0)
    && (x.kind == Voice ==> x.minDuration.Some? && 6 <= x.minDuration.value <= 10)
  }

  /** Every entry has the storage shape, and step 11 is the only dual-slider step. */
  lemma CatalogFields()
    ensures |Catalog| == 45
    ensures forall i :: 0 <= i < 45 ==> FieldShape(Catalog[i])
    ensures forall i :: 0 <= i < 45 ==> (Catalog[i].kind == DualSliders <==> Catalog[i].id == 11)
  {
    CatalogShape();
  }

  /** Every entry has the input shape. */
  lemma CatalogInputs()
    ensures |Catalog| == 45
    ensures forall i :: 0 <= i < 45 ==> InputShape(Catalog[i])
  {
    CatalogShape();
  }

  /** Everything the table promises of the entry at 0-based position `pos`. */
  predicate EntryShape(x: StepDefinition, pos: int)
  {
    && x.id == pos + 1
    && x.phase == PhaseOfId(x.id)
    && FieldShape(x)
    && InputShape(x)
    && (x.kind == DualSliders <==> x.id == 11)
  }

  /** Every entry of `s` has the shape for its position, counting from `offset`. */
  predicate BlockShape(s: seq<StepDefinition>, offset: int)
  {
    forall j :: 0 <= j < |s| ==> EntryShape(s[j], offset + j)
  }

  lemma BlockShapeAppend(a: seq<StepDefinition>, b: seq<StepDefinition>, offset: int)
    requires BlockShape(a, offset) && BlockShape(b, offset + |a|)
    ensures BlockShape(a + b, offset)
  {
    forall j | 0 <= j < |a + b|
      ensures EntryShape((a + b)[j], offset + j)
    {
      if j < |a| {
        assert (a + b)[j] == a[j];
      } else {
        assert (a + b)[j] == b[j - |a|];
      }
    }
  }

  lemma WarningInitiationShape() ensures BlockShape(WarningInitiationSteps, 0) {}
  lemma ExcuseDiscoveryShape() ensures BlockShape(ExcuseDiscoverySteps, 5) {}
  lemma ExcuseConfrontationShape() ensures BlockShape(ExcuseConfrontationSteps, 11) {}
  lemma PatternAwarenessShape() ensures BlockShape(PatternAwarenessSteps, 16) {}
  lemma PatternAnalysisShape() ensures BlockShape(PatternAnalysisSteps, 21) {}
  lemma IdentityRebuildShape() ensures BlockShape(IdentityRebuildSteps, 26) {}
  lemma CommitmentSystemShape() ensures BlockShape(CommitmentSystemSteps, 31) {}
  lemma ExternalAnchorsShape() ensures BlockShape(ExternalAnchorsSteps, 36) {}
  lemma FinalOathShape() ensures BlockShape(FinalOathSteps, 41) {}

  /** The whole table has the shape, block by block. */
  lemma CatalogShape()
    ensures |Catalog| == 45 && BlockShape(Catalog, 0)
  {
    WarningInitiationShape();
    ExcuseDiscoveryShape();
    ExcuseConfrontationShape();
    PatternAwarenessShape();
    PatternAnalysisShape();
    IdentityRebuildShape();
    CommitmentSystemShape();
    ExternalAnchorsShape();
    FinalOathShape();
    var s := WarningInitiationSteps;
    BlockShapeAppend(s, ExcuseDiscoverySteps, 0);
    s := s + ExcuseDiscoverySteps;
    BlockShapeAppend(s, ExcuseConfrontationSteps, 0);
    s := s + ExcuseConfrontationSteps;
    BlockShapeAppend(s, PatternAwarenessSteps, 0);
    s := s + PatternAwarenessSteps;
    BlockShapeAppend(s, PatternAnalysisSteps, 0);
    s := s + PatternAnalysisSteps;
    BlockShapeAppend(s, IdentityRebuildSteps, 0);
    s := s + IdentityRebuildSteps;
    BlockShapeAppend(s, CommitmentSystemSteps, 0);
    s := s + CommitmentSystemSteps;
    BlockShapeAppend(s, ExternalAnchorsSteps, 0);
    s := s + ExternalAnchorsSteps;
    BlockShapeAppend(s, FinalOathSteps, 0);
    s := s + FinalOathSteps;
    assert s == Catalog;
  }

  /** All storage columns named by a table, in table order. */
  function AllFields(steps: seq<StepDefinition>): (fs: seq<string>)
    ensures forall i, f :: 0 <= i < |steps| && f in Fields(steps[i]) ==> f in fs
  {
    if |steps| == 0 then [] else Fields(steps[0]) + AllFields(steps[1..])
  }

  lemma {:induction false} AllFieldsAppend(a: seq<StepDefinition>, b: seq<StepDefinition>)
    ensures AllFields(a + b) == AllFields(a) + AllFields(b)
    decreases |a|
  {
    if |a| == 0 {
      assert a + b == b;
    } else {
      assert (a + b)[1..] == a[1..] + b;
      AllFieldsAppend(a[1..], b);
    }
  }

  /** The storage columns each phase fills, in step order. */
  const WarningInitiationColumns: seq<string> := ["voice_commitment", "identity_name", "biggest_lie"]
  const ExcuseDiscoveryColumns: seq<string> := ["favorite_excuse", "last_failure", "weakness_window", "procrastination_now", "motivation_fear_intensity", "motivation_desire_intensity"]
  const ExcuseConfrontationColumns: seq<string> := ["time_waster", "fear_version", "disappointment_check", "morning_failure"]
  const PatternAwarenessColumns: seq<string> := ["quit_counter", "daily_non_negotiable", "commitment_time"]
  const PatternAnalysisColumns: seq<string> := ["sabotage_pattern", "excuse_sophistication", "accountability_style", "success_memory"]
  const IdentityRebuildColumns: seq<string> := ["identity_goal", "success_metric", "transformation_date", "biggest_enemy"]
  const CommitmentSystemColumns: seq<string> := ["streak_target", "sacrifice_list", "war_cry"]
  const ExternalAnchorsColumns: seq<string> := ["evening_call_time", "external_judge", "failure_threshold", "oath_recording"]
  const FinalOathColumns: seq<string> := ["identity_declaration", "contract_seal", "consequence_acceptance"]

  /** Every storage column the questionnaire fills, in step order. */
  const Columns: seq<string> :=
    WarningInitiationColumns
    + ExcuseDiscoveryColumns
    + ExcuseConfrontationColumns
    + PatternAwarenessColumns
    + PatternAnalysisColumns
    + IdentityRebuildColumns
    + CommitmentSystemColumns
    + ExternalAnchorsColumns
    + FinalOathColumns

  /** No storage column is named twice anywhere in the table. */
  lemma ColumnsDistinct()
    ensures |Columns| == 34
    ensures forall i, j :: 0 <= i < j < |Columns| ==> Columns[i] != Columns[j]
  {
    ColumnsDistinct0();
    ColumnsDistinct5();
    ColumnsDistinct11();
    ColumnsDistinct19();
  }

  // The columns in one range of positions differ from every later column.
  lemma ColumnsDistinct0() ensures forall i, j :: 0 <= i < 5 && i < j < |Columns| ==> Columns[i] != Columns[j] {}
  lemma ColumnsDistinct5() ensures forall i, j :: 5 <= i < 11 && i < j < |Columns| ==> Columns[i] != Columns[j] {}
  lemma ColumnsDistinct11() ensures forall i, j :: 11 <= i < 19 && i < j < |Columns| ==> Columns[i] != Columns[j] {}
  lemma ColumnsDistinct19() ensures forall i, j :: 19 <= i < 34 && i < j < |Columns| ==> Columns[i] != Columns[j] {}

  // Each phase block fills exactly its listed columns.
  lemma WarningInitiationColumnsFilled()
    ensures AllFields(WarningInitiationSteps) == WarningInitiationColumns
  {
  }

  lemma ExcuseDiscoveryColumnsFilled()
    ensures AllFields(ExcuseDiscoverySteps) == ExcuseDiscoveryColumns
  {
  }

  lemma ExcuseConfrontationColumnsFilled()
    ensures AllFields(ExcuseConfrontationSteps) == ExcuseConfrontationColumns
  {
  }

  lemma PatternAwarenessColumnsFilled()
    ensures AllFields(PatternAwarenessSteps) == PatternAwarenessColumns
  {
  }

  lemma PatternAnalysisColumnsFilled()
    ensures AllFields(PatternAnalysisSteps) == PatternAnalysisColumns
  {
  }

  lemma IdentityRebuildColumnsFilled()
    ensures AllFields(IdentityRebuildSteps) == IdentityRebuildColumns
  {
  }

  lemma CommitmentSystemColumnsFilled()
    ensures AllFields(CommitmentSystemSteps) == CommitmentSystemColumns
  {
  }

  lemma ExternalAnchorsColumnsFilled()
    ensures AllFields(ExternalAnchorsSteps) == ExternalAnchorsColumns
  {
  }

  lemma FinalOathColumnsFilled()
    ensures AllFields(FinalOathSteps) == FinalOathColumns
  {
  }

  /** The table fills exactly the listed columns, so no column is filled by two steps. */
  lemma CatalogColumns()
    ensures AllFields(Catalog) == Columns
  {
    WarningInitiationColumnsFilled();
    ExcuseDiscoveryColumnsFilled();
    ExcuseConfrontationColumnsFilled();
    PatternAwarenessColumnsFilled();
    PatternAnalysisColumnsFilled();
    IdentityRebuildColumnsFilled();
    CommitmentSystemColumnsFilled();
    ExternalAnchorsColumnsFilled();
    FinalOathColumnsFilled();
    AllFieldsAppend(WarningInitiationSteps, ExcuseDiscoverySteps);
    AllFieldsAppend(WarningInitiationSteps + ExcuseDiscoverySteps, ExcuseConfrontationSteps);
    AllFieldsAppend(WarningInitiationSteps + ExcuseDiscoverySteps + ExcuseConfrontationSteps, PatternAwarenessSteps);
    AllFieldsAppend(WarningInitiationSteps + ExcuseDiscoverySteps + ExcuseConfrontationSteps + PatternAwarenessSteps, PatternAnalysisSteps);
    AllFieldsAppend(WarningInitiationSteps + ExcuseDiscoverySteps + ExcuseConfrontationSteps + PatternAwarenessSteps + PatternAnalysisSteps, IdentityRebuildSteps);
    AllFieldsAppend(WarningInitiationSteps + ExcuseDiscoverySteps + ExcuseConfrontationSteps + PatternAwarenessSteps + PatternAnalysisSteps + IdentityRebuildSteps, CommitmentSystemSteps);
    AllFieldsAppend(WarningInitiationSteps + ExcuseDiscoverySteps + ExcuseConfrontationSteps + PatternAwarenessSteps + PatternAnalysisSteps + IdentityRebuildSteps + CommitmentSystemSteps, ExternalAnchorsSteps);
    AllFieldsAppend(WarningInitiationSteps + ExcuseDiscoverySteps + ExcuseConfrontationSteps + PatternAwarenessSteps + PatternAnalysisSteps + IdentityRebuildSteps + CommitmentSystemSteps + ExternalAnchorsSteps, FinalOathSteps);
  }

  /** No two steps of the table write the same storage column. */
  lemma CatalogFieldsDistinct()
    ensures forall i, j :: 0 <= i < j < |AllFields(Catalog)| ==>
              AllFields(Catalog)[i] != AllFields(Catalog)[j]
  {
    CatalogColumns();
    ColumnsDistinct();
  }
}

=== FILE: Strings.dfy ===
/**
 * The few pieces of Swift's standard library the app's formatting code relies on:
 * integer division that truncates toward zero, `String(format: "%d")` and
 * `String(format: "%02d")`, `Int(String)` parsing, and `split(separator:)`, which
 * drops empty pieces.
 */
module Strings {
  import opened Wrappers

  // ---------------------------------------------------------------------------
  // Swift integer division (truncating toward zero) by a positive divisor
  // ---------------------------------------------------------------------------

  /** Swift's `a / b` for a positive divisor: the quotient rounds toward zero. */
  function TDiv(a: int, b: int): (q: int)
    requires b > 0
    ensures a >= 0 ==> q * b <= a < (q + 1) * b
    ensures a < 0 ==> (q - 1) * b < a <= q * b
  {
    if a >= 0 then a / b else -((-a) / b)
  }

  /** Swift's `a % b` for a positive divisor: the remainder takes the sign of `a`. */
  function TRem(a: int, b: int): (r: int)
    requires b > 0
    ensures TDiv(a, b) * b + r == a
    ensures a >= 0 ==> 0 <= r < b
    ensures a < 0 ==> -b < r <= 0
  {
    a - TDiv(a, b) * b
  }

  /** `Int(x)` for a floating-point `x`: the integer part, truncated toward zero. */
  function TruncToInt(x: real): (n: int)
    ensures x >= 0.0 ==> 0 <= n && n as real <= x < n as real + 1.0
    ensures x < 0.0 ==> n <= 0 && n as real - 1.0 < x <= n as real
  {
    if x >= 0.0 then x.Floor else -((-x).Floor)
  }

  /** For a non-negative dividend Swift's division agrees with Dafny's. */
  lemma TruncationAgreesOnNonNegatives(a: int, b: int)
    requires a >= 0 && b > 0
    ensures TDiv(a, b) == a / b && TRem(a, b) == a % b
  {
  }

  // ---------------------------------------------------------------------------
  // Decimal digits
  // ---------------------------------------------------------------------------

  predicate IsDigit(c: char)
  {
    '0' <= c <= '9'
  }

  predicate AllDigits(s: string)
  {
    forall i :: 0 <= i < |s| ==> IsDigit(s[i])
  }

  function DigitChar(d: int): (c: char)
    requires 0 <= d < 10
    ensures IsDigit(c)
  {
    (48 + d) as char
  }

  function DigitValue(c: char): (d: int)
    requires IsDigit(c)
    ensures 0 <= d < 10
  {
    c as int - 48
  }

  lemma DigitRoundTrip(d: int)
    requires 0 <= d < 10
    ensures DigitValue(DigitChar(d)) == d
  {
  }

  /** The value of a string of decimal digits, most significant first. */
  function DigitsValue(s: string): (v: nat)
    requires AllDigits(s)
    decreases |s|
  {
    if |s| == 0 then 0 else DigitsValue(s[..|s| - 1]) * 10 + DigitValue(s[|s| - 1])
  }

  /** Decimal representation of a natural number, without leading zeros. */
  function NatToString(n: nat): (s: string)
    ensures |s| >= 1 && AllDigits(s)
    ensures s[0] == '0' ==> n == 0
    decreases n
  {
    if n < 10 then [DigitChar(n)] else NatToString(n / 10) + [DigitChar(n % 10)]
  }

  lemma {:induction false} NatToStringRoundTrip(n: nat)
    ensures DigitsValue(NatToString(n)) == n
    decreases n
  {
    if n < 10 {
      DigitRoundTrip(n);
    } else {
      var s := NatToString(n / 10);
      var t := s + [DigitChar(n % 10)];
      assert NatToString(n) == t;
      assert t[..|t| - 1] == s;
      NatToStringRoundTrip(n / 10);
      DigitRoundTrip(n % 10);
    }
  }

  /** Characters that `%d` and `%02d` can produce: digits and a leading minus sign. */
  predicate IsNumeral(s: string)
  {
    |s| >= 1 && forall i :: 0 <= i < |s| ==> IsDigit(s[i]) || (i == 0 && s[i] == '-')
  }

  /** `String(format: "%d", n)`. */
  function IntToString(n: int): (s: string)
    ensures IsNumeral(s)
    ensures n >= 0 <==> IsDigit(s[0])
  {
    if n < 0 then "-" + NatToString(-n) else NatToString(n)
  }

  /**
   * `String(format: "%02d", n)`: zero-padded to width two. A negative number
   * already fills the width with its sign, so it is printed as `%d` would.
   */
  function Pad2(n: int): (s: string)
    ensures IsNumeral(s) && |s| >= 2
    ensures 0 <= n < 10 ==> s == ['0', DigitChar(n)]
  {
    if 0 <= n < 10 then "0" + NatToString(n)
    else
      NatLength(if n < 0 then -n else n);
      IntToString(n)
  }

  /** A number of two or more digits prints with at least two characters. */
  lemma NatLength(n: nat)
    requires n >= 1
    ensures n >= 10 ==> |NatToString(n)| >= 2
  {
  }

  // ---------------------------------------------------------------------------
  // Int(String)
  // ---------------------------------------------------------------------------

  /**
   * Swift's `Int(String)`: an optional `+` or `-` followed by one or more ASCII
   * digits and nothing else; anything else yields `nil`.
   */
  function ParseInt(s: string): (r: Option<int>)
    ensures r.Some? ==> |s| >= 1
    ensures AllDigits(s) && |s| >= 1 ==> r == Some(DigitsValue(s))
  {
    if |s| == 0 then None
    else if s[0] == '+' || s[0] == '-' then
      var rest := s[1..];
      if |rest| > 0 && AllDigits(rest) then
        var magnitude: int := DigitsValue(rest);
        Some(if s[0] == '-' then -magnitude else magnitude)
      else None
    else if AllDigits(s) then Some(DigitsValue(s))
    else None
  }

  /** Printing with `%d` and parsing back with `Int(String)` is the identity. */
  lemma IntToStringRoundTrip(n: int)
    ensures ParseInt(IntToString(n)) == Some(n)
  {
    if n < 0 {
      var digits := NatToString(-n);
      assert ("-" + digits)[1..] == digits;
      NatToStringRoundTrip(-n);
    } else {
      NatToStringRoundTrip(n);
    }
  }

  /** Printing with `%02d` and parsing back with `Int(String)` is the identity. */
  lemma Pad2RoundTrip(n: int)
    ensures ParseInt(Pad2(n)) == Some(n)
  {
    if 0 <= n < 10 {
      var s := ['0', DigitChar(n)];
      assert s[..1] == ['0'];
      assert DigitsValue(s) == DigitsValue(['0']) * 10 + DigitValue(DigitChar(n));
      assert DigitsValue(['0']) == 0 by {
        assert ['0'][..0] == [];
      }
    } else {
      IntToStringRoundTrip(n);
    }
  }

  // ---------------------------------------------------------------------------
  // split(separator:) and compactMap { Int($0) }
  // ---------------------------------------------------------------------------

  /** Position of the first `c` in `s`, or `|s|` when there is none. */
  function IndexOf(s: string, c: char): (k: nat)
    ensures k <= |s|
    ensures forall i :: 0 <= i < k ==> s[i] != c
    ensures k < |s| ==> s[k] == c
  {
    if |s| == 0 then 0 else if s[0] == c then 0 else 1 + IndexOf(s[1..], c)
  }

  /**
   * Swift's `s.split(separator: sep)` with its defaults: every maximal run of
   * characters other than `sep`, in order; empty pieces are dropped.
   */
  function Split(s: string, sep: char): (parts: seq<string>)
    ensures forall i :: 0 <= i < |parts| ==> |parts[i]| > 0 && sep !in parts[i]
    decreases |s|
  {
    if |s| == 0 then []
    else if s[0] == sep then Split(s[1..], sep)
    else
      var k := IndexOf(s, sep);
      [s[..k]] + Split(s[k..], sep)
  }

  /** A non-empty piece without separators splits to itself. */
  lemma SplitSingle(a: string, sep: char)
    requires |a| > 0 && sep !in a
    ensures Split(a, sep) == [a]
  {
    assert IndexOf(a, sep) == |a|;
    assert a[..|a|] == a;
    assert a[|a|..] == [];
  }

  /** The first separator of `a + [sep] + b` is the one after `a`. */
  lemma IndexOfJoined(a: string, b: string, sep: char)
    requires sep !in a
    ensures IndexOf(a + [sep] + b, sep) == |a|
  {
    var s := a + [sep] + b;
    var k := IndexOf(s, sep);
    assert s[|a|] == sep;
  }

  /** Two non-empty separator-free pieces joined by one separator split back apart. */
  lemma SplitPair(a: string, b: string, sep: char)
    requires |a| > 0 && sep !in a
    requires |b| > 0 && sep !in b
    ensures Split(a + [sep] + b, sep) == [a, b]
  {
    var s := a + [sep] + b;
    IndexOfJoined(a, b, sep);
    assert s[0] == a[0];
    assert Split(s, sep) == [s[..|a|]] + Split(s[|a|..], sep);
    assert s[..|a|] == a;
    var t := s[|a|..];
    assert t == [sep] + b;
    assert t[1..] == b;
    assert Split(t, sep) == Split(b, sep);
    SplitSingle(b, sep);
  }

  /** `compactMap { Int($0) }`: the pieces that parse as integers, in order. */
  function ParseAll(parts: seq<string>): (ns: seq<int>)
    ensures |ns| <= |parts|
  {
    if |parts| == 0 then []
    else
      match ParseInt(parts[0])
      case Some(n) => [n] + ParseAll(parts[1..])
      case None => ParseAll(parts[1..])
  }

  /** `s.split(separator: ":").compactMap { Int($0) }`. */
  function ColonFields(s: string): seq<int>
  {
    ParseAll(Split(s, ':'))
  }

  lemma NumeralHasNoColon(s: string)
    requires IsNumeral(s)
    ensures ':' !in s
  {
    assert forall i :: 0 <= i < |s| ==> s[i] != ':';
  }

  /** `"%02d:%02d"` of two integers parses back to exactly those integers. */
  lemma ColonFieldsOfPadded(x: int, y: int)
    ensures ColonFields(Pad2(x) + ":" + Pad2(y)) == [x, y]
  {
    var a, b := Pad2(x), Pad2(y);
    NumeralHasNoColon(a);
    NumeralHasNoColon(b);
    assert a + ":" + b == a + [':'] + b;
    SplitPair(a, b, ':');
    Pad2RoundTrip(x);
    Pad2RoundTrip(y);
    var parts := [a, b];
    assert parts[1..] == [b];
    assert parts[1..][1..] == [];
    assert ParseAll([b]) == [y] + ParseAll([]);
    assert ParseAll(parts) == [x] + ParseAll([b]);
  }
}

=== FILE: TimePicker.dfy ===
/**
 * The nightly-call time picker: twelve evening slots half an hour apart,
 * the 30-minute call window that starts at the chosen slot, and the 12-hour
 * label shown on the wheel. Clock strings are "HH:MM" as printed by
 * "%02d:%02d"; they are read back by splitting on ':' and parsing each piece.
 */
module TimePicker {
  import opened Wrappers
  import opened Strings
  import opened Steps
  import opened Onboarding

  const OptionCount: nat := 12
  const MinutesPerDay: int := 1440
  /** The slot selected when the step opens and after a reset: 20:00. */
  const DefaultIndex: int := 4
  /** The dash between the two ends of a window label (U+2013). */
  const EnDash: string := "\U{2013}"

  /** "%02d:%02d" of an hour and a minute; reading it back gives the two numbers. */
  function ClockText(h: int, m: int): (s: string)
    ensures ColonFields(s) == [h, m]
  {
    ColonFieldsOfPadded(h, m);
    Pad2(h) + ":" + Pad2(m)
  }

  /** The clock text of a minute of the day. */
  function MinuteText(t: int): (s: string)
    requires 0 <= t < MinutesPerDay
    ensures ColonFields(s) == [t / 60, t % 60]
    ensures 0 <= t / 60 < 24 && 0 <= t % 60 < 60
  {
    ClockText(t / 60, t % 60)
  }

  /** Minutes after midnight of slot i: the slots start at 18:00 and are 30 minutes apart. */
  function SlotStart(i: int): (t: int)
    ensures 0 <= i < OptionCount ==> 18 * 60 <= t <= 23 * 60 + 30
  {
    18 * 60 + 30 * i
  }

  /** Slot i as the picker prints it, with the hour wrapped at 24. */
  function OptionText(i: int): (s: string)
    requires 0 <= i < OptionCount
    ensures s == MinuteText(SlotStart(i))
  {
    var total := SlotStart(i);
    TruncationAgreesOnNonNegatives(total, 60);
    TruncationAgreesOnNonNegatives(TDiv(total, 60), 24);
    var hour := TRem(TDiv(total, 60), 24);
    var minute := TRem(total, 60);
    assert hour == total / 60 && minute == total % 60;
    ClockText(hour, minute)
  }

  /** The twelve slots 18:00, 18:30, ..., 23:30. */
  function TimeOptions(): (opts: seq<string>)
    ensures |opts| == OptionCount
    ensures forall i :: 0 <= i < OptionCount ==> opts[i] == MinuteText(SlotStart(i))
  {
    seq(OptionCount, i requires 0 <= i < OptionCount => OptionText(i))
  }

  /** The slot an index selects: the index itself, or the last slot for an index past the end. */
  function SlotIndex(index: int): (i: int)
    requires index >= 0
    ensures 0 <= i < OptionCount
    ensures index < OptionCount ==> i == index
    ensures index >= OptionCount ==> i == OptionCount - 1
  {
    if index < OptionCount then index else OptionCount - 1
  }

  /** The slot the cursor shows; an index past the end shows the last slot. */
  function SelectedTime(index: int): (s: string)
    requires index >= 0
    ensures s == MinuteText(SlotStart(SlotIndex(index)))
  {
    var opts := TimeOptions();
    opts[if index < |opts| - 1 then index else |opts| - 1]
  }

  /** Where a drag leaves the cursor: moved by `change` slots and kept on the wheel. */
  function DragSnap(index: int, change: int): (r: int)
    ensures 0 <= r < OptionCount
    ensures 0 <= index + change < OptionCount ==> r == index + change
    ensures index + change < 0 ==> r == 0
    ensures index + change >= OptionCount ==> r == OptionCount - 1
  {
    var wanted := index + change;
    var capped := if OptionCount - 1 < wanted then OptionCount - 1 else wanted;
    if 0 < capped then capped else 0
  }

  /** The picker's own state; the two opacities only drive animations. */
  datatype Picker = Picker(selectedIndex: int, opacity: real, flashOpacity: real)

  function Reset(p: Picker): (q: Picker)
    ensures q.selectedIndex == DefaultIndex && q.opacity == 0.0 && q.flashOpacity == 0.0
  {
    Picker(DefaultIndex, 0.0, 0.0)
  }

  /**
   * The end of the half-hour window that starts at `start`. Text that does
   * not read back as exactly two numbers is returned unchanged.
   */
  function EndTime(start: string): (e: string)
    ensures |ColonFields(start)| != 2 ==> e == start
    ensures |ColonFields(start)| == 2 ==> |ColonFields(e)| == 2
  {
    var f := ColonFields(start);
    if |f| != 2 then start else HalfHourAfter(f[0], f[1])
  }

  /** The clock text 30 minutes after hour `h`, minute `m`, with the hour wrapped at 24. */
  function HalfHourAfter(h: int, m: int): (e: string)
    ensures |ColonFields(e)| == 2
  {
    ClockText(EndHour(h, m), EndMinute(h, m))
  }

  /** The hour 30 minutes after `h:m`, in Swift's truncating arithmetic, wrapped at 24. */
  function EndHour(h: int, m: int): int
  {
    TRem(TDiv(h * 60 + m + 30, 60), 24)
  }

  /** The minute 30 minutes after `h:m`, in Swift's truncating arithmetic. */
  function EndMinute(h: int, m: int): int
  {
    TRem(h * 60 + m + 30, 60)
  }

  /** The hour on a 12-hour dial: 13..23 drop by 12 and midnight shows as 12. */
  function DisplayHour(h: int): (d: int)
    ensures 0 <= h < 24 ==> 1 <= d <= 12 && (h - d) % 12 == 0
  {
    if h > 12 then h - 12 else if h == 0 then 12 else h
  }

  function Period(h: int): (p: string)
    ensures p == "PM" <==> h >= 12
    ensures p == "AM" <==> h < 12
  {
    if h >= 12 then "PM" else "AM"
  }

  /**
   * The wheel label "h:mm–h:mm P" of the window starting at `time`. Only the
   * end's AM/PM is printed. Text that does not read back as two numbers, at
   * either end, is shown as it is.
   */
  function FormatTimeForDisplay(time: string): (shown: string)
    ensures |ColonFields(time)| != 2 ==> shown == time
  {
    var endTime := EndTime(time);
    var s := ColonFields(time);
    var e := ColonFields(endTime);
    if |s| != 2 || |e| != 2 then time
    else
      IntToString(DisplayHour(s[0])) + ":" + Pad2(s[1]) + EnDash
      + IntToString(DisplayHour(e[0])) + ":" + Pad2(e[1]) + " " + Period(e[0])
  }

  /** The answer the step submits: the selected slot and the end of its window. */
  function HandleContinue(step: StepDefinition, index: int, now: real): (r: UserResponse)
    requires index >= 0
    ensures r.stepId == step.id && r.kind == TimeWindowPicker && r.dbField == step.dbField
    ensures r.value.TimeWindow? && r.value.start == SelectedTime(index)
    ensures r.value.end == EndTime(r.value.start)
    ensures r.timestamp == now
  {
    var start := SelectedTime(index);
    UserResponse(step.id, TimeWindowPicker, TimeWindow(start, EndTime(start)), now, step.dbField)
  }

  /** The minute of the day 30 minutes after minute `t`, wrapping at midnight. */
  function WindowEnd(t: int): (u: int)
    ensures 0 <= u < MinutesPerDay
  {
    (t + 30) % MinutesPerDay
  }

  /** The clock arithmetic of `EndTime`, on a minute of the day. */
  lemma HalfHourLater(t: int)
    requires 0 <= t < MinutesPerDay
    ensures var u := WindowEnd(t);
            TRem(TDiv(t + 30, 60), 24) == u / 60 && TRem(t + 30, 60) == u % 60
  {
    TruncationAgreesOnNonNegatives(t + 30, 60);
    var q := (t + 30) / 60;
    TruncationAgreesOnNonNegatives(q, 24);
    if t + 30 < MinutesPerDay {
      assert (t + 30) % MinutesPerDay == t + 30;
      assert q % 24 == q;
    } else {
      var u := t + 30 - MinutesPerDay;
      assert (t + 30) % MinutesPerDay == u;
      assert q == 24 && q % 24 == 0;
      assert u / 60 == 0 && u % 60 == u == (t + 30) % 60;
    }
  }

  lemma EndOfTotal(h: int, m: int, total: int)
    requires h * 60 + m + 30 == total
    ensures EndHour(h, m) == TRem(TDiv(total, 60), 24) && EndMinute(h, m) == TRem(total, 60)
  {
  }

  /** Adding 30 minutes to a minute of the day, modulo 24 hours. */
  lemma EndTimeAddsHalfHour(t: int)
    requires 0 <= t < MinutesPerDay
    ensures EndTime(MinuteText(t)) == MinuteText(WindowEnd(t))
  {
    EndTimeOfFields(MinuteText(t), t / 60, t % 60);
    EndOfTotal(t / 60, t % 60, t + 30);
    HalfHourLater(t);
  }

  /** `EndTime` on a text that reads back as an hour and a minute. */
  lemma EndTimeOfFields(start: string, h: int, m: int)
    requires ColonFields(start) == [h, m]
    ensures EndTime(start) == HalfHourAfter(h, m)
  {
    var f := ColonFields(start);
    assert |f| == 2 && f[0] == h && f[1] == m;
  }

  /** The last slot's window ends at midnight. */
  lemma LastSlotEndsAtMidnight()
    ensures EndTime(MinuteText(SlotStart(OptionCount - 1))) == MinuteText(0)
  {
    EndTimeAddsHalfHour(SlotStart(OptionCount - 1));
  }

  /** The cursor starts on 20:00, and a reset puts it back there. */
  lemma DefaultSlotIsEightPm(p: Picker)
    ensures Reset(p).selectedIndex == DefaultIndex
    ensures SelectedTime(DefaultIndex) == MinuteText(20 * 60)
  {
  }

  /** Slot i reads back as hour 18 + i / 2 and minute 0 or 30, so the slots run 18:00 through 23:30. */
  lemma SlotClock(i: int)
    requires 0 <= i < OptionCount
    ensures ColonFields(TimeOptions()[i]) == [18 + i / 2, 30 * (i % 2)]
    ensures ColonFields(MinuteText(SlotStart(i))) == [18 + i / 2, 30 * (i % 2)]
  {
    SlotStartSplit(i);
    assert TimeOptions()[i] == MinuteText(SlotStart(i));
  }

  /** Slot i starts at hour 18 + i / 2, minute 0 or 30. */
  lemma SlotStartSplit(i: int)
    requires 0 <= i < OptionCount
    ensures SlotStart(i) / 60 == 18 + i / 2 && SlotStart(i) % 60 == 30 * (i % 2)
  {
    assert SlotStart(i) == (18 + i / 2) * 60 + 30 * (i % 2);
  }

  /** An end time always reads back, so a label falls back to the raw text only when the start does not. */
  lemma LabelFallsBackOnlyOnBadStart(time: string)
    ensures FormatTimeForDisplay(time) == time || |ColonFields(time)| == 2
    ensures |ColonFields(time)| == 2 ==> EnDash[0] in FormatTimeForDisplay(time)
  {
    var f := ColonFields(time);
    if |f| == 2 {
      EndTimeOfFields(time, f[0], f[1]);
      var e := ColonFields(EndTime(time));
      LabelOfFields(time, f[0], f[1], e[0], e[1], DisplayHour(f[0]), DisplayHour(e[0]), Period(e[0]));
      var shown := FormatTimeForDisplay(time);
      var before := IntToString(DisplayHour(f[0])) + ":" + Pad2(f[1]);
      assert shown[|before|] == EnDash[0];
    }
  }

  /** The label of a start that reads back, written with its fields and those of its end. */
  lemma LabelOfFields(time: string, h: int, m: int, eh: int, em: int, dh: int, deh: int, period: string)
    requires ColonFields(time) == [h, m] && ColonFields(EndTime(time)) == [eh, em]
    requires DisplayHour(h) == dh && DisplayHour(eh) == deh && Period(eh) == period
    ensures FormatTimeForDisplay(time) ==
              IntToString(dh) + ":" + Pad2(m) + EnDash + IntToString(deh) + ":" + Pad2(em) + " " + period
  {
  }

  /**
   * The wheel label of every slot but the last: slot i runs from 6 + i / 2
   * o'clock to the next slot's start, in the evening.
   */
  lemma SlotLabel(i: int)
    requires 0 <= i < OptionCount - 1
    ensures FormatTimeForDisplay(TimeOptions()[i]) ==
              IntToString(6 + i / 2) + ":" + Pad2(30 * (i % 2)) + EnDash
              + IntToString(6 + (i + 1) / 2) + ":" + Pad2(30 * ((i + 1) % 2)) + " PM"
  {
    var h, m, eh, em := 18 + i / 2, 30 * (i % 2), 18 + (i + 1) / 2, 30 * ((i + 1) % 2);
    SlotWindowFields(i);
    LabelOfFields(TimeOptions()[i], h, m, eh, em, 6 + i / 2, 6 + (i + 1) / 2, "PM");
  }

  /** Slot i, short of the last, reads back as its hour and minute, and its end as the next slot's. */
  lemma SlotWindowFields(i: int)
    requires 0 <= i < OptionCount - 1
    ensures ColonFields(TimeOptions()[i]) == [18 + i / 2, 30 * (i % 2)]
    ensures ColonFields(EndTime(TimeOptions()[i])) == [18 + (i + 1) / 2, 30 * ((i + 1) % 2)]
  {
    SlotClock(i);
    SlotEndFields(i);
    assert TimeOptions()[i] == MinuteText(SlotStart(i));
  }

  lemma SlotEndFields(i: int)
    requires 0 <= i < OptionCount - 1
    ensures ColonFields(EndTime(MinuteText(SlotStart(i)))) == [18 + (i + 1) / 2, 30 * ((i + 1) % 2)]
  {
    SlotEndSplit(i);
    EndFieldsOfMinute(SlotStart(i), 18 + (i + 1) / 2, 30 * ((i + 1) % 2));
  }

  /** Slot i's window ends at the start of slot i + 1, split into hour and minute. */
  lemma SlotEndSplit(i: int)
    requires 0 <= i < OptionCount - 1
    ensures WindowEnd(SlotStart(i)) / 60 == 18 + (i + 1) / 2
    ensures WindowEnd(SlotStart(i)) % 60 == 30 * ((i + 1) % 2)
  {
    SlotEndMinute(i);
    SlotStartSplit(i + 1);
  }

  /** The fields an end time reads back as, for a start given in minutes after midnight. */
  lemma EndFieldsOfMinute(t: int, h: int, m: int)
    requires 0 <= t < MinutesPerDay
    requires WindowEnd(t) / 60 == h && WindowEnd(t) % 60 == m
    ensures ColonFields(EndTime(MinuteText(t))) == [h, m]
  {
    EndTimeAddsHalfHour(t);
  }

  /** The last slot's label: its window ends at midnight, shown as 12:00 AM. */
  lemma LastSlotLabel()
    ensures FormatTimeForDisplay(TimeOptions()[OptionCount - 1]) == "11:30" + EnDash + "12:00 AM"
  {
    LastWindowFields();
    LabelOfFields(TimeOptions()[OptionCount - 1], 23, 30, 0, 0, 11, 12, "AM");
    LastLabelNumerals();
  }

  lemma LastLabelNumerals()
    ensures IntToString(11) + ":" + Pad2(30) + EnDash + IntToString(12) + ":" + Pad2(0) + " " + "AM"
            == "11:30" + EnDash + "12:00 AM"
  {
    assert IntToString(11) == "11" && IntToString(12) == "12";
    assert Pad2(30) == "30" && Pad2(0) == "00";
  }

  /** The last slot reads back as 23:30 and its end as 00:00. */
  lemma LastWindowFields()
    ensures ColonFields(TimeOptions()[OptionCount - 1]) == [23, 30]
    ensures ColonFields(EndTime(TimeOptions()[OptionCount - 1])) == [0, 0]
  {
    var i := OptionCount - 1;
    SlotClock(i);
    assert 18 + i / 2 == 23 && 30 * (i % 2) == 30;
    LastEndFields();
    assert TimeOptions()[i] == MinuteText(SlotStart(i));
  }

  lemma LastEndFields()
    ensures ColonFields(EndTime(MinuteText(SlotStart(OptionCount - 1)))) == [0, 0]
  {
    var t := SlotStart(OptionCount - 1);
    EndTimeAddsHalfHour(t);
    SlotEndMinute(OptionCount - 1);
    var u := WindowEnd(t);
    assert ColonFields(EndTime(MinuteText(t))) == [u / 60, u % 60];
  }

  /** The selected slot reads back as hour 18 + i / 2 and minute 0 or 30, with i the clamped index. */
  lemma SelectedSlotClock(index: int)
    requires index >= 0
    ensures var i := SlotIndex(index);
            ColonFields(SelectedTime(index)) == [18 + i / 2, 30 * (i % 2)]
  {
    var i := SlotIndex(index);
    var shown := SelectedTime(index);
    assert shown == MinuteText(SlotStart(i));
    SlotStartFields(i, shown);
  }

  /** A slot's clock text reads back as its hour and minute. */
  lemma SlotStartFields(i: int, shown: string)
    requires 0 <= i < OptionCount && shown == MinuteText(SlotStart(i))
    ensures ColonFields(shown) == [18 + i / 2, 30 * (i % 2)]
  {
    SlotStartSplit(i);
  }

  /**
   * The submitted window is the half hour that starts at the selected slot:
   * its start is that slot's clock text and its end is 30 minutes later,
   * wrapping to 00:00 for the 23:30 slot.
   */
  lemma SubmittedWindowIsHalfHour(step: StepDefinition, index: int, now: real)
    requires index >= 0
    ensures HandleContinue(step, index, now).value.start == MinuteText(SlotStart(SlotIndex(index)))
    ensures HandleContinue(step, index, now).value.end == MinuteText(WindowEnd(SlotStart(SlotIndex(index))))
  {
    EndTimeAddsHalfHour(SlotStart(SlotIndex(index)));
  }

  /** The minute a slot's window ends: 30 minutes on, or midnight for the last slot. */
  lemma SlotEndMinute(i: int)
    requires 0 <= i < OptionCount
    ensures WindowEnd(SlotStart(i)) ==
              (if i < OptionCount - 1 then SlotStart(i) + 30 else 0)
  {
  }

  /**
   * The label's AM/PM comes from the end of the window, so every slot is
   * labelled PM except 23:30, whose window ends at 00:00 and is labelled AM.
   */
  lemma SlotEndPeriod(i: int)
    requires 0 <= i < OptionCount
    ensures var e := ColonFields(EndTime(MinuteText(SlotStart(i))));
            |e| == 2 && (Period(e[0]) == "PM" <==> i < OptionCount - 1)
  {
    var t := SlotStart(i);
    EndTimeAddsHalfHour(t);
    SlotEndMinute(i);
    var u := WindowEnd(t);
    var e := ColonFields(EndTime(MinuteText(t)));
    assert e == [u / 60, u % 60];
  }
}

=== FILE: Users.dfy ===
/**
 * The signed-in user's profile record, the letter grade it carries, and the
 * home screen's call status. The current time is passed in as `now`,
 * in seconds.
 */
module Users {
  import opened Wrappers
  import opened Strings

  datatype User = User(
    id: string,
    email: Option<string>,
    name: Option<string>,
    createdAt: Option<real>,
    updatedAt: Option<real>,
    revenuecatCustomerId: Option<string>,
    onboardingCompleted: Option<bool>,
    almostThereCompleted: Option<bool>,
    callStreak: Option<int>,
    currentGrade: Option<string>)

  /** The text of `s` before its first `c`; all of `s` when there is none. */
  function TextBefore(s: string, c: char): (r: string)
    ensures r <= s && c !in r
    ensures |r| < |s| ==> s[|r|] == c
  {
    s[..IndexOf(s, c)]
  }

  /** The name, else the email's local part, else "User". */
  function DisplayName(u: User): (r: string)
    ensures u.name.Some? ==> r == u.name.value
    ensures u.name.None? && u.email.Some? ==> r <= u.email.value && '@' !in r
    ensures u.name.None? && u.email.Some? && |r| < |u.email.value| ==> u.email.value[|r|] == '@'
    ensures u.name.None? && u.email.None? ==> r == "User"
  {
    match u.name
    case Some(n) => n
    case None =>
      match u.email
      case Some(e) => TextBefore(e, '@')
      case None => "User"
  }

  datatype Grade = A | B | C | F

  /** The grade's stored spelling. */
  function RawValue(g: Grade): string
  {
    match g
    case A => "A"
    case B => "B"
    case C => "C"
    case F => "F"
  }

  /** The grade with the given spelling, if any. */
  function ParseGrade(raw: string): (r: Option<Grade>)
    ensures r.Some? ==> RawValue(r.value) == raw
  {
    if raw == "A" then Some(A)
    else if raw == "B" then Some(B)
    else if raw == "C" then Some(C)
    else if raw == "F" then Some(F)
    else None
  }

  /** The stored grade; a missing or unknown spelling counts as F. */
  function GradeOf(u: User): (g: Grade)
    ensures g != F ==> u.currentGrade == Some(RawValue(g))
  {
    ParseGrade(u.currentGrade.GetOr("F")).GetOr(F)
  }

  function Emoji(g: Grade): string
  {
    match g
    case A => "\U{1F525}"
    case B => "\U{1F4AA}"
    case C => "\U{26A0}\U{FE0F}"
    case F => "\U{1F480}"
  }

  function Message(g: Grade): string
  {
    match g
    case A => "UNSTOPPABLE"
    case B => "SOLID PROGRESS"
    case C => "BARELY PASSING"
    case F => "COMPLETE FAILURE"
  }

  datatype UserStatus = UserStatus(
    streak: int,
    grade: Grade,
    nextCallTime: Option<real>,
    lastCallCompleted: Option<real>,
    hasActiveSubscription: bool)

  /** A call is due once its scheduled time has come; with nothing scheduled it never is. */
  function IsCallDue(s: UserStatus, now: real): (due: bool)
    ensures s.nextCallTime.None? ==> !due
    ensures s.nextCallTime.Some? ==> (due <==> s.nextCallTime.value <= now)
  {
    match s.nextCallTime
    case None => false
    case Some(next) => now >= next
  }

  function TimeUntilNextCall(s: UserStatus, now: real): (r: Option<real>)
    ensures r.None? <==> s.nextCallTime.None?
    ensures r.Some? ==> r.value + now == s.nextCallTime.value
  {
    match s.nextCallTime
    case None => None
    case Some(next) => Some(next - now)
  }

  /** Without a name, the display name is the email's text up to its first '@'. */
  lemma DisplayNameOfEmail(u: User, local: string, domain: string)
    requires u.name.None? && u.email == Some(local + "@" + domain)
    requires '@' !in local
    ensures DisplayName(u) == local
  {
    var e := local + "@" + domain;
    assert e[|local|] == '@';
    assert e[..|local|] == local;
    assert IndexOf(e, '@') == |local|;
  }

  /** An email with no '@' is shown whole, and an empty email shows as "". */
  lemma DisplayNameOfPlainEmail(u: User)
    requires u.name.None? && u.email.Some? && '@' !in u.email.value
    ensures DisplayName(u) == u.email.value
  {
  }

  /** Exactly the four spellings "A", "B", "C" and "F" parse, each to its own grade. */
  lemma GradeRoundTrip(g: Grade, raw: string)
    ensures ParseGrade(RawValue(g)) == Some(g)
    ensures ParseGrade(raw).Some? <==> raw in {"A", "B", "C", "F"}
  {
  }

  /** The grade is the stored one when it is a known spelling, and F otherwise, including "A+" or "D". */
  lemma GradeOfUser(u: User)
    ensures u.currentGrade.Some? && ParseGrade(u.currentGrade.value).Some? ==>
              GradeOf(u) == ParseGrade(u.currentGrade.value).value
    ensures u.currentGrade.None? || ParseGrade(u.currentGrade.value).None? ==> GradeOf(u) == F
  {
  }

  /** Each grade has its own message and its own emoji. */
  lemma GradeLabelsDistinct(g: Grade, h: Grade)
    requires g != h
    ensures Message(g) != Message(h)
    ensures Emoji(g) != Emoji(h)
  {
  }

  /** A call is due exactly when one is scheduled and the time left is not positive. */
  lemma CallDueIffNoTimeLeft(s: UserStatus, now: real)
    ensures IsCallDue(s, now) <==> TimeUntilNextCall(s, now).Some? && TimeUntilNextCall(s, now).value <= 0.0
  {
  }
}

=== FILE: Wrappers.dfy ===
/** Swift's `Optional`, used for every nullable field and lookup in the model. */
module Wrappers {

  datatype Option<+T> = None | Some(value: T) {

    /** Swift's `??`: the wrapped value, or the default when absent. */
    function GetOr(default: T): T
    {
      match this
      case Some(v) => v
      case None => default
    }
  }
}
